=== FILE: README.md ===
# Mini movie API, modelled in Dafny

This project models the request handling of a small Node.js movie API that
keeps its catalogue in a JSON file. The repository holds three generations
of the same API, and they are modelled side by side:

- **The legacy `/films` server** (`server.mjs`). It dispatches on the raw url,
  looks films up with `findFilm`, and appends new ones with `addFilm`, which
  numbers a record by the list length.
- **The live `/movies` path** (`app.mjs` → `routes/movies.mjs` →
  `controllers/movies.mjs` → `models/movies.mjs`). It uses `addMovie`
  (max id + 1), the legacy `filterMovies` helper and `verifyBodyStructure`.
- **The newer service layer** (`services/movies.mjs` with
  `services/movieBusinessLogic.mjs`). Nothing shown calls it. It is written
  against a repository with `getAll`, `getById`, `getNextId` and `saveAll`,
  which `models/movies.mjs` does not provide, so the model takes that
  repository as a parameter.
- **The middleware runner** (`middlewares/runMiddlewares.mjs`) and its three
  stages.

JSON values are a datatype (`JsValue.Value`) whose objects are
`map<string, Value>`. Object spread is right-biased map union. A JavaScript
exception (`null.title`, `undefined.toLowerCase()`, a rejected promise) is
the `Throw` case of `Completions.Completion`, and `:-` propagates it the way
an uncaught throw propagates. The file store, `JSON.parse` and URL parsing
are parameters:

- a `Storage.Store` carries the read outcome, the document parser and the
  write outcome;
- a `MoviesService.Repository` carries the four repository calls.

Every writing operation returns what it handed to the store, so the
contracts can say what would be written. Message texts and HTML pages are
opaque tags (`Responses`).

The model follows what the code does, not what its names and comments suggest:

- no handler answers 405;
- DELETE, PUT and PATCH are not routed;
- `validatePartialBody` validates exactly like `validateBody`;
- there are no range checks on title or year;
- the legacy filter discards the genre once a year is given.

## Model

| member | source | states |
|---|---|---|
| MovieBusinessLogic.SameTitleCases | services/movieBusinessLogic.mjs:13-15 | the `some` callback compares trimmed lower-cased titles, and throws when either title is not a string |
| MovieBusinessLogic.IsDuplicateTitle | services/movieBusinessLogic.mjs:12-16 | it is false on an empty list and throws on a non-string title; over string titles it is true iff some record's folded, trimmed title equals the argument's; for a string title it throws iff a record whose title is not a string comes before any match |
| MovieBusinessLogic.DuplicateTitleThrows | services/movieBusinessLogic.mjs:13-15 | for a string title, `some` throws iff the first record it cannot read a string title from comes before any match |
| MovieBusinessLogic.DuplicateTitleCases | services/movieBusinessLogic.mjs:12-16 | `some` is true iff a record before any throwing one matches; with a non-string title it throws iff the list is non-empty |
| MovieBusinessLogic.MeetsCriteriaIsConjunction | services/movieBusinessLogic.mjs:28-39 | a movie passes the callback iff it meets the genre, year and title criteria; a falsy criterion imposes nothing |
| MovieBusinessLogic.FilterCallbackMeaning | services/movieBusinessLogic.mjs:28-39 | the filter callback accepts exactly the movies meeting every criterion; well-formed records never make it throw; empty criteria keep every movie |
| MovieBusinessLogic.FilterMovies | services/movieBusinessLogic.mjs:25-42 | the result is an order-preserving subsequence holding exactly the movies that meet every supplied criterion, each as often as in the input; `{}` returns the whole list; it throws iff some record's criteria fields cannot be read (`CriteriaReadable`) |
| MovieBusinessLogic.CallbackDefined | services/movieBusinessLogic.mjs:28-39 | the callback returns normally exactly when each truthy criterion it reaches finds strings (or, for the year, a defined record) on both sides |
| MovieBusinessLogic.IsMoviesArrayEmpty | services/movieBusinessLogic.mjs:49-51 | true for null or undefined; on an array or string, true iff its length is 0 |
| MovieBusinessLogic.CreateErrorResponse | services/movieBusinessLogic.mjs:59-65 | the envelope renders as `{success:false, statusCode, error:{message}}` |
| MovieBusinessLogic.CreateSuccessResponse | services/movieBusinessLogic.mjs:73-79 | the envelope renders as `{success:true, statusCode, data}` |
| AddMovieHelper.ReduceMax | helpers/addMovie.mjs:3-6 | the fold's result is at least its start, bounds every finite id, and is either the start or one of the ids |
| AddMovieHelper.MaxExistingId | helpers/addMovie.mjs:2-7 | the largest id is the fold started at 0, so an empty list gives 0 |
| AddMovieHelper.NextId | helpers/addMovie.mjs:2-9 | the next id is at least 1 and exceeds every finite id; it is 1 or one past a stored id |
| AddMovieHelper.StoredIdCounts | helpers/addMovie.mjs:2-9 | after a lone record whose string id `Number` reads as the integer `v`, the next id is `v + 1` |
| AddMovieHelper.ExponentIdCounts | helpers/addMovie.mjs:4-5 | an id stored in exponent notation (`"1e3"`) is finite for `Number` and counts: the next id is `d × 10^k + 1` |
| AddMovieHelper.PrefixedIdCounts | helpers/addMovie.mjs:4-5 | an id stored with a `0x`, `0o` or `0b` prefix (`"0x10"`) counts with its value in that base |
| AddMovieHelper.WithLeadingId | helpers/addMovie.mjs:11-14 | the record has the body's keys plus `id`, and the body's fields, `id` included, win over the computed id |
| AddMovieHelper.AddMovie | helpers/addMovie.mjs:1-18 | `newMovies` is the input with `newMovie` appended last, and `newMovie` carries the next id unless the body has one |
| AddMovieHelper.NextIdIsFresh | helpers/addMovie.mjs:4-9 | the computed id collides with no stored finite id |
| AddMovieHelper.NextIdIsOnePastMax | helpers/addMovie.mjs:2-9 | the computed id is max(0, largest finite id) + 1 |
| AddMovieHelper.ReduceMaxAppend | helpers/addMovie.mjs:3-6 | folding a concatenation is folding the second part from the first part's result |
| AddMovieHelper.NonPositiveIdsIgnored | helpers/addMovie.mjs:4-5 | inserting a record whose id is absent, not finite or not positive leaves the computed id unchanged |
| AddMovieHelper.BodyIdOverrides | helpers/addMovie.mjs:11-14 | a body carrying `id` is appended unchanged, so its own id wins |
| BodyValidation.TypeOf | helpers/verifyBodyStructure.mjs:14 | `typeof` gives `object` for null, arrays and objects, `string` for strings and `number` for numbers |
| BodyValidation.CheckFrom | helpers/verifyBodyStructure.mjs:13-17 | the loop is true iff every remaining schema key is own and has its type; it throws iff a key named `hasOwnProperty` shadows the method |
| BodyValidation.VerifyBodyStructure | helpers/verifyBodyStructure.mjs:1-20 | true iff the body is an object with exactly the keys title (string), year (number) and genre (string); non-objects give false |
| BodyValidation.ShapeByKeyCount | helpers/verifyBodyStructure.mjs:11-17 | with three keys, the per-key checks hold iff the body has exactly the schema's shape |
| BodyValidation.PartialPatchRejected | helpers/verifyBodyStructure.mjs:1-20 | the patch `{year:1999}` is rejected, so the partial validator's extra argument has no effect |
| BodyValidation.NoRangeChecks | helpers/verifyBodyStructure.mjs:14 | an empty title and a negative year are accepted |
| BodyValidation.ExtraKeyRejected | helpers/verifyBodyStructure.mjs:11 | a valid movie with an extra `id` key is rejected |
| Middleware.Next | middlewares/runMiddlewares.mjs:33-44 | a truthy error goes straight to the final handler; otherwise stages run in order from the index while they continue, and the run ends at the first one that does not continue or at the end with `finalHandler()` |
| Middleware.RunMiddlewares | middlewares/runMiddlewares.mjs:30-47 | stages run once each, in list order, from the first; an empty list calls `finalHandler()` at once |
| Middleware.StopsAtFirst | middlewares/runMiddlewares.mjs:33-44 | the run stops at the first stage that errs, throws or halts, after exactly the stages before it |
| Middleware.AllContinue | middlewares/runMiddlewares.mjs:36-37 | when every stage continues, all of them run and `finalHandler` gets no argument |
| Middleware.SameEffectsSameRun | middlewares/runMiddlewares.mjs:33-44 | two chains whose stages have the same effects run identically |
| Middleware.NextFalsy | middlewares/runMiddlewares.mjs:34 | `next(e)` with a falsy `e` behaves like `next()` |
| Middleware.ThrowIsNext | middlewares/runMiddlewares.mjs:39-43 | a stage throwing `e` has the same effect as one calling `next(e)` |
| Middleware.FalsyErrorContinues | middlewares/runMiddlewares.mjs:34 | a stage calling `next(e)` with a falsy `e` continues the chain |
| Middleware.ParseJsonBody | middlewares/parseJsonBody.mjs:3-30 | methods without a body pass through; an empty payload becomes `{}`; otherwise the parsed body is stored, or the stage halts with a 400 when parsing fails |
| Middleware.CheckBody | middlewares/validateBody.mjs:4-12 | the stage continues iff the body has the movie shape, halts with a 400 iff the validator returns false, and keeps the body |
| Middleware.ValidateBody | middlewares/validateBody.mjs:4-12 | the stage continues iff the body is a movie; otherwise it replies 400 or throws the validator's TypeError |
| Middleware.ValidatePartialBody | middlewares/validatePartialBody.mjs:4-12 | the partial validator behaves exactly like the full one |
| Middleware.BodyChainReachesHandler | middlewares/parseJsonBody.mjs:17-28 | for a method with a body, `[parseJsonBody, validateBody]` reaches the handler without an error iff the payload is non-empty and parses to a movie |
| LegacyFilter.CallbackMeaning | helpers/filterMovies.mjs:6-10 | the genre callback accepts exactly the case-insensitive genre matches and the year callback the `parseInt` matches; neither throws on well-formed input; the genre callback throws iff the genre or the record's genre is not a string, the year callback iff the record is nullish |
| LegacyFilter.ByGenre | helpers/filterMovies.mjs:6-7 | the genre filter returns a subsequence holding every copy of each case-insensitive genre match and nothing else; it returns normally iff the list is empty, or the genre is a string and every record has a string genre |
| LegacyFilter.ByYear | helpers/filterMovies.mjs:9-10 | the year filter returns a subsequence holding every copy of each `parseInt` year match and nothing else; it returns normally iff no record is nullish |
| LegacyFilter.FilterMovies | helpers/filterMovies.mjs:1-14 | undefined when neither genre nor year is truthy; with a year, exactly the year matches of the whole list; with only a genre, exactly the genre matches; matches keep their multiplicity; always a subsequence; it returns normally iff each truthy criterion's filter can read every record |
| LegacyFilter.TitleIgnored | helpers/filterMovies.mjs:2 | the `title` filter has no effect |
| LegacyFilter.YearOverridesGenre | helpers/filterMovies.mjs:9-11 | once a year is given, the result equals the result with the genre removed |
| LegacyFilter.YearDiscardsGenre | helpers/filterMovies.mjs:5-11 | with a truthy year and a string genre, a well-formed record of that year is returned whatever its genre |
| LegacyFilter.ExampleFilm | helpers/filterMovies.mjs:6-10 | the example film is a well-formed record of 2010 whose genre is not Drama |
| LegacyFilter.YearDiscardsGenreExample | helpers/filterMovies.mjs:5-11 | an Action film from 2010, which is not a Drama, is returned for `genre=Drama&year=2010` |
| LegacyFilter.FilterMoviesIntended | helpers/filterMovies.mjs:1-14 | the corrected filter keeps exactly the movies meeting both genre and year, each as often as in the input, as a subsequence, and keeps every movie when neither is given |
| LegacyFilter.IntendedFilterExample | helpers/filterMovies.mjs:5-11 | on the same example the corrected filter returns nothing |
| FindFilmHelper.IdMatches | helpers/findFilm.mjs:3 | the callback throws iff the film is not an object or its id is nullish; otherwise it compares `id.toString()` with the requested id |
| FindFilmHelper.FindFilm | helpers/findFilm.mjs:1-18 | it succeeds iff some film matches before any throwing one, returning the first match; it fails with the not-found error and `data` `''` iff no film matches |
| FindFilmHelper.NumericIdMatch | helpers/findFilm.mjs:3 | a numeric id matches exactly its decimal rendering |
| FindFilmHelper.LeadingZeroMisses | helpers/findFilm.mjs:3 | `'01'` does not match id 1 |
| FilmsRequest.HandleFilmsRequest | helpers/handleFilmsRequest.mjs:5-24 | a read failure gives 500; a falsy id gives 200 with the whole file; otherwise a found film gives 200 and a missing one 404 |
| FilmsRequest.ListingIgnoresParser | helpers/handleFilmsRequest.mjs:21-23 | the listing answer depends on the file text only, not on parsing |
| FilmsRequest.LookupOutcome | helpers/handleFilmsRequest.mjs:14-20 | over well-formed records exactly one reply is sent, and its status is 200 iff some film's id renders as the requested one |
| PathIds.IdSegment | server.mjs:11 | when an id is extracted, the url is `/name/` followed by it, and it holds no `/` |
| PathIds.SegmentsOfIdPath | server.mjs:11 | a url starting with `/name/` that splits into three parts is `/name/` plus the third part |
| PathIds.IdSegmentOf | routes/movies.mjs:5 | `/name/x` with no `/` in `x` yields the id `x`, `''` included |
| PathIds.TemplateMatchesIdUrls | server.mjs:26 | the template case `/name/${idURL}` equals the url iff an id was extracted |
| AddFilmHelper.FilmIdFor | helpers/addFilm.mjs:2 | the new id is the number of stored films plus one |
| AddFilmHelper.AddFilm | helpers/addFilm.mjs:1-12 | the films are kept in place with one record appended, carrying the body's fields and, when the body has no id, the length-based id |
| AddFilmHelper.AddFilmIgnoresStoredIds | helpers/addFilm.mjs:2 | the appended record depends only on how many films are stored |
| AddFilmHelper.AddFilmKeepsDuplicates | helpers/addFilm.mjs:8-10 | a film whose title is already stored is still appended |
| AddFilmHelper.AddFilmIdCollides | helpers/addFilm.mjs:2-6 | if a stored film already has id length + 1, the new record repeats it |
| AddFilmHelper.AddFilmCollisionExample | helpers/addFilm.mjs:2-10 | one stored film with id 2 gives a new film with id 2 |
| AddFilmHelper.AddMovieAvoidsTheCollision | helpers/addMovie.mjs:2-9 | on the same input the max + 1 rule gives id 3 |
| LegacyServer.PostFilm | server.mjs:42-86 | an unparsable or malformed body gives 400 before any read; a read failure gives 500; exactly when the body, the read and the stored document are good, it writes `addFilm(films, body)` and replies 201 or 500 with the write message |
| LegacyServer.Serve | server.mjs:9-88 | GET writes nothing: `/` is the welcome page, `/films` lists, an id url looks up, anything else is the 404 page; POST `/films` runs the post chain; every other request gets no reply |
| LegacyServer.GetByIdRoute | server.mjs:26-28 | `/films/x` looks up `x` |
| LegacyServer.TrailingSlashLists | server.mjs:11 | `/films/` yields the empty id and lists every film |
| LegacyServer.QueryStringIsNotFound | server.mjs:15-38 | `/films?genre=drama` is answered with the 404 page |
| LegacyServer.OtherMethodsUnanswered | server.mjs:13-87 | a PUT gets no reply and writes nothing |
| MoviesModel.Load | models/movies.mjs:8-28 | a read failure gives 500 with the read error; an empty collection gives the 404 envelope; unparsable data throws |
| MoviesModel.ApplyFilters | models/movies.mjs:30-32 | without filter keys the list is unchanged; otherwise it is the legacy filter's result, and an undefined result throws |
| MoviesModel.ListEnvelope | models/movies.mjs:35-48 | an empty list is the no-match 404, a non-empty list the 200 with the data |
| MoviesModel.GetAll | models/movies.mjs:7-49 | read and empty-store answers come first; then the filtered list decides between 404 and 200, and a crashing filter rejects |
| MoviesModel.TitleOnlyQueryThrows | models/movies.mjs:30-35 | a query holding only `title` makes `getAll` reject, since the filter returns undefined |
| MoviesModel.GetAllIntended | models/movies.mjs:7-49 | with the conjunctive filter, well-formed input never rejects, no criterion returns every movie, and a 200 holds only movies meeting both criteria |
| MoviesModel.HasId | models/movies.mjs:82 | `m.id === parseInt(id)` throws iff `m` is nullish, and is true iff the record's id is that number |
| MoviesModel.GetById | models/movies.mjs:51-97 | an empty id is 400 regardless of the store; otherwise the first record with the parsed id gives 200, and 404 iff no record has it; a failed read rejects, and over a loaded list it rejects iff `find` throws on a nullish record before the match |
| MoviesModel.LeadingZeroFound | models/movies.mjs:82 | `'01'` and `'1'` parse to the same id, unlike in the legacy lookup |
| MoviesModel.Delete | models/movies.mjs:142-201 | an empty id gives 400; over a loaded list the answer is the 404 not-found iff no record has the parsed id; a write happens iff the id is found and no record is nullish; it writes the collection without that id and answers 200 with the first removed movie, or 500 with the write message; a failed read, or a `find` that throws on a nullish record before the match, rejects and writes nothing; over a loaded list it rejects iff `find` throws or finds the movie in a list holding a nullish record |
| MoviesModel.KeptFilterDefined | models/movies.mjs:182 | the removal filter throws iff some record is nullish |
| MoviesModel.KeepsOthers | models/movies.mjs:182 | the removal callback keeps exactly the defined records without the id |
| MoviesModel.Removed | models/movies.mjs:182 | the removal filter throws iff some record is nullish; otherwise it is an order-preserving subsequence holding every copy of each record without the id and no record with it |
| MoviesModel.RemovalCounts | models/movies.mjs:182 | over non-nullish records the removal filter keeps each record without the id as often as it occurs, and drops every record with it |
| MoviesModel.RemovedSole | models/movies.mjs:182 | removing the id from a list holding only a record with that id leaves the empty list |
| MoviesModel.Remaining | models/movies.mjs:182 | the kept list is an order-preserving subsequence holding exactly the records without the id, each as often as in the input |
| MoviesModel.Create | models/movies.mjs:99-140 | as written: a throwing `JSON.parse` rejects and writes nothing; whenever the store holds movies it writes `undefined`, and the answer follows that write's outcome |
| MoviesModel.CreateNeverAdds | models/movies.mjs:123-126 | the appended collection is never written |
| MoviesModel.CreateIntended | models/movies.mjs:99-140 | corrected: a throwing `JSON.parse` rejects and writes nothing; it writes the stored movies with the new one appended and answers 201 with it when the write succeeds, or 500 with the write message when it fails |
| MoviesModel.CreatedIdIsFresh | models/movies.mjs:123-126 | the corrected create appends a record whose id no stored record has |
| MoviesController.Send | controllers/movies.mjs:15-20 | the reply carries the envelope's status and its `data` on success, its `error` otherwise |
| MoviesController.Answer | controllers/movies.mjs:13-20 | a rejected model call leaves no reply, as an unhandled rejection; otherwise the model's status is forwarded unchanged |
| MoviesController.IdText | controllers/movies.mjs:27 | the regex sees an absent id as the text `undefined`, which is not all digits |
| MoviesController.GetAll | controllers/movies.mjs:11-21 | the query goes to the model unchanged, and a reply is 200, 404 or 500 |
| MoviesController.GetById | controllers/movies.mjs:23-41 | an id not matching `^\d+$` gives 400; otherwise the model's answer is forwarded |
| MoviesController.RejectedIdIgnoresStore | controllers/movies.mjs:27-31 | a rejected id never reaches the store |
| MoviesController.EmptyIdIsInvalid | controllers/movies.mjs:27 | `''` is rejected by the controller, so the model's empty-id branch is unreachable from it |
| MoviesController.Create | controllers/movies.mjs:43-52 | the body goes to the model unvalidated, and its write and answer are forwarded |
| MoviesController.Delete | controllers/movies.mjs:54-72 | an id not matching `^\d+$` gives 400 and writes nothing; otherwise the model's delete is forwarded |
| MoviesRoutes.FromEntries | routes/movies.mjs:12 | the query has one string entry per key that occurs in the search parameters |
| MoviesRoutes.LastValueWins | routes/movies.mjs:12 | a repeated key takes its last value |
| MoviesRoutes.Dispatch | routes/movies.mjs:3-50 | GET dispatches on the pathname: `/` is the welcome, `/movies` lists with the query, a pathname equal to the id template with the raw-url id shows that id, any other pathname is the 404 page; POST `/movies` creates; nothing else is routed |
| MoviesRoutes.NormalisedPathWithoutId | routes/movies.mjs:25-27 | a url with no id segment whose pathname is `/movies/undefined` is sent to `getById` without an id and answered 400 |
| MoviesRoutes.ShowRoute | routes/movies.mjs:25-27 | `/movies/x` routes to `getById` with `x`, `''` included |
| MoviesRoutes.QueryOnIdIsNotFound | routes/movies.mjs:5 | `/movies/5?x=1` falls through to the 404 page |
| MoviesRoutes.ListingQuery | routes/movies.mjs:12 | `genre=a&genre=b` filters by `b` |
| MoviesRoutes.Handle | routes/movies.mjs:16-48 | each route runs its controller, and only creation writes |
| MoviesRoutes.App | app.mjs:4-6 | without body middleware the routes run with an undefined body, and only POST `/movies` can write |
| MoviesRoutes.DeleteUnrouted | routes/movies.mjs:7-49 | a DELETE gets no reply and writes nothing |
| MoviesService.Commit | services/movies.mjs:83-92 | a thrown step answers 500; a planned list is saved and answers the planned success, the save-failure 500, or 500 when saving throws |
| MoviesService.CommitCatches | services/movies.mjs:83-92 | when no planned answer is a 500, the operation answers the `catch`'s 500 iff the plan threw or `saveAll` rejected |
| MoviesService.CommitDuplicate | services/movies.mjs:154-173 | when a successful save does not answer 409, the operation answers 409 exactly when it planned that answer |
| MoviesService.GetAll | services/movies.mjs:17-39 | an empty or failed load comes first; without filters the whole collection is returned; with filters an empty result is the no-match 404, a non-empty one the 200 with exactly the filtered list, and a throwing filter 500; a 200 holds a non-empty subsequence meeting every criterion |
| MoviesService.GetById | services/movies.mjs:46-59 | a truthy movie gives 200 with it, a falsy one 404, a throw 500 |
| MoviesService.WithId | services/movies.mjs:77 | `{...movieData, id: nextId}` carries `nextId` and every other field of the body |
| MoviesService.CreatePlanShape | services/movies.mjs:66-80 | a duplicate title answers 409 iff it is found; with no duplicate and an id, the plan saves the existing list with the body plus `nextId` appended and answers 201 with that record |
| MoviesService.Create | services/movies.mjs:66-93 | a duplicate title gives 409 and saves nothing; with no duplicate and an id it saves the existing list plus the body with id `nextId` and, when the save succeeds, answers 201 with that record; success means the save succeeded; a failed save gives 500; a thrown load or a nullish body is the `catch`'s 500 with nothing saved; the status is always 201, 409 or 500 |
| MoviesService.CreatePlanThrows | services/movies.mjs:67-80 | the plan throws iff `getAll` rejects, the body is nullish, the title check throws, or `getNextId` rejects after the check passed |
| MoviesService.CreateCaught | services/movies.mjs:66-93 | `create` answers the `catch`'s 500 iff one of those steps throws or `saveAll` rejects; a step that throws before the save saves nothing |
| MoviesService.CreateKeepsTitlesUnique | services/movies.mjs:71-80 | for a string title, a collection without repeated titles stays so after a create |
| MoviesService.UniqueAppend | services/movies.mjs:71-80 | appending a record whose title matches none keeps titles unique |
| MoviesService.FindsRecord | services/movies.mjs:100-111 | the load is non-empty and the lookup finds a truthy record |
| MoviesService.DeletePlanShape | services/movies.mjs:100-115 | a delete saves only after a non-empty load and a truthy lookup, and saves the list without the id; an empty store or a missing movie is answered 404 before any save |
| MoviesService.DeletePlanProceeds | services/movies.mjs:108-118 | once the record is found, the plan saves iff no record is nullish, and throws otherwise |
| MoviesService.DeleteMovie | services/movies.mjs:100-131 | an empty store or a missing movie gives 404; what is saved is the collection without the id, in order, each kept record as often as stored; success carries the deleted movie; a failed save gives 500 |
| MoviesService.DeleteMovieSaves | services/movies.mjs:108-130 | once the record is found over non-nullish records, the filtered list is saved and a successful save answers 200 with the deleted movie; a nullish record is answered 500 without saving |
| MoviesService.DeletePlanCatches | services/movies.mjs:100-126 | a thrown load, or a thrown lookup after a non-empty load, makes the plan throw; its own answers are 404s and its success a 200 |
| MoviesService.DeletePlanThrows | services/movies.mjs:101-115 | the plan throws iff `getAll` rejects, `getById` rejects after a non-empty load, or the filter meets a nullish record after the movie is found |
| MoviesService.DeleteMovieCaught | services/movies.mjs:100-131 | `deleteMovie` answers the `catch`'s 500 iff one of those steps throws or `saveAll` rejects; a step that throws before the save saves nothing |
| MoviesService.DeleteMovieCatches | services/movies.mjs:100-131 | a thrown load, or a thrown lookup after a non-empty load, is the `catch`'s 500 with nothing saved; the status is always 200, 404 or 500 |
| MoviesService.TitleConflict | services/movies.mjs:154-158 | the duplicate check runs only for a truthy title not `===` the stored one, against the whole collection |
| MoviesService.ApplyUpdate | services/movies.mjs:161-170 | records with the id are replaced by the merged record, the rest stay in place; it throws iff some record is nullish |
| MoviesService.UpdatePlanShape | services/movies.mjs:139-162 | an update saves only after a non-empty load and a truthy lookup, saves the merged collection and answers 200 with the merged record |
| MoviesService.UpdatePlanEarly | services/movies.mjs:139-152 | an empty store or a missing movie is answered 404 before any save, and no early answer is a 200 |
| MoviesService.UpdatePlanCatches | services/movies.mjs:139-150 | a thrown load, or a thrown lookup after a non-empty load, makes the plan throw |
| MoviesService.UpdatePlanCodes | services/movies.mjs:139-170 | the plan's own answers are 404s and a 409, and its success a 200 |
| MoviesService.UpdatePlanProceeds | services/movies.mjs:147-162 | once the record is found, a nullish body throws; otherwise the title check decides between 409 and the merge, and its throw propagates |
| MoviesService.Update | services/movies.mjs:139-175 | an empty store or a missing movie gives 404; what is saved replaces only the records with the id by the existing record overridden by the patch; a 409 saves nothing; a failed save gives 500 |
| MoviesService.UpdateAnswers | services/movies.mjs:139-174 | the answer is 409 iff the record is found and the title check reports a conflict; with no conflict over non-nullish records the merged list is saved and a successful save answers 200 with the merged record; a thrown load, or a thrown lookup after a non-empty load, is the `catch`'s 500 with nothing saved; the status is always 200, 404, 409 or 500 |
| MoviesService.UpdatePlanThrows | services/movies.mjs:140-162 | the plan throws iff `getAll` rejects, `getById` rejects after a non-empty load, or, once the movie is found, the body is nullish, the title check throws, or `map` meets a nullish record after the check passed |
| MoviesService.UpdateCaught | services/movies.mjs:139-175 | `update` answers the `catch`'s 500 iff one of those steps throws or `saveAll` rejects; a step that throws before the save saves nothing |
| MoviesService.UpdateConflictsWithItself | services/movies.mjs:154-158 | re-casing a movie's own title is refused with 409 |
| MoviesService.TitleConflictIntended | services/movies.mjs:154-158 | corrected: a truthy title is checked against the other records only |
| MoviesService.UpdatePlanIntendedShape | services/movies.mjs:139-162 | the corrected update saves the merged collection, and answers 409 only for a duplicate among the other records |
| MoviesService.UpdatePlanIntendedCatches | services/movies.mjs:139-150 | for the corrected update, a thrown load, or a thrown lookup after a non-empty load, makes the plan throw |
| MoviesService.UpdatePlanIntendedCodes | services/movies.mjs:139-170 | the corrected plan's own answers are 404s and a 409, and its success a 200 |
| MoviesService.UpdatePlanIntendedProceeds | services/movies.mjs:147-162 | once the record is found, the corrected title check decides between 409 and the merge |
| MoviesService.UpdateIntended | services/movies.mjs:139-175 | the corrected update saves like the original and refuses only titles taken by another record |
| MoviesService.UpdateIntendedAnswers | services/movies.mjs:139-174 | the corrected update answers 409 iff the record is found and another record has the new title; otherwise over non-nullish records it saves and a successful save answers 200 with the merged record; a thrown load or lookup is the `catch`'s 500 with nothing saved; the status is always 200, 404, 409 or 500 |
| MoviesService.UpdatePlanIntendedThrows | services/movies.mjs:140-162 | for the corrected update, the plan throws iff the same steps throw, with the title check against the other records |
| MoviesService.UpdateIntendedCaught | services/movies.mjs:139-175 | the corrected update answers the `catch`'s 500 iff one of those steps throws or `saveAll` rejects; a step that throws before the save saves nothing |
| MoviesService.RecaseIsNoConflict | services/movies.mjs:154-158 | against the record itself, its re-cased title is no conflict for the corrected check |
| MoviesService.UpdateIntendedAllowsRecase | services/movies.mjs:154-158 | re-casing a movie's own title succeeds with 200 for any repository holding just that record and saving successfully |

## Left out

- Reading and writing the file (`helpers/readJSON.mjs`, `helpers/writeJSON.mjs`) are not part of this model. Their outcomes are inputs of a store. The message texts are opaque tags.
- `JSON.parse`, `JSON.stringify` and `new URL` are opaque parameters. A reply's payload is the value handed to `res.end`, before any stringifying.
- `new URL(url, base)` (`routes/movies.mjs:9-10`) throws on a target or `Host` header it cannot parse. The model always has a parsed URL. In the code such a GET ends with an uncaught exception and no reply.
- The two 400 answers of the legacy POST carry one error value in the model. In the code the first is an object (`server.mjs:54`) and the second that object passed through `JSON.stringify` (`server.mjs:60`).
- `findFilm` returns `JSON.stringify(film)` as its `data` (`helpers/findFilm.mjs:16`). The model keeps the film value itself.
- `helpers/sendJsonResponse.mjs` is reduced to a status and a payload. Node's `res.end` rejects a plain-object payload (the read error, the 400 error objects) with a TypeError; the model shows such replies as sent.
- The request stream events (`data`, `error`, `end`) are left out, and so are the asynchronous ordering of `next` calls and concurrent read-modify-write races. Only the text a stream ends with is modelled.
- A stage that calls `next()` and then throws is left out. A stage has exactly one outcome.
- The final handler throwing is left out, because the runner's final handler is not modelled as code. In the runner (`middlewares/runMiddlewares.mjs:39-43`) every stage runs inside a `try`, so a final handler that throws when reached from any stage's `next` is caught there and called a second time with the error. `parseJsonBody`'s own `try` catches such a throw as well.
- Numbers are integers: NaN, infinities and fractions are left out. `parseInt` skips leading whitespace, reads an optional sign and takes the leading decimal digits. Its `0x` hex prefix and radix detection are not modelled, so `parseInt("0x10")` is 0 here and 16 in JavaScript.
- `Number` on a string (`JsText.StringToNumber`) reads, after trimming, the empty string as 0, a `0x`, `0o` or `0b` prefix with digits of that base, and a signed decimal literal with an optional fraction and exponent. `Infinity` gives `None`. Rounding to a double is not modelled.
- AddMovieHelper.NextId: three cases differ from JavaScript. (1) A stored id whose `Number` is a fraction, such as `"1.5"` or `1.5`, is finite in JavaScript and can become the maximum, which gives a fractional next id; the model has no fractions and ignores it. (2) A literal beyond the double range, such as `"1e400"`, is an infinity in JavaScript and is ignored there; the model reads it as a large integer and counts it. (3) Ids above 2^53 are not rounded as doubles are.
- Unicode `toLowerCase` and `trim` are ASCII case folding and a fixed whitespace set.
- Spreading a string or an array contributes no fields here. JavaScript would add index keys for those.
- A stored document that parses to something other than an array is left out: a parser returns a sequence of records or fails.
- `addMovie`'s non-array branch is left out for the same reason.
- `server.listen` and process start-up are left out, as is `jest.config.js`.
- PATCH, PUT and DELETE routing, 405 answers, partial validation, and range checks on title or year do not exist in the code and are not modelled.
- LegacyServer.Serve: for a GET it does not promise that a reply is sent, because a lookup over a record without an id throws and the request is then left unanswered.
- A rejected promise that no handler awaits (the async handlers of `server.mjs` and the controllers) is an unhandled rejection, which by default ends the Node process. The model shows only that no reply is sent (LegacyServer.Serve, MoviesController.Answer); the end of the process is not modelled.
- MoviesService.CreateKeepsTitlesUnique: it assumes the body's title is a string (what `validateBody` guarantees on a route). On an empty store the service would also save a record without a string title.

## Findings

| source | as written | input that shows it | evidently intended | confidence | as-written member | corrected member |
|---|---|---|---|---|---|---|
| models/movies.mjs:123-126 | destructures `newmovies`, which `addMovie` does not return, so `writeJSON(undefined)` is called | any non-empty store and any body | write the appended collection `newMovies` | high (not executed) | MoviesModel.CreateNeverAdds | MoviesModel.CreatedIdIsFresh |
| helpers/filterMovies.mjs:9-11 | a truthy year re-filters the whole list, discarding the genre result | `genre=Drama&year=2010` over one Action film of 2010 returns that film | criteria narrow one another, as in `services/movieBusinessLogic.mjs` | high (not executed) | LegacyFilter.YearDiscardsGenreExample | LegacyFilter.IntendedFilterExample |
| models/movies.mjs:30-35 | a query without a truthy genre or year makes the filter return undefined, and `.length` of it throws | `GET /movies?title=x` | such a query keeps every movie | high (not executed) | MoviesModel.TitleOnlyQueryThrows | MoviesModel.GetAllIntended |
| services/movies.mjs:154-158 | the duplicate check includes the record being updated | renaming `Inception` to `inception` gives 409 | check only the other records | medium (not executed) | MoviesService.UpdateConflictsWithItself | MoviesService.UpdateIntendedAllowsRecase |
| helpers/addFilm.mjs:2 | the id is the list length plus one | a file holding only a film with id 2 gives a new film with id 2 | an id no stored film has, as `addMovie` computes | medium (not executed) | AddFilmHelper.AddFilmCollisionExample | AddFilmHelper.AddMovieAvoidsTheCollision |

=== FILE: add_film.dfy ===
/**
 * `helpers/addFilm.mjs`, the append step of the legacy `/films` server:
 * the new record's id is one more than the number of stored records, and
 * the request body is spread after it.
 */
module AddFilmHelper {
  import opened JsValue
  import opened AddMovieHelper

  /** The id `addFilm` gives the record it appends. */
  function FilmIdFor(actualFilms: seq<Value>): (r: nat)
    ensures r >= 1
    ensures r - 1 == |actualFilms|
  {
    |actualFilms| + 1
  }

  /** `addFilm(actualFilms, body)`. */
  function AddFilm(actualFilms: seq<Value>, body: Value): (r: seq<Value>)
    ensures |r| == |actualFilms| + 1
    ensures r[..|actualFilms|] == actualFilms
    ensures r[|actualFilms|].Obj?
    ensures r[|actualFilms|].fields.Keys == Spread(body).Keys + {"id"}
    ensures "id" !in Spread(body) ==> r[|actualFilms|].fields["id"] == Num(|actualFilms| + 1)
    ensures forall k :: k in Spread(body) ==> r[|actualFilms|].fields[k] == Spread(body)[k]
  {
    actualFilms + [Obj(WithLeadingId(Num(FilmIdFor(actualFilms)), body))]
  }

  /** The assigned id depends only on how many records are stored, never on their ids. */
  lemma AddFilmIgnoresStoredIds(a: seq<Value>, b: seq<Value>, body: Value)
    requires |a| == |b|
    ensures AddFilm(a, body)[|a|] == AddFilm(b, body)[|b|]
  {
  }

  /** No duplicate check: a film is appended even when its title is already stored. */
  lemma AddFilmKeepsDuplicates(actualFilms: seq<Value>, body: Value, i: nat)
    requires i < |actualFilms|
    requires actualFilms[i].Obj? && body.Obj?
    requires "title" in body.fields && "title" in actualFilms[i].fields
    requires actualFilms[i].fields["title"] == body.fields["title"]
    ensures var r := AddFilm(actualFilms, body);
      r[i].fields["title"] == r[|actualFilms|].fields["title"] && i != |actualFilms|
  {
    assert AddFilm(actualFilms, body)[i] == actualFilms[i];
  }

  /**
   * The id of the appended record repeats a stored one whenever a stored
   * record already carries the number `|actualFilms| + 1`, as happens once
   * a record has been removed from the file by hand.
   */
  lemma AddFilmIdCollides(actualFilms: seq<Value>, body: Value, i: nat)
    requires i < |actualFilms|
    requires actualFilms[i].Obj? && "id" in actualFilms[i].fields
    requires actualFilms[i].fields["id"] == Num(|actualFilms| + 1)
    requires "id" !in Spread(body)
    ensures var r := AddFilm(actualFilms, body);
      r[i].fields["id"] == r[|actualFilms|].fields["id"] && i != |actualFilms|
  {
    assert AddFilm(actualFilms, body)[i] == actualFilms[i];
  }

  /** The concrete case: one stored record with id 2 and a body without id. */
  lemma AddFilmCollisionExample()
    ensures var stored := [Obj(map["id" := Num(2)])];
      var r := AddFilm(stored, Obj(map["title" := Str("Up")]));
      r[0].fields["id"] == Num(2) && r[1].fields["id"] == Num(2)
  {
    var stored := [Obj(map["id" := Num(2)])];
    AddFilmIdCollides(stored, Obj(map["title" := Str("Up")]), 0);
  }

  /** The live path's `addMovie` never collides on the same input. */
  lemma AddMovieAvoidsTheCollision()
    ensures var stored := [Obj(map["id" := Num(2)])];
      var r := AddMovie(stored, Obj(map["title" := Str("Up")]));
      r.newMovie.fields["id"] == Num(3)
  {
    var stored := [Obj(map["id" := Num(2)])];
    NextIdIsOnePastMax(stored, 0);
  }
}

=== FILE: add_movie.dfy ===
/**
 * `helpers/addMovie.mjs`: append a record whose id is one more than the
 * largest finite id in the collection (or 1 when there is none above 0).
 */
module AddMovieHelper {
  import opened Completions
  import opened JsValue
  import opened JsText

  /** `Number(m?.id)` when it is a finite integer (see `ToNumber`). */
  function FiniteId(m: Value): Option<int> {
    ToNumber(OptionalProp(m, "id"))
  }

  /** One step of the `reduce`: keep the larger of the running maximum and this id. */
  function MaxStep(max: int, m: Value): int {
    var id := FiniteId(m);
    if id.Some? && id.value > max then id.value else max
  }

  /** `movies.reduce(MaxStep, start)`, folding from the left. */
  function ReduceMax(movies: seq<Value>, start: int): (r: int)
    ensures r >= start
    ensures forall i :: 0 <= i < |movies| && FiniteId(movies[i]).Some? ==> FiniteId(movies[i]).value <= r
    ensures r == start || exists i :: 0 <= i < |movies| && FiniteId(movies[i]) == Some(r)
    decreases |movies|
  {
    if |movies| == 0 then start
    else
      var r := ReduceMax(movies[1..], MaxStep(start, movies[0]));
      assert forall i :: 1 <= i < |movies| ==> movies[i] == movies[1..][i - 1];
      r
  }

  /** The `maxExistingId` of the source: 0 for an empty collection. */
  function MaxExistingId(movies: seq<Value>): (r: nat)
    ensures r == ReduceMax(movies, 0)
  {
    if |movies| > 0 then ReduceMax(movies, 0) else 0
  }

  /** The id `addMovie` assigns: `maxExistingId + 1`. */
  function NextId(movies: seq<Value>): (id: nat)
    ensures id >= 1
    ensures forall i :: 0 <= i < |movies| && FiniteId(movies[i]).Some? ==> FiniteId(movies[i]).value < id
    ensures id == 1 || exists i :: 0 <= i < |movies| && FiniteId(movies[i]) == Some(id - 1)
  {
    MaxExistingId(movies) + 1
  }

  datatype AddMovieResult = AddMovieResult(newMovies: seq<Value>, newMovie: Value)

  /** `{ id: nextId, ...body }`: the body's fields are spread after the id, so they win. */
  function WithLeadingId(id: Value, body: Value): (r: map<string, Value>)
    ensures "id" in r
    ensures "id" in Spread(body) ==> r["id"] == Spread(body)["id"]
    ensures "id" !in Spread(body) ==> r["id"] == id
    ensures forall k :: k in Spread(body) ==> k in r && r[k] == Spread(body)[k]
    ensures r.Keys == Spread(body).Keys + {"id"}
  {
    map["id" := id] + Spread(body)
  }

  /** `addMovie(actualmovies, body)`. */
  function AddMovie(actualMovies: seq<Value>, body: Value): (r: AddMovieResult)
    ensures |r.newMovies| == |actualMovies| + 1
    ensures r.newMovies[..|actualMovies|] == actualMovies
    ensures r.newMovies[|actualMovies|] == r.newMovie
    ensures r.newMovie == Obj(WithLeadingId(Num(NextId(actualMovies)), body))
  {
    var newMovie := Obj(WithLeadingId(Num(NextId(actualMovies)), body));
    AddMovieResult(actualMovies + [newMovie], newMovie)
  }

  /** The computed id is fresh: no record already has it as its finite id. */
  lemma NextIdIsFresh(movies: seq<Value>)
    ensures forall i :: 0 <= i < |movies| ==> FiniteId(movies[i]) != Some(NextId(movies) as int)
  {
  }

  /** The computed id is `1 + max(0, largest finite id)`. */
  lemma NextIdIsOnePastMax(movies: seq<Value>, i: nat)
    requires i < |movies| && FiniteId(movies[i]).Some?
    requires forall j :: 0 <= j < |movies| && FiniteId(movies[j]).Some? ==> FiniteId(movies[j]).value <= FiniteId(movies[i]).value
    ensures NextId(movies) == (if FiniteId(movies[i]).value > 0 then FiniteId(movies[i]).value else 0) + 1
  {
  }

  /** A lone record whose id is stored as the string `s` is followed by `Number(s) + 1`. */
  lemma StoredIdCounts(m: Value, s: string, v: nat)
    requires m == Obj(map["id" := Str(s)]) && StringToNumber(s) == Some(v)
    ensures NextId([m]) == v + 1
  {
    assert OptionalProp(m, "id") == Str(s);
    assert FiniteId([m][0]) == Some(v);
    NextIdIsOnePastMax([m], 0);
  }

  /** An id stored in exponent notation counts: after an id of `"1e3"` the next id is 1001. */
  lemma ExponentIdCounts(m: Value, d: string, mark: char, k: string)
    requires IsDigitString(d) && IsExponentMark(mark) && IsDigitString(k)
    requires m == Obj(map["id" := Str(d + [mark] + k)])
    ensures NextId([m]) == Shift(DecimalValue(d), DecimalValue(k)) + 1
  {
    var s := d + [mark] + k;
    var v := Shift(DecimalValue(d), DecimalValue(k));
    ExponentNumber(d, mark, k);
    assert m == Obj(map["id" := Str(s)]);
    StoredIdCounts(m, s, v);
  }

  /** An id stored with a `0x`, `0o` or `0b` prefix counts: after `"0x10"` the next id is 17. */
  lemma PrefixedIdCounts(m: Value, p: string, h: string)
    requires |p| == 2 && PrefixRadix(p) != 0
    requires |h| > 0 && AllRadixDigits(h, PrefixRadix(p))
    requires m == Obj(map["id" := Str(p + h)])
    ensures NextId([m]) == RadixValue(h, PrefixRadix(p)) + 1
  {
    PrefixedNumber(p, h);
    StoredIdCounts(m, p + h, RadixValue(h, PrefixRadix(p)));
  }

  /** Folding over a concatenation folds the second part from the first part's result. */
  lemma {:induction false} ReduceMaxAppend(a: seq<Value>, b: seq<Value>, start: int)
    ensures ReduceMax(a + b, start) == ReduceMax(b, ReduceMax(a, start))
    decreases |a|
  {
    if |a| == 0 {
      assert a + b == b;
    } else {
      assert (a + b)[0] == a[0];
      assert (a + b)[1..] == a[1..] + b;
      ReduceMaxAppend(a[1..], b, MaxStep(start, a[0]));
    }
  }

  /** Ids that are not finite or not positive never move the computed id. */
  lemma NonPositiveIdsIgnored(movies: seq<Value>, m: Value, k: nat)
    requires k <= |movies|
    requires FiniteId(m).None? || FiniteId(m).value <= 0
    ensures NextId(movies[..k] + [m] + movies[k..]) == NextId(movies)
  {
    var front, back := movies[..k], movies[k..];
    assert movies == front + back;
    ReduceMaxAppend(front + [m], back, 0);
    ReduceMaxAppend(front, [m], 0);
    ReduceMaxAppend(front, back, 0);
    var mid := ReduceMax(front, 0);
    assert ReduceMax([m], mid) == MaxStep(mid, m) by {
      assert [m][1..] == [];
    }
  }

  /** A body carrying its own `id` overrides the computed one. */
  lemma BodyIdOverrides(actualMovies: seq<Value>, fields: map<string, Value>)
    requires "id" in fields
    ensures AddMovie(actualMovies, Obj(fields)).newMovie == Obj(fields)
  {
    assert WithLeadingId(Num(NextId(actualMovies)), Obj(fields)) == fields;
  }
}

=== FILE: completions.dfy ===
/**
 * Optional values and JavaScript completions.
 *
 * A JavaScript expression either produces a value or throws. The movie API
 * never inspects the thrown object (a TypeError from reading a property of
 * `null`, or calling `toLowerCase` on a number), so a throw is modelled as a
 * bare `Throw`. `Completion` is failure-compatible, so `var x :- E;` reads
 * like ordinary JavaScript evaluation with exception propagation.
 */
module Completions {

  datatype Option<+T> = None | Some(value: T)

  datatype Completion<+T> = Normal(value: T) | Throw {

    predicate IsFailure() {
      Throw?
    }

    function PropagateFailure<U>(): Completion<U>
      requires Throw?
    {
      Throw
    }

    function Extract(): T
      requires Normal?
    {
      value
    }
  }
}

=== FILE: filter_movies.dfy ===
/**
 * `helpers/filterMovies.mjs`, the filter of the live `/movies` path. Each
 * truthy criterion overwrites the previous result instead of narrowing it,
 * the `title` key is never read, and when neither `genre` nor `year` is
 * truthy the result is `undefined`. `FilterMoviesIntended` is the
 * conjunctive filter the newer business layer implements.
 */
module LegacyFilter {
  import opened Completions
  import opened JsText
  import opened JsValue
  import opened JsArray
  import opened MovieRecords
  import MovieBusinessLogic

  /** `m => m.genre.toLowerCase() === genre.toLowerCase()`. */
  function GenreIs(genre: Value): Value -> Completion<bool> {
    m => GenreEquals(m, genre)
  }

  /** `m => m.year === parseInt(year)`. */
  function YearIs(year: Value): Value -> Completion<bool> {
    m => YearEquals(m, year)
  }

  /** The two callbacks accept exactly the records their criterion admits. */
  lemma CallbackMeaning(genre: Value, year: Value)
    ensures Truthy(genre) ==> forall m :: GenreIs(genre)(m) == Normal(true) <==> GenreCriterion(m, genre)
    ensures Truthy(year) ==> forall m :: YearIs(year)(m) == Normal(true) <==> YearCriterion(m, year)
    ensures genre.Str? ==> forall m :: IsMovieRecord(m) ==> GenreIs(genre)(m).Normal?
    ensures forall m: Value :: m.Obj? ==> YearIs(year)(m).Normal?
    ensures forall m :: GenreIs(genre)(m).Normal? <==> genre.Str? && HasStringField(m, "genre")
    ensures forall m :: YearIs(year)(m).Normal? <==> !IsNullish(m)
  {
  }

  /** Well-formed records and a string genre: neither filter can throw. */
  predicate UsableInputs(filters: map<string, Value>, movies: seq<Value>) {
    && (forall i :: 0 <= i < |movies| ==> IsMovieRecord(movies[i]))
    && (Truthy(Field(filters, "genre")) ==> Field(filters, "genre").Str?)
  }

  /** `movies.filter(p)` as an optional result, the shape of `let filteredMovies`. */
  function FilterOrThrow(movies: seq<Value>, p: Value -> Completion<bool>): Completion<Option<seq<Value>>> {
    var kept :- ArrayFilter(movies, p);
    Normal(Some(kept))
  }

  /** `movies.filter(m => m.genre.toLowerCase() === genre.toLowerCase())`: every copy of a matching record, and nothing else. */
  function ByGenre(movies: seq<Value>, genre: Value): (r: Completion<Option<seq<Value>>>)
    ensures r.Normal? ==> r.value.Some? && IsSubsequence(r.value.value, movies)
    ensures Truthy(genre) && r.Normal? ==>
              && (forall m :: m in r.value.value ==> GenreCriterion(m, genre))
              && (forall i :: 0 <= i < |movies| && GenreCriterion(movies[i], genre) ==> movies[i] in r.value.value)
              && (forall x :: multiset(r.value.value)[x] == if GenreCriterion(x, genre) then multiset(movies)[x] else 0)
    ensures genre.Str? && (forall i :: 0 <= i < |movies| ==> IsMovieRecord(movies[i])) ==> r.Normal?
    ensures r.Normal? <==> forall i :: 0 <= i < |movies| ==> genre.Str? && HasStringField(movies[i], "genre")
  {
    CallbackMeaning(genre, Undefined);
    ArrayFilterCounts(movies, GenreIs(genre));
    FilterOrThrow(movies, GenreIs(genre))
  }

  /** `movies.filter(m => m.year === parseInt(year))`: every copy of a matching record, and nothing else. */
  function ByYear(movies: seq<Value>, year: Value): (r: Completion<Option<seq<Value>>>)
    ensures r.Normal? ==> r.value.Some? && IsSubsequence(r.value.value, movies)
    ensures Truthy(year) && r.Normal? ==>
              && (forall m :: m in r.value.value ==> YearCriterion(m, year))
              && (forall i :: 0 <= i < |movies| && YearCriterion(movies[i], year) ==> movies[i] in r.value.value)
              && (forall x :: multiset(r.value.value)[x] == if YearCriterion(x, year) then multiset(movies)[x] else 0)
    ensures (forall i :: 0 <= i < |movies| ==> IsMovieRecord(movies[i])) ==> r.Normal?
    ensures r.Normal? <==> forall i :: 0 <= i < |movies| ==> !IsNullish(movies[i])
  {
    CallbackMeaning(Undefined, year);
    ArrayFilterCounts(movies, YearIs(year));
    FilterOrThrow(movies, YearIs(year))
  }

  /** `filterMovies(filters, movies)`; `None` is the `undefined` it returns when no criterion applies. */
  function FilterMovies(filters: map<string, Value>, movies: seq<Value>): (r: Completion<Option<seq<Value>>>)
    ensures !Truthy(Field(filters, "genre")) && !Truthy(Field(filters, "year")) ==> r == Normal(None)
    ensures r.Normal? && r.value.Some? ==> IsSubsequence(r.value.value, movies)
    ensures Truthy(Field(filters, "year")) && r.Normal? ==>
              && r.value.Some?
              && (forall m :: m in r.value.value ==> YearCriterion(m, Field(filters, "year")))
              && (forall i :: 0 <= i < |movies| && YearCriterion(movies[i], Field(filters, "year")) ==>
                    movies[i] in r.value.value)
              && (forall x :: multiset(r.value.value)[x] ==
                    if YearCriterion(x, Field(filters, "year")) then multiset(movies)[x] else 0)
    ensures Truthy(Field(filters, "genre")) && !Truthy(Field(filters, "year")) && r.Normal? ==>
              && r.value.Some?
              && (forall m :: m in r.value.value ==> GenreCriterion(m, Field(filters, "genre")))
              && (forall i :: 0 <= i < |movies| && GenreCriterion(movies[i], Field(filters, "genre")) ==>
                    movies[i] in r.value.value)
              && (forall x :: multiset(r.value.value)[x] ==
                    if GenreCriterion(x, Field(filters, "genre")) then multiset(movies)[x] else 0)
    ensures UsableInputs(filters, movies) ==> r.Normal?
    ensures r.Normal? <==>
      && (Truthy(Field(filters, "genre")) ==>
            forall i :: 0 <= i < |movies| ==> Field(filters, "genre").Str? && HasStringField(movies[i], "genre"))
      && (Truthy(Field(filters, "year")) ==> forall i :: 0 <= i < |movies| ==> !IsNullish(movies[i]))
  {
    var genre, year := Field(filters, "genre"), Field(filters, "year");
    var byGenre :- if Truthy(genre) then ByGenre(movies, genre) else Normal(None);
    if Truthy(year) then ByYear(movies, year) else Normal(byGenre)
  }

  /** The `title` key has no effect. */
  lemma TitleIgnored(filters: map<string, Value>, movies: seq<Value>, title: Value)
    ensures FilterMovies(filters["title" := title], movies) == FilterMovies(filters, movies)
  {
    assert Field(filters["title" := title], "genre") == Field(filters, "genre");
    assert Field(filters["title" := title], "year") == Field(filters, "year");
  }

  /**
   * When the genre filter does not throw, adding a year makes the genre
   * irrelevant: the result is the year filter over the whole list.
   */
  lemma YearOverridesGenre(filters: map<string, Value>, movies: seq<Value>)
    requires Truthy(Field(filters, "year"))
    requires ArrayFilter(movies, GenreIs(Field(filters, "genre"))).Normal?
    ensures FilterMovies(filters, movies) == FilterMovies(filters - {"genre"}, movies)
  {
    assert Field(filters - {"genre"}, "genre") == Undefined;
    assert Field(filters - {"genre"}, "year") == Field(filters, "year");
  }

  /** One action film from 2010, asked for as a drama from 2010, is returned. */
  lemma YearDiscardsGenreExample(film: Value, filters: map<string, Value>)
    requires film == Obj(map["title" := Str("Inception"), "genre" := Str("Action"), "year" := Num(2010)])
    requires filters == map["genre" := Str("Drama"), "year" := Str("2010")]
    ensures !GenreCriterion(film, Field(filters, "genre"))
    ensures FilterMovies(filters, [film]) == Normal(Some([film]))
  {
    ExampleFilm(film);
    assert Field(filters, "year") == Str("2010") && Field(filters, "genre") == Str("Drama");
    YearDiscardsGenre(film, filters);
  }

  /** With a truthy year, a record of that year is returned whatever its genre. */
  lemma YearDiscardsGenre(film: Value, filters: map<string, Value>)
    requires IsMovieRecord(film) && Field(filters, "genre").Str? && Truthy(Field(filters, "year"))
    requires YearCriterion(film, Field(filters, "year"))
    ensures FilterMovies(filters, [film]) == Normal(Some([film]))
  {
    var r := FilterMovies(filters, [film]);
    assert UsableInputs(filters, [film]);
    assert r.value.value == [film] by {
      assert film in r.value.value;
      assert IsSubsequence(r.value.value, [film]);
      SubsequenceMembers(r.value.value, [film]);
    }
  }

  /** The example film is a well-formed record of 2010 and not a Drama. */
  lemma ExampleFilm(film: Value)
    requires film == Obj(map["title" := Str("Inception"), "genre" := Str("Action"), "year" := Num(2010)])
    ensures IsMovieRecord(film)
    ensures YearCriterion(film, Str("2010")) && !GenreCriterion(film, Str("Drama"))
  {
    Year2010();
    assert Lower("Action")[0] == 'a' && Lower("Drama")[0] == 'd';
  }

  lemma Year2010()
    ensures ParseIntOf(Str("2010")) == Some(2010)
  {
    assert IsDigitString("2010");
    assert "2010"[..3] == "201" && "201"[..2] == "20" && "20"[..1] == "2" && "2"[..0] == "";
    assert DecimalValue("2010") == 2010;
    ParseIntOfDigits("2010");
  }

  /* ---------------- the conjunctive filter ---------------- */

  /** `m` meets the genre and the year criteria of `filters`. */
  predicate MatchesBoth(m: Value, filters: map<string, Value>) {
    GenreCriterion(m, Field(filters, "genre")) && YearCriterion(m, Field(filters, "year"))
  }

  /**
   * The filter as its callers use it: the criteria narrow one another and
   * a query without a usable criterion keeps every movie. The callback is
   * the business layer's, with the title left out as the helper leaves it.
   */
  function FilterMoviesIntended(filters: map<string, Value>, movies: seq<Value>): (r: Completion<seq<Value>>)
    ensures r.Normal? ==> IsSubsequence(r.value, movies)
    ensures r.Normal? ==> forall m :: m in r.value ==> MatchesBoth(m, filters)
    ensures r.Normal? ==> forall i :: 0 <= i < |movies| && MatchesBoth(movies[i], filters) ==> movies[i] in r.value
    ensures r.Normal? ==> forall x :: multiset(r.value)[x] == if MatchesBoth(x, filters) then multiset(movies)[x] else 0
    ensures !Truthy(Field(filters, "genre")) && !Truthy(Field(filters, "year")) ==> r == Normal(movies)
    ensures UsableInputs(filters, movies) ==> r.Normal?
  {
    var criteria := filters - {"title"};
    assert Field(criteria, "genre") == Field(filters, "genre");
    assert Field(criteria, "year") == Field(filters, "year");
    assert Field(criteria, "title") == Undefined;
    MovieBusinessLogic.FilterMovies(movies, criteria)
  }

  /** On the example above the conjunctive filter returns nothing. */
  lemma IntendedFilterExample()
    ensures var film := Obj(map["title" := Str("Inception"), "genre" := Str("Action"), "year" := Num(2010)]);
      FilterMoviesIntended(map["genre" := Str("Drama"), "year" := Str("2010")], [film]) == Normal([])
  {
    var film := Obj(map["title" := Str("Inception"), "genre" := Str("Action"), "year" := Num(2010)]);
    var filters := map["genre" := Str("Drama"), "year" := Str("2010")];
    assert Lower("Action")[0] == 'a' && Lower("Drama")[0] == 'd';
    assert !MatchesBoth(film, filters);
    assert IsMovieRecord(film);
    var r := FilterMoviesIntended(filters, [film]);
    if |r.value| > 0 {
      assert r.value[0] in r.value;
      SubsequenceMembers(r.value, [film]);
      assert false;
    }
  }
}

=== FILE: find_film.dfy ===
/**
 * `helpers/findFilm.mjs`: parse the stored text and look a film up by the
 * textual form of its id. Ids are compared as strings, so `"01"` does not
 * find the film whose id is `1`.
 */
module FindFilmHelper {
  import opened Completions
  import opened JsText
  import opened JsValue
  import opened JsArray
  import opened Responses

  /**
   * The `{success, error, data}` object `findFilm` resolves to. On success
   * `data` is the film (the source sends its JSON text); on failure
   * `error` is the not-found message and `data` stays `''`.
   */
  datatype FindFilmResult = FindFilmResult(success: bool, error: Value, data: Value)

  /** `film.id.toString() === filmID`. */
  function IdMatches(filmID: string, film: Value): (r: Completion<bool>)
    ensures r.Throw? <==> !film.Obj? || IsNullish(Field(film.fields, "id"))
    ensures film.Obj? && !IsNullish(Field(film.fields, "id")) ==>
      r == Normal(StringOf(Field(film.fields, "id")) == filmID)
  {
    var id :- Prop(film, "id");
    var text :- ToStringCall(id);
    Normal(text == filmID)
  }

  function IdMatchesAs(filmID: string): Value -> Completion<bool> {
    film => IdMatches(filmID, film)
  }

  /** `findFilm(films, filmID)`; a `Throw` is a rejected promise (bad JSON, or a film without id before the match). */
  function FindFilm(films: string, filmID: string, parse: string -> Completion<seq<Value>>): (r: Completion<FindFilmResult>)
    ensures parse(films).Throw? ==> r.Throw?
    ensures parse(films).Normal? ==> var records := parse(films).value;
      && (r.Normal? && r.value.success <==> exists i :: FirstAccepted(records, IdMatchesAs(filmID), i))
      && (forall i :: FirstAccepted(records, IdMatchesAs(filmID), i) ==>
            r == Normal(FindFilmResult(true, Str(""), records[i])))
      && ((forall i :: 0 <= i < |records| ==> IdMatches(filmID, records[i]) == Normal(false)) <==>
            r == Normal(FindFilmResult(false, FilmNotFound, Str(""))))
  {
    var records :- parse(films);
    var found :- ArrayFind(records, IdMatchesAs(filmID));
    if found.None? then Normal(FindFilmResult(false, FilmNotFound, Str("")))
    else Normal(FindFilmResult(true, Str(""), found.value))
  }

  /** A numeric id is found by its decimal rendering and by no other text. */
  lemma NumericIdMatch(filmID: string, n: int)
    ensures IdMatches(filmID, Obj(map["id" := Num(n)])) == Normal(filmID == IntToString(n))
  {
  }

  /** A leading zero defeats the textual comparison. */
  lemma LeadingZeroMisses()
    ensures IdMatches("01", Obj(map["id" := Num(1)])) == Normal(false)
  {
    NumericIdMatch("01", 1);
    assert IntToString(1) == [DigitChar(1)] == "1";
  }
}

=== FILE: handle_films_request.dfy ===
/**
 * `helpers/handleFilmsRequest.mjs`: read the store, then either send the
 * whole stored text or look one film up.
 */
module FilmsRequest {
  import opened Completions
  import opened JsValue
  import opened JsArray
  import opened Responses
  import opened Storage
  import opened FindFilmHelper

  /**
   * `handleFilmsRequest(res, filmID)`; `None` is the call without an id.
   * A rejected `findFilm` leaves the request without a reply.
   */
  function HandleFilmsRequest(store: Store, filmID: Option<string>): (r: Reply)
    ensures store.read.ReadFailed? ==> r == JsonReply(500, store.read.error)
    ensures store.read.ReadOk? && (filmID.None? || filmID.value == "") ==> r == JsonReply(200, Str(store.read.data))
    ensures store.read.ReadOk? && filmID.Some? && filmID.value != "" ==>
      match FindFilm(store.read.data, filmID.value, store.parse)
      case Throw => r == NoReply
      case Normal(found) =>
        r == (if found.success then JsonReply(200, found.data) else JsonReply(404, FilmNotFound))
  {
    match store.read
    case ReadFailed(error) => JsonReply(500, error)
    case ReadOk(films) =>
      if filmID.Some? && filmID.value != "" then
        match FindFilm(films, filmID.value, store.parse)
        case Throw => NoReply
        case Normal(found) =>
          if !found.success then JsonReply(404, found.error) else JsonReply(200, found.data)
      else JsonReply(200, Str(films))
  }

  /** Listing never parses: the reply depends only on what was read. */
  lemma ListingIgnoresParser(a: Store, b: Store, filmID: Option<string>)
    requires a.read == b.read && (filmID.None? || filmID.value == "")
    ensures HandleFilmsRequest(a, filmID) == HandleFilmsRequest(b, filmID)
  {
  }

  /** A film is served exactly when some stored film carries the requested id text. */
  lemma LookupOutcome(store: Store, filmID: string)
    requires store.read.ReadOk? && filmID != ""
    requires store.parse(store.read.data).Normal?
    requires forall f :: f in store.parse(store.read.data).value ==> IdMatches(filmID, f).Normal?
    ensures var records := store.parse(store.read.data).value;
      HandleFilmsRequest(store, Some(filmID)).status == 200 <==>
        exists i :: 0 <= i < |records| && IdMatches(filmID, records[i]) == Normal(true)
    ensures HandleFilmsRequest(store, Some(filmID)).Reply?
  {
    var records := store.parse(store.read.data).value;
    var p := IdMatchesAs(filmID);
    assert forall i :: 0 <= i < |records| ==> p(records[i]).Normal? by {
      forall i | 0 <= i < |records| ensures p(records[i]).Normal? {
        assert records[i] in records;
      }
    }
    if exists i :: 0 <= i < |records| && p(records[i]) == Normal(true) {
      var i :| 0 <= i < |records| && p(records[i]) == Normal(true);
      var k := FirstHit(records, p, i);
      assert FirstAccepted(records, p, k);
    }
  }
}

=== FILE: js_array.dfy ===
/**
 * `Array.prototype.some`, `filter`, `find` and `map` with callbacks that may
 * throw. Each visits the elements in index order; `some` and `find` stop at
 * the first element the callback accepts, and a throw from the callback
 * aborts the whole call.
 */
module JsArray {
  import opened Completions

  /** `a` is an order-preserving subsequence of `b`. */
  predicate IsSubsequence<T(==)>(a: seq<T>, b: seq<T>)
    decreases |b|
  {
    |a| == 0 || (|b| > 0 && ((a[0] == b[0] && IsSubsequence(a[1..], b[1..])) || IsSubsequence(a, b[1..])))
  }

  lemma {:induction false} SubsequenceOfSelf<T>(a: seq<T>)
    ensures IsSubsequence(a, a)
    decreases |a|
  {
    if |a| > 0 {
      SubsequenceOfSelf(a[1..]);
    }
  }

  lemma {:induction false} SubsequenceMembers<T>(a: seq<T>, b: seq<T>)
    requires IsSubsequence(a, b)
    ensures forall x :: x in a ==> x in b
    decreases |b|
  {
    if |a| > 0 {
      if a[0] == b[0] && IsSubsequence(a[1..], b[1..]) {
        SubsequenceMembers(a[1..], b[1..]);
        assert a == [a[0]] + a[1..];
        assert b == [b[0]] + b[1..];
      } else {
        SubsequenceMembers(a, b[1..]);
        assert b == [b[0]] + b[1..];
      }
    }
  }

  /** The callback accepted `xs[i]` and rejected every element before it. */
  ghost predicate FirstAccepted<T>(xs: seq<T>, p: T -> Completion<bool>, i: int) {
    && 0 <= i < |xs|
    && p(xs[i]) == Normal(true)
    && forall j :: 0 <= j < i ==> p(xs[j]) == Normal(false)
  }

  /** The callback threw on `xs[i]` and rejected every element before it. */
  ghost predicate FirstThrow<T>(xs: seq<T>, p: T -> Completion<bool>, i: int) {
    && 0 <= i < |xs|
    && p(xs[i]).Throw?
    && forall j :: 0 <= j < i ==> p(xs[j]) == Normal(false)
  }

  /** With every callback normal, the earliest accepted index at or before `i`. */
  lemma {:induction false} FirstHit<T>(xs: seq<T>, p: T -> Completion<bool>, i: int) returns (k: int)
    requires 0 <= i < |xs| && p(xs[i]) == Normal(true)
    requires forall j :: 0 <= j < |xs| ==> p(xs[j]).Normal?
    ensures FirstAccepted(xs, p, k) && k <= i
    decreases i
  {
    if forall j :: 0 <= j < i ==> p(xs[j]) == Normal(false) {
      k := i;
    } else {
      var j :| 0 <= j < i && p(xs[j]) != Normal(false);
      assert p(xs[j]).Normal? && p(xs[j]).value;
      k := FirstHit(xs, p, j);
    }
  }

  /** `xs.some(p)`. */
  function ArraySome<T>(xs: seq<T>, p: T -> Completion<bool>): (r: Completion<bool>)
    ensures r == Normal(true) <==> exists i :: FirstAccepted(xs, p, i)
    ensures r == Normal(false) <==> forall i :: 0 <= i < |xs| ==> p(xs[i]) == Normal(false)
    ensures r.Throw? <==> exists i :: FirstThrow(xs, p, i)
    decreases |xs|
  {
    if |xs| == 0 then Normal(false)
    else
      match p(xs[0])
      case Throw =>
        assert FirstThrow(xs, p, 0);
        Throw
      case Normal(hit) =>
        if hit then
          assert FirstAccepted(xs, p, 0);
          Normal(true)
        else
          var r := ArraySome(xs[1..], p);
          ShiftFirsts(xs, p);
          r
  }

  /** When the head is rejected, the first accepted / throwing index moves by one. */
  lemma ShiftFirsts<T>(xs: seq<T>, p: T -> Completion<bool>)
    requires |xs| > 0 && p(xs[0]) == Normal(false)
    ensures (exists i :: FirstAccepted(xs, p, i)) <==> (exists i :: FirstAccepted(xs[1..], p, i))
    ensures (exists i :: FirstThrow(xs, p, i)) <==> (exists i :: FirstThrow(xs[1..], p, i))
    ensures (forall i :: 0 <= i < |xs| ==> p(xs[i]) == Normal(false))
        <==> (forall i :: 0 <= i < |xs[1..]| ==> p(xs[1..][i]) == Normal(false))
  {
    var tail := xs[1..];
    forall i | FirstAccepted(xs, p, i) ensures FirstAccepted(tail, p, i - 1) {
      assert i != 0;
      assert forall j :: 0 <= j < i - 1 ==> tail[j] == xs[j + 1];
    }
    forall i | FirstAccepted(tail, p, i) ensures FirstAccepted(xs, p, i + 1) {
      assert forall j :: 1 <= j < i + 1 ==> xs[j] == tail[j - 1];
    }
    forall i | FirstThrow(xs, p, i) ensures FirstThrow(tail, p, i - 1) {
      assert i != 0;
      assert forall j :: 0 <= j < i - 1 ==> tail[j] == xs[j + 1];
    }
    forall i | FirstThrow(tail, p, i) ensures FirstThrow(xs, p, i + 1) {
      assert forall j :: 1 <= j < i + 1 ==> xs[j] == tail[j - 1];
    }
    assert forall i :: 0 <= i < |tail| ==> tail[i] == xs[i + 1];
  }

  /** `xs.filter(p)`: the elements the callback accepts, in their original order. */
  function ArrayFilter<T(==)>(xs: seq<T>, p: T -> Completion<bool>): (r: Completion<seq<T>>)
    ensures r.Normal? <==> forall i :: 0 <= i < |xs| ==> p(xs[i]).Normal?
    ensures r.Normal? ==> IsSubsequence(r.value, xs)
    ensures r.Normal? ==> forall x :: x in r.value ==> p(x) == Normal(true)
    ensures r.Normal? ==> forall i :: 0 <= i < |xs| && p(xs[i]) == Normal(true) ==> xs[i] in r.value
    ensures r.Normal? ==> |r.value| <= |xs|
    decreases |xs|
  {
    if |xs| == 0 then Normal([])
    else
      match p(xs[0])
      case Throw => Throw
      case Normal(keep) =>
        match ArrayFilter(xs[1..], p)
        case Throw =>
          assert forall i :: 0 <= i < |xs[1..]| ==> xs[1..][i] == xs[i + 1];
          Throw
        case Normal(rest) =>
          assert forall i :: 1 <= i < |xs| ==> xs[i] == xs[1..][i - 1];
          if keep then
            var r := [xs[0]] + rest;
            assert r[1..] == rest;
            Normal(r)
          else
            Normal(rest)
  }

  /** `filter` keeps every accepted element as often as it occurs, and nothing else. */
  lemma {:induction false} ArrayFilterCounts<T(!new)>(xs: seq<T>, p: T -> Completion<bool>)
    ensures ArrayFilter(xs, p).Normal? ==>
              forall x :: multiset(ArrayFilter(xs, p).value)[x] == if p(x) == Normal(true) then multiset(xs)[x] else 0
    decreases |xs|
  {
    if |xs| > 0 && ArrayFilter(xs, p).Normal? {
      ArrayFilterCounts(xs[1..], p);
      assert xs == [xs[0]] + xs[1..];
      assert multiset(xs) == multiset{xs[0]} + multiset(xs[1..]);
      var rest := ArrayFilter(xs[1..], p).value;
      if p(xs[0]) == Normal(true) {
        assert ArrayFilter(xs, p).value == [xs[0]] + rest;
        assert multiset([xs[0]] + rest) == multiset{xs[0]} + multiset(rest);
      } else {
        assert ArrayFilter(xs, p).value == rest;
      }
    }
  }

  /** Filtering splits over concatenation. */
  lemma {:induction false} ArrayFilterAppend<T>(a: seq<T>, b: seq<T>, p: T -> Completion<bool>)
    ensures ArrayFilter(a + b, p) ==
      match ArrayFilter(a, p)
      case Throw => Throw
      case Normal(fa) =>
        match ArrayFilter(b, p)
        case Throw => Throw
        case Normal(fb) => Normal(fa + fb)
    decreases |a|
  {
    if |a| == 0 {
      assert a + b == b;
      match ArrayFilter(b, p)
      case Throw =>
      case Normal(fb) =>
        assert [] + fb == fb;
    } else {
      assert (a + b)[0] == a[0];
      assert (a + b)[1..] == a[1..] + b;
      ArrayFilterAppend(a[1..], b, p);
      match p(a[0])
      case Throw =>
      case Normal(keep) =>
        match ArrayFilter(a[1..], p)
        case Throw =>
        case Normal(fa) =>
          match ArrayFilter(b, p)
          case Throw =>
          case Normal(fb) =>
            if keep {
              assert [a[0]] + (fa + fb) == ([a[0]] + fa) + fb;
            }
    }
  }

  /** A filter that accepts every element returns the array unchanged. */
  lemma {:induction false} ArrayFilterAll<T>(xs: seq<T>, p: T -> Completion<bool>)
    requires forall i :: 0 <= i < |xs| ==> p(xs[i]) == Normal(true)
    ensures ArrayFilter(xs, p) == Normal(xs)
    decreases |xs|
  {
    if |xs| > 0 {
      assert forall i :: 0 <= i < |xs[1..]| ==> xs[1..][i] == xs[i + 1];
      ArrayFilterAll(xs[1..], p);
      assert xs == [xs[0]] + xs[1..];
    }
  }

  /** `xs.find(p)`: the first element the callback accepts, `None` for `undefined`. */
  function ArrayFind<T>(xs: seq<T>, p: T -> Completion<bool>): (r: Completion<Option<T>>)
    ensures r.Normal? && r.value.Some? <==> exists i :: FirstAccepted(xs, p, i)
    ensures forall i :: FirstAccepted(xs, p, i) ==> r == Normal(Some(xs[i]))
    ensures r == Normal(None) <==> forall i :: 0 <= i < |xs| ==> p(xs[i]) == Normal(false)
    ensures r.Throw? <==> exists i :: FirstThrow(xs, p, i)
    decreases |xs|
  {
    if |xs| == 0 then Normal(None)
    else
      match p(xs[0])
      case Throw =>
        assert FirstThrow(xs, p, 0);
        FirstAcceptedUnique(xs, p);
        Throw
      case Normal(hit) =>
        if hit then
          assert FirstAccepted(xs, p, 0);
          FirstAcceptedUnique(xs, p);
          Normal(Some(xs[0]))
        else
          var r := ArrayFind(xs[1..], p);
          ShiftFirsts(xs, p);
          forall i | FirstAccepted(xs, p, i) ensures r == Normal(Some(xs[i])) {
            assert i != 0;
            assert forall j :: 0 <= j < i - 1 ==> xs[1..][j] == xs[j + 1];
            assert FirstAccepted(xs[1..], p, i - 1);
          }
          r
  }

  /** There is at most one first accepted index, and it excludes a first throw. */
  lemma FirstAcceptedUnique<T>(xs: seq<T>, p: T -> Completion<bool>)
    ensures forall i, j :: FirstAccepted(xs, p, i) && FirstAccepted(xs, p, j) ==> i == j
    ensures forall i, j :: !(FirstAccepted(xs, p, i) && FirstThrow(xs, p, j))
  {
  }

  /** `xs.map(f)`. */
  function ArrayMap<T, U>(xs: seq<T>, f: T -> Completion<U>): (r: Completion<seq<U>>)
    ensures r.Normal? <==> forall i :: 0 <= i < |xs| ==> f(xs[i]).Normal?
    ensures r.Normal? ==> |r.value| == |xs| && forall i :: 0 <= i < |xs| ==> r.value[i] == f(xs[i]).value
    decreases |xs|
  {
    if |xs| == 0 then Normal([])
    else
      match f(xs[0])
      case Throw => Throw
      case Normal(y) =>
        match ArrayMap(xs[1..], f)
        case Throw =>
          assert forall i :: 0 <= i < |xs[1..]| ==> xs[1..][i] == xs[i + 1];
          Throw
        case Normal(ys) =>
          assert forall i :: 1 <= i < |xs| ==> xs[i] == xs[1..][i - 1];
          Normal([y] + ys)
  }
}

=== FILE: js_text.dfy ===
/**
 * The string operations of the JavaScript runtime that the movie API relies
 * on: `toLowerCase`, `trim`, `includes`, `split('/')`, `parseInt`, `Number`
 * on strings, and the decimal rendering of integers.
 *
 * Case folding is ASCII only; the whitespace set used by `trim` is the
 * complete set of ECMAScript WhiteSpace and LineTerminator code points.
 */
module JsText {
  import opened Completions

  /* ---------------- case folding ---------------- */

  function LowerChar(c: char): char {
    if 'A' <= c <= 'Z' then (c as int + 32) as char else c
  }

  /** `s.toLowerCase()`, restricted to ASCII letters. */
  function Lower(s: string): (r: string)
    ensures |r| == |s|
    ensures forall i :: 0 <= i < |s| ==> r[i] == LowerChar(s[i])
  {
    seq(|s|, i requires 0 <= i < |s| => LowerChar(s[i]))
  }

  /* ---------------- whitespace and trim ---------------- */

  /** ECMAScript WhiteSpace (including every Zs code point) and LineTerminator. */
  predicate IsWhitespace(c: char) {
    || c == '\t' || c == '\n' || c == '\U{000B}' || c == '\U{000C}' || c == '\r'
    || c == ' ' || c == '\U{00A0}' || c == '\U{1680}'
    || ('\U{2000}' <= c <= '\U{200A}')
    || c == '\U{2028}' || c == '\U{2029}' || c == '\U{202F}' || c == '\U{205F}'
    || c == '\U{3000}' || c == '\U{FEFF}'
  }

  predicate AllWhitespace(s: string) {
    forall i :: 0 <= i < |s| ==> IsWhitespace(s[i])
  }

  /** Index of the first non-whitespace character of `s[from..]` (or `|s|`). */
  function SkipWhitespace(s: string, from: nat): (i: nat)
    requires from <= |s|
    ensures from <= i <= |s|
    ensures forall k :: from <= k < i ==> IsWhitespace(s[k])
    ensures i < |s| ==> !IsWhitespace(s[i])
    decreases |s| - from
  {
    if from < |s| && IsWhitespace(s[from]) then SkipWhitespace(s, from + 1) else from
  }

  /** Index just past the last non-whitespace character of `s[from..upto]` (or `from`). */
  function BackWhitespace(s: string, from: nat, upto: nat): (j: nat)
    requires from <= upto <= |s|
    ensures from <= j <= upto
    ensures forall k :: j <= k < upto ==> IsWhitespace(s[k])
    ensures j > from ==> !IsWhitespace(s[j - 1])
    decreases upto - from
  {
    if upto > from && IsWhitespace(s[upto - 1]) then BackWhitespace(s, from, upto - 1) else upto
  }

  /** `s.trim()`: the text between the maximal leading and trailing whitespace runs. */
  function Trim(s: string): (r: string)
    ensures |r| == 0 || (!IsWhitespace(r[0]) && !IsWhitespace(r[|r| - 1]))
  {
    var i := SkipWhitespace(s, 0);
    var j := BackWhitespace(s, i, |s|);
    s[i..j]
  }

  lemma {:induction false} SkipWhitespaceStopsAt(s: string, from: nat, m: nat)
    requires from <= m <= |s|
    requires forall k :: from <= k < m ==> IsWhitespace(s[k])
    requires m == |s| || !IsWhitespace(s[m])
    ensures SkipWhitespace(s, from) == m
    decreases m - from
  {
    if from < m {
      SkipWhitespaceStopsAt(s, from + 1, m);
    }
  }

  lemma {:induction false} BackWhitespaceStopsAt(s: string, from: nat, upto: nat, m: nat)
    requires from <= m <= upto <= |s|
    requires forall k :: m <= k < upto ==> IsWhitespace(s[k])
    requires m == from || !IsWhitespace(s[m - 1])
    ensures BackWhitespace(s, from, upto) == m
    decreases upto - m
  {
    if m < upto {
      BackWhitespaceStopsAt(s, from, upto - 1, m);
    }
  }

  /** Trimming strips exactly the surrounding whitespace and nothing of the text. */
  lemma TrimStripsPadding(front: string, text: string, back: string)
    requires AllWhitespace(front) && AllWhitespace(back)
    requires |text| == 0 || (!IsWhitespace(text[0]) && !IsWhitespace(text[|text| - 1]))
    ensures Trim(front + text + back) == text
  {
    var s := front + text + back;
    var e := |front| + |text|;
    assert forall k :: 0 <= k < |front| ==> s[k] == front[k];
    assert forall k :: 0 <= k < |text| ==> s[|front| + k] == text[k];
    assert forall k :: e <= k < |s| ==> s[k] == back[k - e];
    if |text| == 0 {
      SkipWhitespaceStopsAt(s, 0, |s|);
      BackWhitespaceStopsAt(s, |s|, |s|, |s|);
    } else {
      SkipWhitespaceStopsAt(s, 0, |front|);
      BackWhitespaceStopsAt(s, |front|, |s|, e);
      assert s[|front|..e] == text;
    }
  }

  /** A string without surrounding whitespace is its own trim. */
  lemma TrimUnpadded(s: string)
    requires |s| == 0 || (!IsWhitespace(s[0]) && !IsWhitespace(s[|s| - 1]))
    ensures Trim(s) == s
  {
    TrimStripsPadding("", s, "");
    assert "" + s + "" == s;
  }

  /** Trimming is idempotent. */
  lemma TrimIdempotent(s: string)
    ensures Trim(Trim(s)) == Trim(s)
  {
    TrimUnpadded(Trim(s));
  }

  /* ---------------- substring test ---------------- */

  /** `s.includes(t)`. */
  predicate Includes(s: string, t: string) {
    exists i | 0 <= i <= |s| - |t| :: OccursAt(s, t, i)
  }

  predicate OccursAt(s: string, t: string, i: int) {
    0 <= i <= |s| - |t| && s[i..i + |t|] == t
  }

  /* ---------------- split and join on one separator character ---------------- */

  function Join(parts: seq<string>, sep: char): string
    requires |parts| >= 1
  {
    if |parts| == 1 then parts[0] else parts[0] + [sep] + Join(parts[1..], sep)
  }

  /** `s.split(sep)` for a one-character separator. */
  function Split(s: string, sep: char): (r: seq<string>)
    ensures |r| >= 1
    ensures forall k :: 0 <= k < |r| ==> sep !in r[k]
    ensures Join(r, sep) == s
  {
    if |s| == 0 then [""]
    else
      var rest := Split(s[1..], sep);
      if s[0] == sep then
        assert [""] + rest == [""] + rest;
        assert ([""] + rest)[1..] == rest;
        [""] + rest
      else
        var r := [[s[0]] + rest[0]] + rest[1..];
        assert r[1..] == rest[1..];
        assert Join(r, sep) == s by {
          if |rest| == 1 {
            assert rest[0] == s[1..];
          } else {
            assert rest == [rest[0]] + rest[1..];
            assert Join(rest, sep) == rest[0] + [sep] + Join(rest[1..], sep);
          }
          assert s == [s[0]] + s[1..];
        }
        r
  }

  lemma JoinAppend(a: seq<string>, b: seq<string>, sep: char)
    requires |a| >= 1 && |b| >= 1
    ensures Join(a + b, sep) == Join(a, sep) + [sep] + Join(b, sep)
    decreases |a|
  {
    if |a| == 1 {
      assert (a + b)[1..] == b;
    } else {
      assert (a + b)[1..] == a[1..] + b;
      JoinAppend(a[1..], b, sep);
    }
  }

  /** Splitting undoes joining separator-free parts: the two are inverse. */
  lemma {:induction false} SplitJoin(parts: seq<string>, sep: char)
    requires |parts| >= 1
    requires forall k :: 0 <= k < |parts| ==> sep !in parts[k]
    ensures Split(Join(parts, sep), sep) == parts
    decreases |parts|, |parts[0]|
  {
    var s := Join(parts, sep);
    if |parts| == 1 {
      SplitSingle(parts[0], sep);
    } else if |parts[0]| == 0 {
      assert s == [sep] + Join(parts[1..], sep);
      assert s[1..] == Join(parts[1..], sep);
      SplitJoin(parts[1..], sep);
      assert parts == [""] + parts[1..];
    } else {
      var c := parts[0][0];
      var shorter := [parts[0][1..]] + parts[1..];
      assert shorter[1..] == parts[1..];
      assert Join(shorter, sep) == parts[0][1..] + [sep] + Join(parts[1..], sep);
      assert s == [c] + Join(shorter, sep) by {
        assert parts[0] == [c] + parts[0][1..];
      }
      assert s[1..] == Join(shorter, sep);
      assert forall k :: 0 <= k < |shorter[0]| ==> shorter[0][k] == parts[0][k + 1];
      assert sep !in shorter[0];
      SplitJoin(shorter, sep);
      assert c != sep;
      assert [c] + shorter[0] == parts[0];
      assert parts == [[c] + shorter[0]] + shorter[1..];
    }
  }

  lemma {:induction false} SplitSingle(s: string, sep: char)
    requires sep !in s
    ensures Split(s, sep) == [s]
    decreases |s|
  {
    if |s| > 0 {
      assert forall k :: 0 <= k < |s[1..]| ==> s[1..][k] == s[k + 1];
      assert sep !in s[1..];
      SplitSingle(s[1..], sep);
      assert s == [s[0]] + s[1..];
    }
  }

  /* ---------------- digits ---------------- */

  predicate IsDigit(c: char) {
    '0' <= c <= '9'
  }

  predicate AllDigits(s: string) {
    forall i :: 0 <= i < |s| ==> IsDigit(s[i])
  }

  /** The regular expression `^\d+$`. */
  predicate IsDigitString(s: string) {
    |s| > 0 && AllDigits(s)
  }

  function DigitValue(c: char): nat
    requires IsDigit(c)
  {
    c as int - '0' as int
  }

  function DigitChar(d: nat): (c: char)
    requires d < 10
    ensures IsDigit(c) && DigitValue(c) == d
  {
    ('0' as int + d) as char
  }

  /** The value of a string of decimal digits. */
  function DecimalValue(s: string): nat
    requires AllDigits(s)
  {
    if |s| == 0 then 0 else DecimalValue(s[..|s| - 1]) * 10 + DigitValue(s[|s| - 1])
  }

  /** The canonical decimal rendering of a natural number. */
  function NatToString(n: nat): (r: string)
    ensures IsDigitString(r)
    ensures DecimalValue(r) == n
    ensures |r| > 1 ==> r[0] != '0'
  {
    if n < 10 then [DigitChar(n)]
    else
      var r := NatToString(n / 10) + [DigitChar(n % 10)];
      assert r[..|r| - 1] == NatToString(n / 10);
      r
  }

  /** `String(n)` for an integer `n`. */
  function IntToString(n: int): string {
    if n < 0 then "-" + NatToString(-n) else NatToString(n)
  }

  /** Length of the longest prefix of `s` made of decimal digits. */
  function DigitRun(s: string): (k: nat)
    ensures k <= |s| && AllDigits(s[..k])
    ensures k < |s| ==> !IsDigit(s[k])
  {
    if |s| > 0 && IsDigit(s[0]) then
      var k := 1 + DigitRun(s[1..]);
      assert forall i :: 1 <= i < k ==> s[..k][i] == s[1..][..k - 1][i - 1];
      k
    else 0
  }

  /** An optional leading sign: the multiplier and the text after it. */
  function SignOf(t: string): (int, string) {
    if |t| > 0 && t[0] == '-' then (-1, t[1..])
    else if |t| > 0 && t[0] == '+' then (1, t[1..])
    else (1, t)
  }

  /**
   * `parseInt(s)` with the default radix: leading whitespace is skipped, an
   * optional sign is read, and the longest run of decimal digits is taken.
   * `None` stands for `NaN`.
   */
  function ParseInt(s: string): Option<int> {
    var (sign, digits) := SignOf(s[SkipWhitespace(s, 0)..]);
    var k := DigitRun(digits);
    if k == 0 then None else Some(sign * DecimalValue(digits[..k]))
  }

  /* ---------------- Number on strings ---------------- */

  /** The value of a hexadecimal digit (which covers the octal, binary and decimal ones). */
  function RadixDigit(c: char): Option<nat> {
    if '0' <= c <= '9' then Some(c as int - '0' as int)
    else if 'a' <= c <= 'f' then Some(c as int - 'a' as int + 10)
    else if 'A' <= c <= 'F' then Some(c as int - 'A' as int + 10)
    else None
  }

  predicate IsRadixDigit(c: char, radix: nat) {
    RadixDigit(c).Some? && RadixDigit(c).value < radix
  }

  predicate AllRadixDigits(s: string, radix: nat) {
    forall i :: 0 <= i < |s| ==> IsRadixDigit(s[i], radix)
  }

  /** The value of a string of digits in base `radix`. */
  function RadixValue(s: string, radix: nat): nat
    requires AllRadixDigits(s, radix)
  {
    if |s| == 0 then 0
    else
      assert AllRadixDigits(s[..|s| - 1], radix) by {
        assert forall i :: 0 <= i < |s| - 1 ==> s[..|s| - 1][i] == s[i];
      }
      RadixValue(s[..|s| - 1], radix) * radix + RadixDigit(s[|s| - 1]).value
  }

  /** The base announced by a `0x`, `0o` or `0b` prefix (either case), or 0 when `t` has none. */
  function PrefixRadix(t: string): nat {
    if |t| < 2 || t[0] != '0' then 0
    else if t[1] == 'x' || t[1] == 'X' then 16
    else if t[1] == 'o' || t[1] == 'O' then 8
    else if t[1] == 'b' || t[1] == 'B' then 2
    else 0
  }

  /** Index of the first `c` in `s`, or `|s|` when there is none. */
  function IndexOf(s: string, c: char): (k: nat)
    ensures k <= |s|
    ensures forall i :: 0 <= i < k ==> s[i] != c
    ensures k < |s| ==> s[k] == c
  {
    if |s| == 0 || s[0] == c then 0
    else
      var k := 1 + IndexOf(s[1..], c);
      assert forall i :: 1 <= i < k ==> s[i] == s[1..][i - 1];
      k
  }

  predicate IsExponentMark(c: char) {
    c == 'e' || c == 'E'
  }

  /** Index of the first exponent mark `e` or `E` in `s`, or `|s|` when there is none. */
  function ExponentMark(s: string): (k: nat)
    ensures k <= |s|
    ensures forall i :: 0 <= i < k ==> !IsExponentMark(s[i])
    ensures k < |s| ==> IsExponentMark(s[k])
  {
    if |s| == 0 || IsExponentMark(s[0]) then 0
    else
      var k := 1 + ExponentMark(s[1..]);
      assert forall i :: 1 <= i < k ==> s[i] == s[1..][i - 1];
      k
  }

  function Pow10(e: nat): (r: nat)
    ensures r >= 1
  {
    if e == 0 then 1 else 10 * Pow10(e - 1)
  }

  /** `v × 10^e`: the digits of `v` followed by `e` zeros. */
  function Shift(v: nat, e: nat): nat {
    v * Pow10(e)
  }

  /**
   * An unsigned decimal literal of the `Number` grammar: digits with an
   * optional `.` and fraction digits (at least one digit in all), then an
   * optional exponent mark with a signed digit string. The result is the
   * digits read as one integer and the power of ten that scales them;
   * `None` when `u` is not such a literal.
   */
  function DecimalLiteral(u: string): Option<(nat, int)> {
    var m := ExponentMark(u);
    var mantissa := u[..m];
    var d := IndexOf(mantissa, '.');
    var whole := mantissa[..d];
    var fraction := if d < |mantissa| then mantissa[d + 1..] else "";
    if !AllDigits(whole) || !AllDigits(fraction) || |whole| + |fraction| == 0 then None
    else
      assert AllDigits(whole + fraction);
      var digits := DecimalValue(whole + fraction);
      if m == |u| then Some((digits, -|fraction|))
      else
        var (sign, power) := SignOf(u[m + 1..]);
        if IsDigitString(power) then Some((digits, sign * DecimalValue(power) - |fraction|))
        else None
  }

  /** `digits × 10^exponent` when that is an integer; `None` for a fraction. */
  function ScaledValue(digits: nat, exponent: int): Option<nat>
    decreases if exponent < 0 then -exponent else 0
  {
    if exponent >= 0 then Some(Shift(digits, exponent))
    else if digits % 10 == 0 then ScaledValue(digits / 10, exponent + 1)
    else None
  }

  /**
   * `Number(s)` for a string, when the result is an integer; `None` stands
   * for `NaN` and for a fraction. After trimming, the empty string is 0; a
   * `0x`, `0o` or `0b` prefix takes unsigned digits of that base; anything
   * else is an optionally signed decimal literal. The name `Infinity` is not
   * finite and gives `None`.
   */
  function StringToNumber(s: string): Option<int> {
    var t := Trim(s);
    if t == "" then Some(0)
    else if PrefixRadix(t) != 0 then
      if |t| > 2 && AllRadixDigits(t[2..], PrefixRadix(t)) then Some(RadixValue(t[2..], PrefixRadix(t)))
      else None
    else
      var (sign, u) := SignOf(t);
      match DecimalLiteral(u)
      case None => None
      case Some((digits, exponent)) =>
        match ScaledValue(digits, exponent)
        case None => None
        case Some(v) => Some(sign * v)
  }

  lemma {:induction false} DigitRunAll(s: string)
    requires AllDigits(s)
    ensures DigitRun(s) == |s|
  {
    if |s| > 0 {
      assert AllDigits(s[1..]) by {
        assert forall i :: 0 <= i < |s[1..]| ==> s[1..][i] == s[i + 1];
      }
      DigitRunAll(s[1..]);
    }
  }

  /** On a digit string `parseInt` reads the whole string. */
  lemma ParseIntDigits(s: string)
    requires IsDigitString(s)
    ensures ParseInt(s) == Some(DecimalValue(s))
  {
    SkipWhitespaceStopsAt(s, 0, 0);
    assert s[0..] == s;
    DigitRunAll(s);
    assert s[..|s|] == s;
  }

  /** `parseInt(String(n)) === n`: rendering and parsing are inverse. */
  lemma ParseIntRoundTrip(n: int)
    ensures ParseInt(IntToString(n)) == Some(n)
  {
    if n >= 0 {
      ParseIntDigits(NatToString(n));
    } else {
      var d := NatToString(-n);
      var s := "-" + d;
      SkipWhitespaceStopsAt(s, 0, 0);
      assert s[0..] == s;
      assert SignOf(s) == (-1, d) by { assert s[1..] == d; }
      DigitRunAll(d);
      assert d[..|d|] == d;
    }
  }

  /** A digit string is a decimal literal with no exponent. */
  lemma DigitsAreDecimalLiteral(d: string)
    requires IsDigitString(d)
    ensures DecimalLiteral(d) == Some((DecimalValue(d), 0))
  {
    assert d[..|d|] == d;
    assert d + "" == d;
  }

  /** How `Number` reads an unpadded string that carries no `0x`, `0o` or `0b` prefix. */
  lemma DecimalNumber(s: string, sign: int, u: string, digits: nat, exponent: int, v: nat)
    requires s != "" && Trim(s) == s && PrefixRadix(s) == 0 && SignOf(s) == (sign, u)
    requires DecimalLiteral(u) == Some((digits, exponent)) && ScaledValue(digits, exponent) == Some(v)
    ensures StringToNumber(s) == Some(sign * v)
  {
  }

  /** How `Number` reads an unpadded unsigned decimal literal. */
  lemma UnsignedDecimalNumber(s: string, digits: nat, exponent: int, v: nat)
    requires s != "" && IsDigit(s[0]) && !IsWhitespace(s[|s| - 1]) && PrefixRadix(s) == 0
    requires DecimalLiteral(s) == Some((digits, exponent)) && ScaledValue(digits, exponent) == Some(v)
    ensures StringToNumber(s) == Some(v)
  {
    TrimUnpadded(s);
    DecimalNumber(s, 1, s, digits, exponent, v);
  }

  /** `Number(String(n)) === n` for an integer `n`. */
  lemma StringToNumberRoundTrip(n: int)
    ensures StringToNumber(IntToString(n)) == Some(n)
  {
    if n >= 0 {
      NaturalRoundTrip(n);
    } else {
      NegativeRoundTrip(n);
    }
  }

  lemma NaturalRoundTrip(n: nat)
    ensures StringToNumber(NatToString(n)) == Some(n)
  {
    var s := NatToString(n);
    assert IsDigit(s[0]) && IsDigit(s[|s| - 1]);
    TrimUnpadded(s);
    DigitsAreDecimalLiteral(s);
    ScaledUnshifted(n);
    DecimalNumber(s, 1, s, n, 0, n);
  }

  lemma NegativeRoundTrip(n: int)
    requires n < 0
    ensures StringToNumber("-" + NatToString(-n)) == Some(n)
  {
    var d := NatToString(-n);
    var s := "-" + d;
    assert IsDigit(d[|d| - 1]);
    assert s[|s| - 1] == d[|d| - 1];
    TrimUnpadded(s);
    assert s[1..] == d;
    DigitsAreDecimalLiteral(d);
    ScaledUnshifted(-n);
    DecimalNumber(s, -1, d, -n, 0, -n);
  }

  /** Digits, an exponent mark and digits form a decimal literal with that exponent. */
  lemma ExponentLiteral(d: string, mark: char, k: string)
    requires IsDigitString(d) && IsExponentMark(mark) && IsDigitString(k)
    ensures DecimalLiteral(d + [mark] + k) == Some((DecimalValue(d), DecimalValue(k)))
  {
    var s := d + [mark] + k;
    assert forall i :: 0 <= i < |d| ==> s[i] == d[i];
    assert s[|d|] == mark;
    assert ExponentMark(s) == |d|;
    assert s[..|d|] == d;
    assert d[..|d|] == d;
    assert d + "" == d;
    assert s[|d| + 1..] == k;
  }

  /**
   * `Number(d + mark + k)` is `d × 10^k` for digit strings `d` and `k` and an
   * exponent mark `e` or `E`, so `Number("1e3")` is 1000.
   */
  lemma ExponentNumber(d: string, mark: char, k: string)
    requires IsDigitString(d) && IsExponentMark(mark) && IsDigitString(k)
    ensures StringToNumber(d + [mark] + k) == Some(Shift(DecimalValue(d), DecimalValue(k)))
  {
    var s := d + [mark] + k;
    assert s[0] == d[0] && s[|s| - 1] == k[|k| - 1];
    TrimUnpadded(s);
    assert PrefixRadix(s) == 0;
    assert SignOf(s) == (1, s);
    ExponentLiteral(d, mark, k);
    var v, e := DecimalValue(d), DecimalValue(k);
    var w := Shift(v, e);
    assert ScaledValue(v, e) == Some(w);
    DecimalNumber(s, 1, s, v, e, w);
  }

  predicate AllZeros(z: string) {
    forall i :: 0 <= i < |z| ==> z[i] == '0'
  }

  /** A trailing zero digit multiplies the value by ten. */
  lemma AppendZero(s: string)
    requires AllDigits(s)
    ensures AllDigits(s + "0") && DecimalValue(s + "0") == DecimalValue(s) * 10
  {
    var t := s + "0";
    assert t[..|t| - 1] == s;
  }

  /** Scaling by no places leaves a value as it is. */
  lemma ScaledUnshifted(v: nat)
    ensures ScaledValue(v, 0) == Some(v)
  {
    assert Pow10(0) == 1;
  }

  /** Scaling a multiple of ten down by one more place is scaling the tenth. */
  lemma ScaleDownTen(x: nat, e: int)
    requires e < 0
    ensures ScaledValue(x * 10, e) == ScaledValue(x, e + 1)
  {
    assert (x * 10) % 10 == 0 && (x * 10) / 10 == x;
  }

  /** Scaling digits followed by zeros down by as many places drops the zeros again. */
  lemma {:induction false} StripZeros(d: string, z: string)
    requires AllDigits(d) && AllZeros(z)
    ensures AllDigits(d + z) && ScaledValue(DecimalValue(d + z), -|z|) == Some(DecimalValue(d))
    decreases |z|
  {
    if |z| == 0 {
      assert d + z == d;
      ScaledUnshifted(DecimalValue(d));
    } else {
      var y := z[..|z| - 1];
      assert AllZeros(y);
      StripZeros(d, y);
      assert d + z == (d + y) + "0" by {
        assert z == y + "0";
      }
      AppendZero(d + y);
      ScaleDownTen(DecimalValue(d + y), -|z|);
    }
  }

  /** Where the point and the (absent) exponent mark of `d + "." + z` are. */
  lemma ZeroFractionMarks(d: string, z: string)
    requires AllDigits(d) && AllDigits(z)
    ensures ExponentMark(d + "." + z) == |d + "." + z|
    ensures IndexOf(d + "." + z, '.') == |d|
  {
    var s := d + "." + z;
    assert forall i :: 0 <= i < |d| ==> s[i] == d[i];
    assert forall i :: 0 <= i < |z| ==> s[|d| + 1 + i] == z[i];
    assert forall i :: 0 <= i < |s| ==> !IsExponentMark(s[i]);
    assert s[|d|] == '.';
  }

  /** A literal with a point and no exponent mark reads its digits on both sides of the point. */
  lemma PointLiteral(u: string, whole: string, fraction: string)
    requires AllDigits(whole) && AllDigits(fraction) && |whole| + |fraction| > 0
    requires u == whole + "." + fraction
    requires ExponentMark(u) == |u| && IndexOf(u, '.') == |whole|
    ensures AllDigits(whole + fraction)
    ensures DecimalLiteral(u) == Some((DecimalValue(whole + fraction), -|fraction|))
  {
    var mantissa := u[..ExponentMark(u)];
    assert mantissa == u;
    var d := IndexOf(mantissa, '.');
    assert d == |whole| < |mantissa|;
    assert mantissa[..d] == whole;
    assert mantissa[d + 1..] == fraction;
  }

  /** Digits, a point and digits need no trimming and carry no `0x`, `0o` or `0b` prefix. */
  lemma PointUnpadded(d: string, z: string)
    requires IsDigitString(d) && IsDigitString(z)
    ensures var s := d + "." + z;
      IsDigit(s[0]) && !IsWhitespace(s[|s| - 1]) && PrefixRadix(s) == 0
  {
    var s := d + "." + z;
    assert s[0] == d[0] && s[|s| - 1] == z[|z| - 1];
    assert s[1] == if |d| == 1 then '.' else d[1];
  }

  /** A fraction of zeros leaves the value whole: `Number("1.0")` and `Number("1.000")` are 1. */
  lemma ZeroFractionNumber(d: string, z: string)
    requires IsDigitString(d) && |z| > 0 && AllZeros(z)
    ensures StringToNumber(d + "." + z) == Some(DecimalValue(d))
  {
    assert AllDigits(z);
    ZeroFractionMarks(d, z);
    PointLiteral(d + "." + z, d, z);
    StripZeros(d, z);
    PointUnpadded(d, z);
    UnsignedDecimalNumber(d + "." + z, DecimalValue(d + z), -|z|, DecimalValue(d));
  }

  /** A hexadecimal, octal or binary digit is not whitespace. */
  lemma RadixDigitNotWhitespace(c: char, radix: nat)
    requires IsRadixDigit(c, radix)
    ensures !IsWhitespace(c)
  {
  }

  /**
   * `Number(p + h)` for a `0x`, `0o` or `0b` prefix `p` is `h` read in that
   * base, so `Number("0x10")` is 16 and `Number("0b11")` is 3.
   */
  lemma PrefixedNumber(p: string, h: string)
    requires |p| == 2 && PrefixRadix(p) != 0
    requires |h| > 0 && AllRadixDigits(h, PrefixRadix(p))
    ensures StringToNumber(p + h) == Some(RadixValue(h, PrefixRadix(p)))
  {
    var s := p + h;
    RadixDigitNotWhitespace(h[|h| - 1], PrefixRadix(p));
    assert s[0] == '0' && s[|s| - 1] == h[|h| - 1];
    TrimUnpadded(s);
    assert s[..2] == p && s[2..] == h;
  }

  /** A `0x`, `0o` or `0b` prefix is not part of any decimal literal. */
  lemma PrefixedNotDecimal(u: string)
    requires |u| >= 2 && PrefixRadix(u) != 0
    ensures DecimalLiteral(u) == None
  {
    assert !IsExponentMark(u[1]) && !IsDigit(u[1]) && u[1] != '.';
    var m := ExponentMark(u);
    assert m >= 2;
    var mantissa := u[..m];
    var d := IndexOf(mantissa, '.');
    assert d >= 2;
    assert mantissa[..d][1] == u[1];
  }

  /** A sign before a `0x`, `0o` or `0b` prefix makes `NaN`: `Number("-0x10")` is not a number. */
  lemma SignedPrefixedIsNaN(sign: char, p: string, h: string)
    requires sign == '-' || sign == '+'
    requires |p| == 2 && PrefixRadix(p) != 0
    requires AllRadixDigits(h, PrefixRadix(p))
    ensures StringToNumber([sign] + p + h) == None
  {
    var s := [sign] + p + h;
    var u := p + h;
    if |h| > 0 {
      RadixDigitNotWhitespace(h[|h| - 1], PrefixRadix(p));
      assert s[|s| - 1] == h[|h| - 1];
    } else {
      assert s[|s| - 1] == p[1];
    }
    TrimUnpadded(s);
    assert s[1..] == u;
    assert u[..2] == p;
    PrefixedNotDecimal(u);
  }
}

=== FILE: js_value.dfy ===
/**
 * JavaScript values as the movie API sees them: whatever `JSON.parse` can
 * produce, plus `undefined`. Objects are maps from key to value, so object
 * spread `{...a, ...b}` is the right-biased map union `a + b`.
 *
 * Numbers are integers: `NaN`, the infinities and fractions do not occur,
 * and a conversion whose JavaScript result is not finite yields `None`.
 */
module JsValue {
  import opened Completions
  import opened JsText

  datatype Value =
    | Undefined
    | Null
    | Bool(b: bool)
    | Num(n: int)
    | Str(s: string)
    | Arr(items: seq<Value>)
    | Obj(fields: map<string, Value>)

  predicate IsNullish(v: Value) {
    v.Undefined? || v.Null?
  }

  /** The JavaScript truth value of `v` (what `if (v)` and `!v` test). */
  predicate Truthy(v: Value) {
    match v
    case Undefined => false
    case Null => false
    case Bool(b) => b
    case Num(n) => n != 0
    case Str(s) => s != ""
    case Arr(_) => true
    case Obj(_) => true
  }

  /** An object literal with the given own properties. */
  function Field(fields: map<string, Value>, key: string): Value {
    if key in fields then fields[key] else Undefined
  }

  /**
   * `v.key` for one of the record keys the API reads (`id`, `title`, `year`,
   * `genre`): it throws on `null` and `undefined`; primitives and arrays have
   * no such property.
   */
  function Prop(v: Value, key: string): (r: Completion<Value>)
    ensures r.Throw? <==> IsNullish(v)
    ensures v.Obj? ==> r == Normal(Field(v.fields, key))
  {
    match v
    case Undefined => Throw
    case Null => Throw
    case Obj(f) => Normal(Field(f, key))
    case _ => Normal(Undefined)
  }

  /** `v?.key`: optional chaining never throws. */
  function OptionalProp(v: Value, key: string): (r: Value)
    ensures IsNullish(v) ==> r == Undefined
    ensures !IsNullish(v) ==> Normal(r) == Prop(v, key)
  {
    if IsNullish(v) then Undefined else Prop(v, key).value
  }

  /** `v.length` on a value already known to be truthy or an object. */
  function LengthProp(v: Value): Value {
    match v
    case Arr(items) => Num(|items|)
    case Str(s) => Num(|s|)
    case Obj(f) => Field(f, "length")
    case _ => Undefined
  }

  /**
   * The own enumerable properties `{...v}` copies. Spreading `null`,
   * `undefined` or a number or boolean copies nothing; an object copies its
   * fields. Strings and arrays would copy index keys; they are not spread
   * anywhere the API's callers reach with a validated body, and are treated
   * as copying nothing.
   */
  function Spread(v: Value): (r: map<string, Value>)
    ensures v.Obj? ==> r == v.fields
    ensures !v.Obj? ==> r == map[]
  {
    if v.Obj? then v.fields else map[]
  }

  /** `String(v)`. */
  function StringOf(v: Value): string {
    match v
    case Undefined => "undefined"
    case Null => "null"
    case Bool(b) => if b then "true" else "false"
    case Num(n) => IntToString(n)
    case Str(s) => s
    case Arr(items) => JoinedItems(items)
    case Obj(_) => "[object Object]"
  }

  /** `items.join(',')` as `Array.prototype.toString` renders it. */
  function JoinedItems(items: seq<Value>): string
    decreases items
  {
    if |items| == 0 then ""
    else
      var head :=
        match items[0]
        case Undefined => ""
        case Null => ""
        case Arr(inner) => JoinedItems(inner)
        case Obj(_) => "[object Object]"
        case Bool(b) => if b then "true" else "false"
        case Num(n) => IntToString(n)
        case Str(s) => s;
      if |items| == 1 then head else head + "," + JoinedItems(items[1..])
  }

  /** `v.toString()`: as `String(v)`, except that it throws on `null` and `undefined`. */
  function ToStringCall(v: Value): (r: Completion<string>)
    ensures r.Throw? <==> IsNullish(v)
    ensures r.Normal? ==> r.value == StringOf(v)
  {
    if IsNullish(v) then Throw else Normal(StringOf(v))
  }

  /** `v.toLowerCase()`: defined on strings only, a TypeError otherwise. */
  function LowerCaseCall(v: Value): (r: Completion<string>)
    ensures r.Normal? <==> v.Str?
    ensures v.Str? ==> r.value == Lower(v.s)
  {
    if v.Str? then Normal(Lower(v.s)) else Throw
  }

  /** `parseInt(v)`: the argument is converted with `String` first; `None` is `NaN`. */
  function ParseIntOf(v: Value): Option<int> {
    ParseInt(StringOf(v))
  }

  /**
   * `Number(v)` when it is an integer; `None` stands for `NaN` and for a
   * fraction. Rounding to a double is not modelled, so a literal beyond the
   * double range (which `Number` turns into an infinity) reads as its integer.
   */
  function ToNumber(v: Value): Option<int> {
    match v
    case Undefined => None
    case Null => Some(0)
    case Bool(b) => Some(if b then 1 else 0)
    case Num(n) => Some(n)
    case Str(s) => StringToNumber(s)
    case Arr(_) => StringToNumber(StringOf(v))
    case Obj(_) => None
  }

  /** `v === p` where `p` is a number produced by `parseInt` or `Number`. */
  predicate IsNumber(v: Value, p: Option<int>) {
    p.Some? && v == Num(p.value)
  }

  /**
   * `a === b` for two values that do not come from the same object: objects
   * and arrays are compared by reference, so two distinct ones are never
   * strictly equal.
   */
  predicate StrictEquals(a: Value, b: Value) {
    !a.Obj? && !a.Arr? && a == b
  }

  /** `parseInt` applied to a number gives the number back. */
  lemma ParseIntOfNumber(n: int)
    ensures ParseIntOf(Num(n)) == Some(n)
  {
    ParseIntRoundTrip(n);
  }

  /** `parseInt` applied to a digit string gives its decimal value. */
  lemma ParseIntOfDigits(s: string)
    requires IsDigitString(s)
    ensures ParseIntOf(Str(s)) == Some(DecimalValue(s))
  {
    ParseIntDigits(s);
  }

  /** `Number` applied to the decimal rendering of an integer gives it back. */
  lemma ToNumberOfRendering(n: int)
    ensures ToNumber(Str(IntToString(n))) == Some(n)
  {
    StringToNumberRoundTrip(n);
  }
}

=== FILE: movie_business_logic.dfy ===
/**
 * The business rules of the newer service layer
 * (`services/movieBusinessLogic.mjs`): duplicate-title detection, the
 * conjunctive movie filter, the emptiness test and the two envelope
 * constructors.
 */
module MovieBusinessLogic {
  import opened Completions
  import opened JsText
  import opened JsValue
  import opened JsArray
  import opened Responses
  import opened MovieRecords

  /* ---------------- isDuplicateTitle ---------------- */

  /** The callback of `isDuplicateTitle` for one stored movie. */
  function SameTitle(title: Value, movie: Value): Completion<bool> {
    var stored :- Prop(movie, "title");
    var a :- LowerCaseCall(stored);
    var b :- LowerCaseCall(title);
    Normal(Trim(a) == Trim(b))
  }

  /** The callback throws exactly when one of the two titles is not a string. */
  lemma SameTitleCases(title: Value)
    ensures forall m ::
              SameTitle(title, m) ==
                if title.Str? && HasStringField(m, "title")
                then Normal(TitleKey(StringField(m, "title")) == TitleKey(title.s))
                else Throw
  {
  }

  /** The callback `movie => movie.title.toLowerCase().trim() === title.toLowerCase().trim()`. */
  function SameTitleAs(title: Value): Value -> Completion<bool> {
    m => SameTitle(title, m)
  }

  /** `isDuplicateTitle(title, movies)`. */
  function IsDuplicateTitle(title: Value, movies: seq<Value>): (r: Completion<bool>)
    ensures |movies| == 0 ==> r == Normal(false)
    ensures !title.Str? ==> (r.Throw? <==> |movies| > 0)
    ensures title.Str? && (forall i :: 0 <= i < |movies| ==> HasStringField(movies[i], "title")) ==>
      r == Normal(exists i :: 0 <= i < |movies| && TitleKey(StringField(movies[i], "title")) == TitleKey(title.s))
    ensures title.Str? ==> (r == Normal(true) <==>
      exists i :: 0 <= i < |movies| && HasStringField(movies[i], "title")
        && TitleKey(StringField(movies[i], "title")) == TitleKey(title.s)
        && forall j :: 0 <= j < i ==> HasStringField(movies[j], "title"))
    ensures title.Str? ==> (r.Throw? <==> exists i :: TitleUnreadableFirst(title.s, movies, i))
  {
    DuplicateTitleCases(title, movies);
    DuplicateTitleThrows(title, movies);
    ArraySome(movies, SameTitleAs(title))
  }

  /**
   * `movies[i]` is the first record whose title is not a string, and no
   * record before it has the title `title`: `some` throws there.
   */
  predicate TitleUnreadableFirst(title: string, movies: seq<Value>, i: int) {
    && 0 <= i < |movies| && !HasStringField(movies[i], "title")
    && forall j :: 0 <= j < i ==>
         HasStringField(movies[j], "title") && TitleKey(StringField(movies[j], "title")) != TitleKey(title)
  }

  lemma DuplicateTitleCases(title: Value, movies: seq<Value>)
    ensures var r := ArraySome(movies, SameTitleAs(title));
      && (!title.Str? ==> (r.Throw? <==> |movies| > 0))

      && (title.Str? ==> (r == Normal(true) <==>
        exists i :: 0 <= i < |movies| && HasStringField(movies[i], "title")
          && TitleKey(StringField(movies[i], "title")) == TitleKey(title.s)
          && forall j :: 0 <= j < i ==> HasStringField(movies[j], "title")))
  {
    SameTitleCases(title);
    var p := SameTitleAs(title);
    var r := ArraySome(movies, p);
    if title.Str? {
      if r == Normal(true) {
        var i :| FirstAccepted(movies, p, i);
        forall j | 0 <= j < i ensures HasStringField(movies[j], "title") {
          assert p(movies[j]) == Normal(false);
        }
      }
      forall i | 0 <= i < |movies| && HasStringField(movies[i], "title")
        && TitleKey(StringField(movies[i], "title")) == TitleKey(title.s)
        && (forall j :: 0 <= j < i ==> HasStringField(movies[j], "title"))
        ensures r == Normal(true)
      {
        FirstHitBefore(movies, p, i);
      }
    } else if |movies| > 0 {
      assert FirstThrow(movies, p, 0);
    }
  }

  /** For a string title, `some` throws exactly at a first record whose title cannot be read. */
  lemma DuplicateTitleThrows(title: Value, movies: seq<Value>)
    ensures title.Str? ==>
      (ArraySome(movies, SameTitleAs(title)).Throw? <==> exists i :: TitleUnreadableFirst(title.s, movies, i))
  {
    if title.Str? {
      SameTitleCases(title);
      var p := SameTitleAs(title);
      forall i ensures FirstThrow(movies, p, i) <==> TitleUnreadableFirst(title.s, movies, i) {
      }
    }
  }

  /**
   * If the callback accepts `xs[i]` and does not throw before it, `some`
   * finds an accepted element.
   */
  lemma {:induction false} FirstHitBefore<T>(xs: seq<T>, p: T -> Completion<bool>, i: int)
    requires 0 <= i < |xs| && p(xs[i]) == Normal(true)
    requires forall j :: 0 <= j < i ==> p(xs[j]).Normal?
    ensures ArraySome(xs, p) == Normal(true)
    decreases i
  {
    if i > 0 && p(xs[0]) == Normal(false) {
      assert forall j :: 0 <= j < i - 1 ==> xs[1..][j] == xs[j + 1];
      FirstHitBefore(xs[1..], p, i - 1);
    }
  }

  /* ---------------- filterMovies ---------------- */

  /** The filter callback of `filterMovies`: each truthy criterion may reject the movie. */
  function MeetsCriteria(movie: Value, genre: Value, year: Value, title: Value): Completion<bool> {
    var genreOk :- if Truthy(genre) then GenreEquals(movie, genre) else Normal(true);
    if !genreOk then Normal(false)
    else
      var yearOk :- if Truthy(year) then YearEquals(movie, year) else Normal(true);
      if !yearOk then Normal(false)
      else if Truthy(title) then TitleIncludes(movie, title) else Normal(true)
  }

  /** A movie meets the criteria exactly when it meets each of them. */
  lemma MeetsCriteriaIsConjunction(movie: Value, genre: Value, year: Value, title: Value)
    ensures MeetsCriteria(movie, genre, year, title) == Normal(true) <==>
      GenreCriterion(movie, genre) && YearCriterion(movie, year) && TitleCriterion(movie, title)
  {
  }

  /** Criteria for which the filter cannot throw on well-formed records. */
  predicate StringCriteria(criteria: map<string, Value>) {
    && (Truthy(Field(criteria, "genre")) ==> Field(criteria, "genre").Str?)
    && (Truthy(Field(criteria, "title")) ==> Field(criteria, "title").Str?)
  }

  /**
   * The callback can read every field it reaches for `m`: a truthy genre
   * needs string genres on both sides, a truthy year a defined record once
   * the genre passed, and a truthy title string titles once both passed.
   */
  predicate CriteriaReadable(m: Value, criteria: map<string, Value>) {
    var genre, year, title := Field(criteria, "genre"), Field(criteria, "year"), Field(criteria, "title");
    && (Truthy(genre) ==> genre.Str? && HasStringField(m, "genre"))
    && (GenreCriterion(m, genre) && Truthy(year) ==> !IsNullish(m))
    && (GenreCriterion(m, genre) && YearCriterion(m, year) && Truthy(title) ==> title.Str? && HasStringField(m, "title"))
  }

  /** The callback of `filterMovies` for the criteria object. */
  function MeetsCriteriaOf(criteria: map<string, Value>): Value -> Completion<bool> {
    m => MeetsCriteria(m, Field(criteria, "genre"), Field(criteria, "year"), Field(criteria, "title"))
  }

  /** `m` meets every criterion of `criteria`. */
  predicate Satisfies(m: Value, criteria: map<string, Value>) {
    && GenreCriterion(m, Field(criteria, "genre"))
    && YearCriterion(m, Field(criteria, "year"))
    && TitleCriterion(m, Field(criteria, "title"))
  }

  /** `filterMovies(movies, criteria)`. */
  function FilterMovies(movies: seq<Value>, criteria: map<string, Value>): (r: Completion<seq<Value>>)
    ensures r.Normal? ==> IsSubsequence(r.value, movies)
    ensures r.Normal? ==> forall m :: m in r.value ==> Satisfies(m, criteria)
    ensures r.Normal? ==> forall i :: 0 <= i < |movies| && Satisfies(movies[i], criteria) ==> movies[i] in r.value
    ensures r.Normal? ==> forall x :: multiset(r.value)[x] == if Satisfies(x, criteria) then multiset(movies)[x] else 0
    ensures (forall i :: 0 <= i < |movies| ==> IsMovieRecord(movies[i])) && StringCriteria(criteria) ==> r.Normal?
    ensures r.Normal? <==> forall i :: 0 <= i < |movies| ==> CriteriaReadable(movies[i], criteria)
    ensures !Truthy(Field(criteria, "genre")) && !Truthy(Field(criteria, "year")) && !Truthy(Field(criteria, "title"))
      ==> r == Normal(movies)
  {
    CallbackDefined(criteria);
    FilterCallbackMeaning(movies, criteria);
    ArrayFilterCounts(movies, MeetsCriteriaOf(criteria));
    ArrayFilter(movies, MeetsCriteriaOf(criteria))
  }

  /** The callback returns normally exactly on the records whose criteria fields it can read. */
  lemma CallbackDefined(criteria: map<string, Value>)
    ensures forall m :: MeetsCriteriaOf(criteria)(m).Normal? <==> CriteriaReadable(m, criteria)
  {
  }

  lemma FilterCallbackMeaning(movies: seq<Value>, criteria: map<string, Value>)
    ensures forall m :: MeetsCriteriaOf(criteria)(m) == Normal(true) <==> Satisfies(m, criteria)
    ensures (forall i :: 0 <= i < |movies| ==> IsMovieRecord(movies[i])) && StringCriteria(criteria) ==>
      ArrayFilter(movies, MeetsCriteriaOf(criteria)).Normal?
    ensures !Truthy(Field(criteria, "genre")) && !Truthy(Field(criteria, "year")) && !Truthy(Field(criteria, "title"))
      ==> ArrayFilter(movies, MeetsCriteriaOf(criteria)) == Normal(movies)
  {
    var genre, year, title := Field(criteria, "genre"), Field(criteria, "year"), Field(criteria, "title");
    var p := MeetsCriteriaOf(criteria);
    forall m ensures p(m) == Normal(true) <==> Satisfies(m, criteria) {
      MeetsCriteriaIsConjunction(m, genre, year, title);
    }
    if !Truthy(genre) && !Truthy(year) && !Truthy(title) {
      ArrayFilterAll(movies, p);
    }
  }

  /* ---------------- isMoviesArrayEmpty ---------------- */

  /** `isMoviesArrayEmpty(movies)`: `!movies || movies.length === 0`. */
  function IsMoviesArrayEmpty(movies: Value): (r: bool)
    ensures IsNullish(movies) ==> r
    ensures movies.Arr? ==> (r <==> |movies.items| == 0)
    ensures movies.Str? ==> (r <==> movies.s == "")
  {
    !Truthy(movies) || LengthProp(movies) == Num(0)
  }

  /* ---------------- envelopes ---------------- */

  /** `createErrorResponse(statusCode, message)`. */
  function CreateErrorResponse(statusCode: int, message: Value): (r: Envelope)
    ensures r.ToObject() == Obj(map[
      "success" := Bool(false), "statusCode" := Num(statusCode), "error" := Obj(map["message" := message])])
    ensures !r.success && r.statusCode == statusCode
  {
    Envelope(false, statusCode, MessageObject(message))
  }

  /** `createSuccessResponse(statusCode, data)`. */
  function CreateSuccessResponse(statusCode: int, data: Value): (r: Envelope)
    ensures r.ToObject() == Obj(map["success" := Bool(true), "statusCode" := Num(statusCode), "data" := data])
    ensures r.success && r.statusCode == statusCode && r.payload == data
  {
    Envelope(true, statusCode, data)
  }
}

=== FILE: movie_records.dfy ===
/**
 * Stored movie records and the per-record tests the two filter
 * implementations share: `movie.genre.toLowerCase() === genre.toLowerCase()`
 * and `movie.year === parseInt(year)` are written identically in
 * `helpers/filterMovies.mjs` and `services/movieBusinessLogic.mjs`.
 * A record is any value; the ones the API writes are objects.
 */
module MovieRecords {
  import opened Completions
  import opened JsText
  import opened JsValue

  /** `s.toLowerCase().trim()`, the key two titles are compared on. */
  function TitleKey(s: string): string {
    Trim(Lower(s))
  }

  /** A stored record is an object; these are its string-valued fields. */
  predicate HasStringField(m: Value, key: string) {
    m.Obj? && Field(m.fields, key).Str?
  }

  function StringField(m: Value, key: string): string
    requires HasStringField(m, key)
  {
    Field(m.fields, key).s
  }

  function GenreEquals(movie: Value, genre: Value): Completion<bool> {
    var stored :- Prop(movie, "genre");
    var a :- LowerCaseCall(stored);
    var b :- LowerCaseCall(genre);
    Normal(a == b)
  }

  function YearEquals(movie: Value, year: Value): Completion<bool> {
    var stored :- Prop(movie, "year");
    Normal(IsNumber(stored, ParseIntOf(year)))
  }

  function TitleIncludes(movie: Value, title: Value): Completion<bool> {
    var stored :- Prop(movie, "title");
    var a :- LowerCaseCall(stored);
    var b :- LowerCaseCall(title);
    Normal(Includes(a, b))
  }

  /** Genre: case-insensitive equality of whole strings. */
  predicate GenreCriterion(movie: Value, genre: Value) {
    !Truthy(genre) || (genre.Str? && HasStringField(movie, "genre")
      && Lower(StringField(movie, "genre")) == Lower(genre.s))
  }

  /** Year: the stored year is the number `parseInt(year)`. */
  predicate YearCriterion(movie: Value, year: Value) {
    !Truthy(year) || (movie.Obj? && IsNumber(Field(movie.fields, "year"), ParseIntOf(year)))
  }

  /** Title: case-insensitive substring. */
  predicate TitleCriterion(movie: Value, title: Value) {
    !Truthy(title) || (title.Str? && HasStringField(movie, "title")
      && Includes(Lower(StringField(movie, "title")), Lower(title.s)))
  }

  /** A record on which the filter callbacks cannot throw. */
  predicate IsMovieRecord(m: Value) {
    HasStringField(m, "title") && HasStringField(m, "genre")
  }

}

=== FILE: movies_controller.dfy ===
/**
 * `controllers/movies.mjs`: the handlers of the live path. They guard ids
 * with `/^\d+$/`, call the model, and send the envelope's `data` or
 * `error` with its status code. A rejected model call leaves the request
 * without a reply.
 */
module MoviesController {
  import opened Completions
  import opened JsText
  import opened JsValue
  import opened Responses
  import opened Storage
  import MoviesModel

  const WelcomeReply := Reply(200, Html, WelcomePage)

  const InvalidIdError := Obj(map["error" := InvalidId])

  /** Send the envelope: its `data` on success, its `error` otherwise. */
  function Send(envelope: Envelope): (r: Reply)
    ensures r == JsonReply(envelope.statusCode,
      Field(envelope.ToObject().fields, if envelope.success then "data" else "error"))
  {
    JsonReply(envelope.statusCode, envelope.payload)
  }

  /** The handler's reply to what the model resolved to. */
  function Answer(response: Completion<Envelope>): (r: Reply)
    ensures r.NoReply? <==> response.Throw?
    ensures response.Normal? ==> r.status == response.value.statusCode
  {
    match response
    case Throw => NoReply
    case Normal(envelope) => Send(envelope)
  }

  /** The text `/^\d+$/.test(id)` examines: an absent id is the string `undefined`. */
  function IdText(id: Option<string>): (r: string)
    ensures id.Some? ==> r == id.value
    ensures id.None? ==> !IsDigitString(r)
  {
    if id.Some? then id.value
    else
      assert !IsDigit("undefined"[0]);
      "undefined"
  }

  /** `MoviesController.getAll`: `req.query` goes to the model unchanged. */
  function GetAll(query: map<string, Value>, store: Store): (r: Reply)
    ensures r == Answer(MoviesModel.GetAll(query, store))
    ensures r.Reply? ==> r.status in {200, 404, 500}
  {
    var response := MoviesModel.GetAll(query, store);
    assert response.Normal? ==> response.value.statusCode in {200, 404, 500};
    Answer(response)
  }

  /** `MoviesController.getById`. */
  function GetById(id: Option<string>, store: Store): (r: Reply)
    ensures !IsDigitString(IdText(id)) ==> r == JsonReply(400, InvalidIdError)
    ensures IsDigitString(IdText(id)) ==> r == Answer(MoviesModel.GetById(id.value, store))
    ensures IsDigitString(IdText(id)) && r.Reply? ==> r.status in {200, 404, 500}
  {
    if !IsDigitString(IdText(id)) then JsonReply(400, InvalidIdError)
    else Answer(MoviesModel.GetById(id.value, store))
  }

  /** An id the regular expression rejects never reaches the store. */
  lemma RejectedIdIgnoresStore(id: Option<string>, a: Store, b: Store)
    requires !IsDigitString(IdText(id))
    ensures GetById(id, a) == GetById(id, b) == JsonReply(400, InvalidIdError)
  {
  }

  /** The guard makes the model's empty-id branch unreachable from this handler. */
  lemma EmptyIdIsInvalid(store: Store)
    ensures GetById(Some(""), store) == JsonReply(400, InvalidIdError)
  {
  }

  /** `MoviesController.create`: the model's write is passed through. */
  function Create(body: Value, store: Store): (r: Handled)
    ensures r.written == MoviesModel.Create(body, store).written
    ensures r.reply == Answer(MoviesModel.Create(body, store).response)
  {
    var stored := MoviesModel.Create(body, store);
    Handled(Answer(stored.response), stored.written)
  }

  /** `MoviesController.delete`. */
  function Delete(id: Option<string>, store: Store): (r: Handled)
    ensures !IsDigitString(IdText(id)) ==> r == Handled(JsonReply(400, InvalidIdError), None)
    ensures IsDigitString(IdText(id)) ==>
      var stored := MoviesModel.Delete(id.value, store);
      r == Handled(Answer(stored.response), stored.written)
    ensures r.written.Some? ==> IsDigitString(IdText(id))
  {
    if !IsDigitString(IdText(id)) then Handled(JsonReply(400, InvalidIdError), None)
    else
      var stored := MoviesModel.Delete(id.value, store);
      Handled(Answer(stored.response), stored.written)
  }
}

=== FILE: movies_model.dfy ===
/**
 * `models/movies.mjs`, the data layer of the live `/movies` path. Each
 * operation reads the JSON file, parses it, answers 404 when it holds no
 * movies, and otherwise queries or rewrites it. A `Throw` is a rejected
 * promise: `JSON.parse` failing, or a TypeError inside a callback.
 */
module MoviesModel {
  import opened Completions
  import opened JsText
  import opened JsValue
  import opened JsArray
  import opened Responses
  import opened Storage
  import opened MovieRecords
  import opened AddMovieHelper
  import LegacyFilter

  /** What an operation resolves to and the value it handed to `writeJSON`, if it wrote. */
  datatype Stored = Stored(response: Completion<Envelope>, written: Option<Value>)

  /** The shared prologue: the stored records, or the envelope an operation returns early. */
  datatype Loaded = Records(movies: seq<Value>) | Early(envelope: Envelope)

  function Load(store: Store): (r: Completion<Loaded>)
    ensures store.read.ReadFailed? ==> r == Normal(Early(Envelope(false, 500, store.read.error)))
    ensures store.read.ReadOk? ==> match store.parse(store.read.data)
      case Throw => r.Throw?
      case Normal(movies) =>
        r == Normal(if |movies| == 0 then Early(Envelope(false, 404, MessageObject(NoMoviesAvailable))) else Records(movies))
  {
    match store.read
    case ReadFailed(error) => Normal(Early(Envelope(false, 500, error)))
    case ReadOk(data) =>
      var movies :- store.parse(data);
      if |movies| == 0 then Normal(Early(Envelope(false, 404, MessageObject(NoMoviesAvailable))))
      else Normal(Records(movies))
  }

  /** The records `Load` found, when it found any. */
  predicate HasRecords(store: Store, movies: seq<Value>) {
    Load(store) == Normal(Records(movies))
  }

  /* ---------------- getAll ---------------- */

  /** The movies list after `movies = filterMovies(filters, movies)`; reading `.length` of `undefined` throws. */
  function ApplyFilters(filters: map<string, Value>, movies: seq<Value>): (r: Completion<seq<Value>>)
    ensures |filters| == 0 ==> r == Normal(movies)
    ensures |filters| > 0 ==> match LegacyFilter.FilterMovies(filters, movies)
      case Normal(Some(kept)) => r == Normal(kept)
      case _ => r.Throw?
  {
    if |filters| > 0 then
      var kept :- LegacyFilter.FilterMovies(filters, movies);
      if kept.None? then Throw else Normal(kept.value)
    else Normal(movies)
  }

  /** The envelope for a (filtered) list: 404 when it is empty, else 200 with the list. */
  function ListEnvelope(current: seq<Value>): (r: Envelope)
    ensures r.success <==> |current| > 0
    ensures r.success ==> r == Envelope(true, 200, Arr(current))
    ensures !r.success ==> r == Envelope(false, 404, MessageObject(NoMatchingMovies))
  {
    if |current| == 0 then Envelope(false, 404, MessageObject(NoMatchingMovies))
    else Envelope(true, 200, Arr(current))
  }

  /** `MoviesModel.getAll(filters)`; `filters` is `req.query`. */
  function GetAll(filters: map<string, Value>, store: Store): (r: Completion<Envelope>)
    ensures Load(store).Throw? ==> r.Throw?
    ensures Load(store).Normal? && Load(store).value.Early? ==> r == Normal(Load(store).value.envelope)
    ensures forall movies :: HasRecords(store, movies) ==> match ApplyFilters(filters, movies)
      case Throw => r.Throw?
      case Normal(current) => r == Normal(ListEnvelope(current))
    ensures r.Normal? && r.value.success ==> r.value.statusCode == 200 && r.value.payload.Arr?
  {
    var loaded :- Load(store);
    match loaded
    case Early(envelope) => Normal(envelope)
    case Records(movies) =>
      var current :- ApplyFilters(filters, movies);
      Normal(ListEnvelope(current))
  }

  /**
   * A query naming only a title (or only unknown keys) makes `filterMovies`
   * return `undefined`, and the model then throws.
   */
  lemma TitleOnlyQueryThrows(store: Store, movies: seq<Value>, title: Value)
    requires HasRecords(store, movies)
    ensures GetAll(map["title" := title], store).Throw?
  {
    var filters := map["title" := title];
    assert Field(filters, "genre") == Undefined && Field(filters, "year") == Undefined;
    assert |filters| > 0;
  }

  /** The listing as its callers expect it, with the conjunctive filter that keeps everything when no criterion applies. */
  function GetAllIntended(filters: map<string, Value>, store: Store): (r: Completion<Envelope>)
    ensures Load(store).Throw? ==> r.Throw?
    ensures Load(store).Normal? && Load(store).value.Early? ==> r == Normal(Load(store).value.envelope)
    ensures forall movies :: HasRecords(store, movies) && LegacyFilter.UsableInputs(filters, movies) ==> r.Normal?
    ensures forall movies :: HasRecords(store, movies) && !Truthy(Field(filters, "genre")) && !Truthy(Field(filters, "year"))
                             ==> r == Normal(Envelope(true, 200, Arr(movies)))
    ensures forall movies :: HasRecords(store, movies) && r.Normal? && r.value.success ==>
      exists kept :: r.value.payload == Arr(kept) && IsSubsequence(kept, movies)
        && forall m :: m in kept ==> LegacyFilter.MatchesBoth(m, filters)
  {
    var loaded :- Load(store);
    match loaded
    case Early(envelope) => Normal(envelope)
    case Records(movies) =>
      var current :- LegacyFilter.FilterMoviesIntended(filters, movies);
      Normal(ListEnvelope(current))
  }

  /* ---------------- getById and delete ---------------- */

  /** The record's `id` is the number `id` (`None`, for `NaN`, is carried by nothing). */
  predicate CarriesId(m: Value, id: Option<int>) {
    m.Obj? && IsNumber(Field(m.fields, "id"), id)
  }

  /** `kept` is `movies` without the records carrying `id`, in order. */
  ghost predicate WithoutId(kept: seq<Value>, movies: seq<Value>, id: Option<int>) {
    && IsSubsequence(kept, movies)
    && (forall m :: m in kept ==> !CarriesId(m, id))
    && (forall i :: 0 <= i < |movies| && !CarriesId(movies[i], id) ==> movies[i] in kept)
    && (forall x :: multiset(kept)[x] == if CarriesId(x, id) then 0 else multiset(movies)[x])
  }

  /** `m.id === parseInt(id)`. */
  function HasId(m: Value, id: Option<int>): (r: Completion<bool>)
    ensures r.Throw? <==> IsNullish(m)
    ensures r == Normal(true) <==> CarriesId(m, id)
  {
    var stored :- Prop(m, "id");
    Normal(IsNumber(stored, id))
  }

  function HasIdAs(id: Option<int>): Value -> Completion<bool> {
    m => HasId(m, id)
  }

  /** `m.id !== parseInt(id)`. */
  function LacksIdAs(id: Option<int>): Value -> Completion<bool> {
    m => var has :- HasId(m, id); Normal(!has)
  }

  const EmptyIdEnvelope := Envelope(false, 400, MessageObject(EmptyId))

  const NotFoundEnvelope := Envelope(false, 404, MessageObject(MovieNotFound))

  /** `MoviesModel.getById({ id })`. */
  function GetById(id: string, store: Store): (r: Completion<Envelope>)
    ensures id == "" ==> r == Normal(EmptyIdEnvelope)
    ensures id != "" && Load(store).Normal? && Load(store).value.Early? ==> r == Normal(Load(store).value.envelope)
    ensures id != "" ==>
              forall movies, i :: HasRecords(store, movies) && FirstAccepted(movies, HasIdAs(ParseInt(id)), i) ==>
                r == Normal(Envelope(true, 200, movies[i]))
    ensures id != "" ==> forall movies :: HasRecords(store, movies) ==>
      (r == Normal(NotFoundEnvelope) <==> forall i :: 0 <= i < |movies| ==> HasId(movies[i], ParseInt(id)) == Normal(false))
    ensures id != "" && Load(store).Throw? ==> r.Throw?
    ensures id != "" ==> forall movies :: HasRecords(store, movies) ==>
      (r.Throw? <==> ArrayFind(movies, HasIdAs(ParseInt(id))).Throw?)
  {
    if id == "" then Normal(EmptyIdEnvelope)
    else
      var loaded :- Load(store);
      match loaded
      case Early(envelope) => Normal(envelope)
      case Records(movies) =>
        var movie :- ArrayFind(movies, HasIdAs(ParseInt(id)));
        if movie.None? then Normal(NotFoundEnvelope) else Normal(Envelope(true, 200, movie.value))
  }

  /** Ids are compared as numbers: `"01"` and `"1"` find the same record. */
  lemma LeadingZeroFound()
    ensures ParseInt("01") == ParseInt("1") == Some(1)
  {
    assert IsDigitString("01") && IsDigitString("1");
    assert "01"[..1] == "0" && "0"[..0] == "" && "1"[..0] == "";
    ParseIntDigits("01");
    ParseIntDigits("1");
  }

  /** The `data` of a successful delete. */
  function DeletedData(deleted: Value): Value {
    Obj(map["message" := MovieDeleted, "deletedMovie" := deleted])
  }

  /** `MoviesModel.delete({ id })`. */
  function Delete(id: string, store: Store): (r: Stored)
    ensures id == "" ==> r == Stored(Normal(EmptyIdEnvelope), None)
    ensures Load(store).Throw? ==> r.written.None?
    ensures id != "" && Load(store).Throw? ==> r.response.Throw?
    ensures forall movies :: HasRecords(store, movies) && id != "" && ArrayFind(movies, HasIdAs(ParseInt(id))).Throw? ==>
      r.response.Throw? && r.written.None?
    ensures forall movies :: HasRecords(store, movies) && id != "" ==>
      var found := ArrayFind(movies, HasIdAs(ParseInt(id)));
      (r.response.Throw? <==> found.Throw? || (found.Normal? && found.value.Some? && !NoNullish(movies)))
    ensures id != "" && Load(store).Normal? && Load(store).value.Early? ==> r == Stored(Normal(Load(store).value.envelope), None)
    ensures forall movies :: HasRecords(store, movies) && id != "" ==>
      (r.written.Some? <==> NoNullish(movies) && exists i :: FirstAccepted(movies, HasIdAs(ParseInt(id)), i))
    ensures forall movies :: HasRecords(store, movies) && id != "" ==>
      (r.response == Normal(NotFoundEnvelope) <==>
         forall i :: 0 <= i < |movies| ==> HasId(movies[i], ParseInt(id)) == Normal(false))
    ensures forall movies :: HasRecords(store, movies) && id != "" && NoNullish(movies) && r.written.Some? ==>
      var outcome := store.write(Arr(Remaining(movies, id)));
      && r.written == Some(Arr(Remaining(movies, id)))
      && r.response.Normal? && r.response.value.success == outcome.success
      && (!outcome.success ==> r.response.value == Envelope(false, 500, outcome.message))
      && (outcome.success ==>
            exists i :: FirstAccepted(movies, HasIdAs(ParseInt(id)), i)
                          && r.response.value == Envelope(true, 200, DeletedData(movies[i])))
  {
    if id == "" then Stored(Normal(EmptyIdEnvelope), None)
    else
      match Load(store)
      case Throw => Stored(Throw, None)
      case Normal(Early(envelope)) => Stored(Normal(envelope), None)
      case Normal(Records(movies)) =>
        var p := ParseInt(id);
        match ArrayFind(movies, HasIdAs(p))
        case Throw => Stored(Throw, None)
        case Normal(None) => Stored(Normal(NotFoundEnvelope), None)
        case Normal(Some(existing)) =>
          match Removed(movies, p)
          case Throw => Stored(Throw, None)
          case Normal(newMovies) =>
            var outcome := store.write(Arr(newMovies));
            if !outcome.success then Stored(Normal(Envelope(false, 500, outcome.message)), Some(Arr(newMovies)))
            else Stored(Normal(Envelope(true, 200, DeletedData(existing))), Some(Arr(newMovies)))
  }

  /** No stored record is `null` or `undefined`, so reading `.id` never throws. */
  predicate NoNullish(movies: seq<Value>) {
    forall i :: 0 <= i < |movies| ==> !IsNullish(movies[i])
  }

  /** The filter keeping every record other than those with the id throws exactly on a nullish record. */
  lemma KeptFilterDefined(movies: seq<Value>, p: Option<int>)
    ensures ArrayFilter(movies, LacksIdAs(p)).Normal? <==> NoNullish(movies)
  {
    assert forall m :: LacksIdAs(p)(m).Normal? <==> !IsNullish(m);
  }

  /** The callback `m => m.id !== parseInt(id)` accepts the defined records without that id. */
  lemma KeepsOthers(p: Option<int>)
    ensures forall m :: LacksIdAs(p)(m) == Normal(true) <==> !IsNullish(m) && !CarriesId(m, p)
  {
  }

  /** `movies.filter(m => m.id !== parseInt(id))`: it throws on a nullish record, and otherwise removes exactly the records with the id. */
  function Removed(movies: seq<Value>, id: Option<int>): (r: Completion<seq<Value>>)
    ensures r.Normal? <==> NoNullish(movies)
    ensures r.Normal? ==> WithoutId(r.value, movies, id)
  {
    KeptFilterDefined(movies, id);
    KeepsOthers(id);
    RemovalCounts(movies, id);
    ArrayFilter(movies, LacksIdAs(id))
  }

  /** Over records none of which is nullish, the removal filter keeps every copy of a record without the id. */
  lemma RemovalCounts(movies: seq<Value>, id: Option<int>)
    ensures ArrayFilter(movies, LacksIdAs(id)).Normal? ==>
              forall x :: multiset(ArrayFilter(movies, LacksIdAs(id)).value)[x] ==
                          if CarriesId(x, id) then 0 else multiset(movies)[x]
  {
    ArrayFilterCounts(movies, LacksIdAs(id));
    KeptFilterDefined(movies, id);
    KeepsOthers(id);
    if ArrayFilter(movies, LacksIdAs(id)).Normal? {
      forall x | IsNullish(x) ensures multiset(movies)[x] == 0 {
        assert x !in movies;
      }
    }
  }

  /** Removing the id from a list of just the record that carries it leaves nothing. */
  lemma RemovedSole(m: Value, id: Option<int>)
    requires CarriesId(m, id)
    ensures Removed([m], id) == Normal([])
  {
    var kept := Removed([m], id);
    assert kept.Normal?;
    assert multiset(kept.value)[m] == 0;
  }

  /** What `delete` writes back: the records without the number `parseInt(id)` as their id. */
  function Remaining(movies: seq<Value>, id: string): (r: seq<Value>)
    requires NoNullish(movies)
    ensures WithoutId(r, movies, ParseInt(id))
  {
    Removed(movies, ParseInt(id)).value
  }

  /* ---------------- create ---------------- */

  /**
   * `MoviesModel.create({ input })` as written: it destructures `newmovies`,
   * a key `addMovie`'s result does not have, so `writeJSON` is handed
   * `undefined`.
   */
  function Create(input: Value, store: Store): (r: Stored)
    ensures Load(store).Throw? ==> r == Stored(Throw, None)
    ensures r.written.Some? ==> r.written == Some(Undefined)
    ensures r.written.Some? <==> Load(store).Normal? && Load(store).value.Records?
    ensures Load(store).Normal? && Load(store).value.Early? ==> r == Stored(Normal(Load(store).value.envelope), None)
    ensures forall movies :: HasRecords(store, movies) ==>
      r.response == Normal(if store.write(Undefined).success
                           then Envelope(true, 201, AddMovie(movies, input).newMovie)
                           else Envelope(false, 500, store.write(Undefined).message))
  {
    match Load(store)
    case Throw => Stored(Throw, None)
    case Normal(Early(envelope)) => Stored(Normal(envelope), None)
    case Normal(Records(movies)) =>
      var added := AddMovie(movies, input);
      var outcome := store.write(Undefined);
      if !outcome.success then Stored(Normal(Envelope(false, 500, outcome.message)), Some(Undefined))
      else Stored(Normal(Envelope(true, 201, added.newMovie)), Some(Undefined))
  }

  /**
   * `writeJSON(undefined)` fails (`JSON.stringify(undefined)` is not text
   * the file can hold), so with stored movies every create answers 500 and
   * nothing is added.
   */
  lemma CreateNeverAdds(input: Value, store: Store, movies: seq<Value>)
    requires HasRecords(store, movies) && !store.write(Undefined).success
    ensures Create(input, store).response == Normal(Envelope(false, 500, store.write(Undefined).message))
    ensures Create(input, store).written == Some(Undefined)
  {
  }

  /** `create` writing the extended list it computed. */
  function CreateIntended(input: Value, store: Store): (r: Stored)
    ensures Load(store).Throw? ==> r == Stored(Throw, None)
    ensures r.written.Some? <==> Load(store).Normal? && Load(store).value.Records?
    ensures Load(store).Normal? && Load(store).value.Early? ==> r == Stored(Normal(Load(store).value.envelope), None)
    ensures forall movies :: HasRecords(store, movies) ==>
      var added := AddMovie(movies, input);
      && r.written == Some(Arr(movies + [added.newMovie]))
      && (store.write(Arr(added.newMovies)).success ==> r.response == Normal(Envelope(true, 201, added.newMovie)))
      && (!store.write(Arr(added.newMovies)).success ==>
            r.response == Normal(Envelope(false, 500, store.write(Arr(added.newMovies)).message)))
  {
    match Load(store)
    case Throw => Stored(Throw, None)
    case Normal(Early(envelope)) => Stored(Normal(envelope), None)
    case Normal(Records(movies)) =>
      var added := AddMovie(movies, input);
      var outcome := store.write(Arr(added.newMovies));
      if !outcome.success then Stored(Normal(Envelope(false, 500, outcome.message)), Some(Arr(added.newMovies)))
      else Stored(Normal(Envelope(true, 201, added.newMovie)), Some(Arr(added.newMovies)))
  }

  /** The record the intended create stores gets an id no stored record has. */
  lemma CreatedIdIsFresh(input: Value, store: Store, movies: seq<Value>)
    requires HasRecords(store, movies) && "id" !in Spread(input)
    ensures var added := AddMovie(movies, input);
      CreateIntended(input, store).written == Some(Arr(movies + [added.newMovie]))
      && forall i :: 0 <= i < |movies| ==> FiniteId(movies[i]) != FiniteId(added.newMovie)
  {
    var added := AddMovie(movies, input);
    NextIdIsFresh(movies);
    assert OptionalProp(added.newMovie, "id") == Num(NextId(movies));
  }
}

=== FILE: movies_routes.dfy ===
/**
 * `routes/movies.mjs` and `app.mjs`: the dispatcher of the live path. GET
 * requests are matched on the pathname of the parsed URL, with the query
 * collected into `req.query`; POST requests on the raw URL. The id
 * segment is cut from the raw URL, so it includes any query string.
 */
module MoviesRoutes {
  import opened Completions
  import opened JsValue
  import opened Responses
  import opened Storage
  import opened JsText
  import opened PathIds
  import MoviesController

  /** What `new URL(url, base)` yields: the pathname and the query pairs in order. */
  datatype ParsedUrl = ParsedUrl(pathname: string, search: seq<(string, string)>)

  datatype Request = Request(httpMethod: string, url: string, target: ParsedUrl)

  /** The handler a request is dispatched to. */
  datatype Route =
    | Welcome
    | ListMovies(query: map<string, Value>)
    | ShowMovie(id: Option<string>)
    | CreateMovie
    | PageNotFound
    | Unrouted

  /** `Object.fromEntries(searchParams)`: a repeated key keeps its last value. */
  function FromEntries(entries: seq<(string, string)>): (r: map<string, Value>)
    ensures forall k :: k in r <==> exists i :: 0 <= i < |entries| && entries[i].0 == k
    ensures forall k :: k in r ==> r[k].Str?
  {
    if |entries| == 0 then map[]
    else
      var last := entries[|entries| - 1];
      var r := FromEntries(entries[..|entries| - 1])[last.0 := Str(last.1)];
      assert forall i :: 0 <= i < |entries| - 1 ==> entries[..|entries| - 1][i] == entries[i];
      r
  }

  /** The value kept for a key is the one of its last occurrence. */
  lemma {:induction false} LastValueWins(entries: seq<(string, string)>, i: nat)
    requires i < |entries|
    requires forall j :: i < j < |entries| ==> entries[j].0 != entries[i].0
    ensures FromEntries(entries)[entries[i].0] == Str(entries[i].1)
    decreases |entries|
  {
    if i < |entries| - 1 {
      var front := entries[..|entries| - 1];
      assert front[i] == entries[i];
      assert forall j :: i < j < |front| ==> front[j] == entries[j];
      LastValueWins(front, i);
    }
  }

  /** `moviesRoutes(req, res)`. */
  function Dispatch(req: Request): (r: Route)
    ensures req.httpMethod == "GET" ==> r != Unrouted && r != CreateMovie
    ensures req.httpMethod == "GET" && req.target.pathname == "/" ==> r == Welcome
    ensures req.httpMethod == "GET" && req.target.pathname == "/movies" ==> r == ListMovies(FromEntries(req.target.search))
    ensures req.httpMethod == "GET" && r.ShowMovie? ==>
      r.id == IdSegment("movies", req.url) && req.target.pathname == TemplatePath("movies", r.id)
    ensures req.httpMethod == "GET" && req.target.pathname == req.url && r.ShowMovie? ==>
      r.id.Some? && req.url == Prefix("movies") + r.id.value
    ensures req.httpMethod == "GET" && req.target.pathname != "/" && req.target.pathname != "/movies" ==>
      r == if req.target.pathname == TemplatePath("movies", IdSegment("movies", req.url))
           then ShowMovie(IdSegment("movies", req.url)) else PageNotFound
    ensures req.httpMethod == "POST" ==> (r == CreateMovie <==> req.url == "/movies")
    ensures req.httpMethod != "GET" && r != CreateMovie ==> r == Unrouted
  {
    if req.httpMethod == "GET" then
      var idURL := IdSegment("movies", req.url);
      TemplateMatchesIdUrls("movies", req.url);
      assert req.url == TemplatePath("movies", idURL) ==> idURL.Some?;
      var pathname := req.target.pathname;
      if pathname == "/" then Welcome
      else if pathname == "/movies" then ListMovies(FromEntries(req.target.search))
      else if pathname == TemplatePath("movies", idURL) then
        ShowMovie(idURL)
      else PageNotFound
    else if req.httpMethod == "POST" && req.url == "/movies" then CreateMovie
    else Unrouted
  }

  /**
   * A pathname that normalises to `/movies/undefined` while the raw URL has
   * no id segment (such as `/movies/../movies/undefined`) reaches `getById`
   * with an absent id, which the id check rejects.
   */
  lemma NormalisedPathWithoutId(url: string, search: seq<(string, string)>, store: Store)
    requires IdSegment("movies", url).None?
    ensures var req := Request("GET", url, ParsedUrl("/movies/undefined", search));
      Dispatch(req) == ShowMovie(None) && App(req, store).reply == JsonReply(400, MoviesController.InvalidIdError)
  {
    assert Prefix("movies") + "undefined" == "/movies/undefined";
  }

  /** A plain `GET /movies/<x>` shows the movie `x`. */
  lemma ShowRoute(x: string, search: seq<(string, string)>)
    requires '/' !in x
    ensures Dispatch(Request("GET", "/movies/" + x, ParsedUrl("/movies/" + x, search))) == ShowMovie(Some(x))
  {
    assert Prefix("movies") == "/movies/";
    IdSegmentOf("movies", x);
  }

  /**
   * With a query string the id segment keeps the query while the pathname
   * drops it, so `GET /movies/5?x=1` is not found.
   */
  lemma QueryOnIdIsNotFound()
    ensures Dispatch(Request("GET", "/movies/5?x=1", ParsedUrl("/movies/5", [("x", "1")]))) == PageNotFound
  {
    var url := "/movies/5?x=1";
    assert Prefix("movies") == "/movies/";
    assert url == Prefix("movies") + "5?x=1";
    IdSegmentOf("movies", "5?x=1");
    assert "/movies/5" != TemplatePath("movies", Some("5?x=1")) by {
      assert |"/movies/5"| != |TemplatePath("movies", Some("5?x=1"))|;
    }
  }

  /** The query reaches the listing with its last value per key. */
  lemma ListingQuery()
    ensures Dispatch(Request("GET", "/movies?genre=a&genre=b", ParsedUrl("/movies", [("genre", "a"), ("genre", "b")])))
      == ListMovies(map["genre" := Str("b")])
  {
    var e := [("genre", "a"), ("genre", "b")];
    LastValueWins(e, 1);
    assert FromEntries(e).Keys == {"genre"};
  }

  /** Running the chosen handler. `body` is `req.body`, which nothing in `app.mjs` sets. */
  function Handle(route: Route, body: Value, store: Store): (r: Handled)
    ensures route != CreateMovie ==> r.written.None?
    ensures route == Welcome ==> r.reply == MoviesController.WelcomeReply
    ensures route == PageNotFound ==> r.reply == Reply(404, Html, NotFoundPage)
    ensures route == Unrouted ==> r == Handled(NoReply, None)
    ensures route.ListMovies? ==> r.reply == MoviesController.GetAll(route.query, store)
    ensures route.ShowMovie? ==> r.reply == MoviesController.GetById(route.id, store)
    ensures route == CreateMovie ==> r == MoviesController.Create(body, store)
  {
    match route
    case Welcome => Handled(MoviesController.WelcomeReply, None)
    case ListMovies(query) => Handled(MoviesController.GetAll(query, store), None)
    case ShowMovie(id) => Handled(MoviesController.GetById(id, store), None)
    case CreateMovie => MoviesController.Create(body, store)
    case PageNotFound => Handled(Reply(404, Html, NotFoundPage), None)
    case Unrouted => Handled(NoReply, None)
  }

  /** `app.mjs`: every request goes straight to the router, with no middleware. */
  function App(req: Request, store: Store): (r: Handled)
    ensures r == Handle(Dispatch(req), Undefined, store)
    ensures r.written.Some? ==> req.httpMethod == "POST" && req.url == "/movies"
  {
    Handle(Dispatch(req), Undefined, store)
  }

  /** DELETE is implemented in the controller but never routed. */
  lemma DeleteUnrouted(url: string, target: ParsedUrl, store: Store)
    ensures App(Request("DELETE", url, target), store) == Handled(NoReply, None)
  {
  }
}

=== FILE: movies_service.dfy ===
/**
 * `services/movies.mjs`, the newer service layer. It is written against a
 * repository that returns plain values (the list of movies, one movie or
 * nothing, the next id, the outcome of saving a list), which is taken
 * here as given. Every operation catches what it throws and answers 500.
 */
module MoviesService {
  import opened Completions
  import opened JsText
  import opened JsValue
  import opened JsArray
  import opened Responses
  import opened MovieRecords
  import opened MovieBusinessLogic
  import opened AddMovieHelper
  import MoviesModel

  /**
   * The repository as the service calls it: `getAll()`, `getById(id)`,
   * `getNextId()` and `saveAll(list)` (`Normal(b)`: a result whose
   * `success` is truthy exactly when `b`). `Throw` is a rejected promise.
   */
  datatype Repository = Repository(
    load: Completion<seq<Value>>,
    lookup: Value -> Completion<Value>,
    nextId: Completion<Value>,
    save: seq<Value> -> Completion<bool>)

  /** An operation's envelope and the list it handed to `saveAll`, if any. */
  datatype Saved = Saved(response: Envelope, saved: Option<seq<Value>>)

  /** What the `try` block decides before saving: answer now, or save a list and answer on success. */
  datatype Plan = Respond(envelope: Envelope) | Persist(collection: seq<Value>, onSuccess: Envelope)

  const CaughtEnvelope := CreateErrorResponse(500, ServerFault)

  const SaveFailedEnvelope := CreateErrorResponse(500, SaveFault)

  /** Saving a planned list and the `catch` around the whole operation. */
  function Commit(plan: Completion<Plan>, repo: Repository): (r: Saved)
    ensures plan.Throw? ==> r == Saved(CaughtEnvelope, None)
    ensures plan.Normal? && plan.value.Respond? ==> r == Saved(plan.value.envelope, None)
    ensures plan.Normal? && plan.value.Persist? ==>
      && r.saved == Some(plan.value.collection)
      && r.response == match repo.save(plan.value.collection)
        case Throw => CaughtEnvelope
        case Normal(ok) => if ok then plan.value.onSuccess else SaveFailedEnvelope
  {
    match plan
    case Throw => Saved(CaughtEnvelope, None)
    case Normal(Respond(envelope)) => Saved(envelope, None)
    case Normal(Persist(collection, onSuccess)) =>
      match repo.save(collection)
      case Throw => Saved(CaughtEnvelope, Some(collection))
      case Normal(ok) => Saved(if ok then onSuccess else SaveFailedEnvelope, Some(collection))
  }

  /** A committed operation answers 409 exactly when it planned to, as long as a successful save answers something else. */
  lemma CommitDuplicate(plan: Completion<Plan>, repo: Repository)
    ensures (plan.Normal? && plan.value.Persist? ==> plan.value.onSuccess.statusCode != 409) ==>
      (Commit(plan, repo).response == DuplicateEnvelope <==> plan == Normal(Respond(DuplicateEnvelope)))
  {
  }

  /** A committed operation answers with a code its plan names, or 500 from the `catch` or a failed save. */
  lemma CommitStatus(plan: Completion<Plan>, repo: Repository, codes: set<int>)
    requires plan.Normal? && plan.value.Respond? ==> plan.value.envelope.statusCode in codes
    requires plan.Normal? && plan.value.Persist? ==> plan.value.onSuccess.statusCode in codes
    ensures Commit(plan, repo).response.statusCode in codes + {500}
  {
  }

  /**
   * When no planned answer is a 500, a committed operation gives the
   * `catch`'s 500 exactly when a step of its `try` block threw: the plan
   * itself, or `saveAll` on the planned list.
   */
  lemma CommitCatches(plan: Completion<Plan>, repo: Repository)
    requires plan.Normal? && plan.value.Respond? ==> plan.value.envelope.statusCode != 500
    requires plan.Normal? && plan.value.Persist? ==> plan.value.onSuccess.statusCode != 500
    ensures Commit(plan, repo).response == CaughtEnvelope <==>
      plan.Throw? || (plan.value.Persist? && repo.save(plan.value.collection).Throw?)
  {
    assert ServerFault.s[0] != SaveFault.s[0];
    assert CaughtEnvelope.payload.fields["message"] != SaveFailedEnvelope.payload.fields["message"];
  }

  const NoMoviesEnvelope := CreateErrorResponse(404, NoMoviesAvailable)

  const NotFoundEnvelope := CreateErrorResponse(404, MovieNotFound)

  const DuplicateEnvelope := CreateErrorResponse(409, DuplicateTitle)

  /* ---------------- getAll and getById ---------------- */

  /** `MoviesService.getAll(filters)`. */
  function GetAll(filters: map<string, Value>, repo: Repository): (r: Envelope)
    ensures repo.load.Throw? ==> r == CaughtEnvelope
    ensures repo.load == Normal([]) ==> r == NoMoviesEnvelope
    ensures repo.load.Normal? && |repo.load.value| > 0 && |filters| == 0 ==>
      r == CreateSuccessResponse(200, Arr(repo.load.value))
    ensures r.success ==>
              && repo.load.Normal? && r.statusCode == 200 && r.payload.Arr?
              && IsSubsequence(r.payload.items, repo.load.value) && |r.payload.items| > 0
              && forall m :: m in r.payload.items ==> Satisfies(m, filters)
    ensures repo.load.Normal? && |filters| > 0 && FilterMovies(repo.load.value, filters).Normal? && r.success ==>
      r.payload == Arr(FilterMovies(repo.load.value, filters).value)
    ensures repo.load.Normal? && |repo.load.value| > 0 && |filters| > 0 ==>
      r == match FilterMovies(repo.load.value, filters)
        case Throw => CaughtEnvelope
        case Normal(kept) =>
          if |kept| == 0 then CreateErrorResponse(404, NoMatchingMovies) else CreateSuccessResponse(200, Arr(kept))
    ensures r.statusCode in {200, 404, 500}
  {
    match repo.load
    case Throw => CaughtEnvelope
    case Normal(movies) =>
      if IsMoviesArrayEmpty(Arr(movies)) then NoMoviesEnvelope
      else if |filters| > 0 then
        match FilterMovies(movies, filters)
        case Throw => CaughtEnvelope
        case Normal(kept) =>
          if |kept| == 0 then CreateErrorResponse(404, NoMatchingMovies)
          else CreateSuccessResponse(200, Arr(kept))
      else
        assert forall m :: m in movies ==> Satisfies(m, filters) by {
          assert Field(filters, "genre") == Undefined && Field(filters, "year") == Undefined;
          assert Field(filters, "title") == Undefined;
        }
        SubsequenceOfSelf(movies);
        CreateSuccessResponse(200, Arr(movies))
  }

  /** `MoviesService.getById(id)`. */
  function GetById(id: Value, repo: Repository): (r: Envelope)
    ensures repo.lookup(id).Throw? ==> r == CaughtEnvelope
    ensures repo.lookup(id).Normal? ==>
      r == if Truthy(repo.lookup(id).value) then CreateSuccessResponse(200, repo.lookup(id).value) else NotFoundEnvelope
    ensures r.success ==> Truthy(r.payload)
  {
    match repo.lookup(id)
    case Throw => CaughtEnvelope
    case Normal(movie) => if !Truthy(movie) then NotFoundEnvelope else CreateSuccessResponse(200, movie)
  }

  /* ---------------- create ---------------- */

  /** `{ ...movieData, id: nextId }`. */
  function WithId(movieData: Value, nextId: Value): (r: Value)
    ensures r.Obj? && r.fields.Keys == Spread(movieData).Keys + {"id"}
    ensures r.fields["id"] == nextId
    ensures forall k :: k in Spread(movieData) && k != "id" ==> r.fields[k] == Spread(movieData)[k]
  {
    Obj(Spread(movieData)["id" := nextId])
  }

  function CreatePlan(movieData: Value, repo: Repository): Completion<Plan> {
    var existing :- repo.load;
    var title :- Prop(movieData, "title");
    var duplicate :- IsDuplicateTitle(title, existing);
    if duplicate then Normal(Respond(DuplicateEnvelope))
    else
      var nextId :- repo.nextId;
      var added := AddMovie(existing, WithId(movieData, nextId));
      Normal(Persist(added.newMovies, CreateSuccessResponse(201, added.newMovie)))
  }

  /** What `create` decides before saving. */
  lemma CreatePlanShape(movieData: Value, repo: Repository)
    ensures CreatePlan(movieData, repo).Normal? && CreatePlan(movieData, repo).value.Persist? ==>
      var plan := CreatePlan(movieData, repo).value;
      && repo.load.Normal? && repo.nextId.Normal? && !IsNullish(movieData)
      && IsDuplicateTitle(OptionalProp(movieData, "title"), repo.load.value) == Normal(false)
      && plan.collection == repo.load.value + [WithId(movieData, repo.nextId.value)]
      && plan.onSuccess == CreateSuccessResponse(201, WithId(movieData, repo.nextId.value))
    ensures CreatePlan(movieData, repo) == Normal(Respond(DuplicateEnvelope)) <==>
      repo.load.Normal? && !IsNullish(movieData)
      && IsDuplicateTitle(OptionalProp(movieData, "title"), repo.load.value) == Normal(true)
    ensures CreatePlan(movieData, repo).Normal? && CreatePlan(movieData, repo).value.Respond? ==>
      CreatePlan(movieData, repo).value.envelope == DuplicateEnvelope
    ensures repo.load.Throw? || (repo.load.Normal? && IsNullish(movieData)) ==> CreatePlan(movieData, repo) == Throw
    ensures (repo.load.Normal? && !IsNullish(movieData) && repo.nextId.Normal?
             && IsDuplicateTitle(OptionalProp(movieData, "title"), repo.load.value) == Normal(false)) ==>
      CreatePlan(movieData, repo) == Normal(Persist(repo.load.value + [WithId(movieData, repo.nextId.value)],
                                                    CreateSuccessResponse(201, WithId(movieData, repo.nextId.value))))
  {
    if repo.load.Normal? && repo.nextId.Normal? {
      var existing := repo.load.value;
      var withId := WithId(movieData, repo.nextId.value);
      var added := AddMovie(existing, withId);
      assert Obj(WithLeadingId(Num(NextId(existing)), withId)) == withId by {
        assert WithLeadingId(Num(NextId(existing)), withId) == withId.fields;
      }
      assert added.newMovies == existing + [withId];
    }
  }

  /** `MoviesService.create(movieData)`. */
  function Create(movieData: Value, repo: Repository): (r: Saved)
    ensures r.saved.Some? && repo.save(r.saved.value) == Normal(false) ==> r.response == SaveFailedEnvelope
    ensures r.saved.Some? ==>
      && repo.load.Normal? && repo.nextId.Normal? && !IsNullish(movieData)
      && IsDuplicateTitle(OptionalProp(movieData, "title"), repo.load.value) == Normal(false)
      && r.saved.value == repo.load.value + [WithId(movieData, repo.nextId.value)]
    ensures r.response.success ==>
      && r.saved.Some? && repo.save(r.saved.value) == Normal(true)
      && r.response == CreateSuccessResponse(201, WithId(movieData, repo.nextId.value))
    ensures r.response == DuplicateEnvelope <==>
      repo.load.Normal? && !IsNullish(movieData)
      && IsDuplicateTitle(OptionalProp(movieData, "title"), repo.load.value) == Normal(true)
    ensures r.response == DuplicateEnvelope ==> r.saved.None?
    ensures (repo.load.Normal? && !IsNullish(movieData) && repo.nextId.Normal?
             && IsDuplicateTitle(OptionalProp(movieData, "title"), repo.load.value) == Normal(false)) ==>
      && r.saved == Some(repo.load.value + [WithId(movieData, repo.nextId.value)])
      && (repo.save(r.saved.value) == Normal(true) ==> r.response == CreateSuccessResponse(201, WithId(movieData, repo.nextId.value)))
    ensures repo.load.Throw? || (repo.load.Normal? && IsNullish(movieData)) ==> r == Saved(CaughtEnvelope, None)
    ensures r.response.statusCode in {201, 409, 500}
  {
    CreatePlanShape(movieData, repo);
    CommitStatus(CreatePlan(movieData, repo), repo, {201, 409});
    Commit(CreatePlan(movieData, repo), repo)
  }

  /**
   * A step of `create`'s `try` block before `saveAll` throws: `getAll`,
   * reading `movieData.title`, the title check, or `getNextId` once the
   * title is new.
   */
  predicate CreateThrows(movieData: Value, repo: Repository) {
    || repo.load.Throw?
    || (repo.load.Normal? &&
         (|| IsNullish(movieData)
          || IsDuplicateTitle(OptionalProp(movieData, "title"), repo.load.value).Throw?
          || (IsDuplicateTitle(OptionalProp(movieData, "title"), repo.load.value) == Normal(false) && repo.nextId.Throw?)))
  }

  /** `create`'s plan throws exactly when one of its steps does. */
  lemma CreatePlanThrows(movieData: Value, repo: Repository)
    ensures CreatePlan(movieData, repo) == Throw <==> CreateThrows(movieData, repo)
  {
    if repo.load.Normal? && !IsNullish(movieData) {
      assert Prop(movieData, "title") == Normal(OptionalProp(movieData, "title"));
    }
  }

  /**
   * `create` answers the `catch`'s 500 exactly when a step throws or
   * `saveAll` rejects; a step that throws before the save saves nothing.
   */
  lemma CreateCaught(movieData: Value, repo: Repository)
    ensures CreateThrows(movieData, repo) ==> Create(movieData, repo) == Saved(CaughtEnvelope, None)
    ensures var r := Create(movieData, repo);
      r.response == CaughtEnvelope <==> CreateThrows(movieData, repo) || (r.saved.Some? && repo.save(r.saved.value).Throw?)
  {
    var plan := CreatePlan(movieData, repo);
    assert Create(movieData, repo) == Commit(plan, repo);
    CreatePlanShape(movieData, repo);
    CreatePlanThrows(movieData, repo);
    CommitCatches(plan, repo);
  }

  /** No two records share a title key. */
  predicate UniqueTitles(movies: seq<Value>) {
    && (forall i :: 0 <= i < |movies| ==> HasStringField(movies[i], "title"))
    && forall i, j :: 0 <= i < j < |movies| ==>
         TitleKey(StringField(movies[i], "title")) != TitleKey(StringField(movies[j], "title"))
  }

  /**
   * Creating keeps titles unique: a list without repeated titles stays so
   * after a save, for a body whose title is a string (what `validateBody`
   * guarantees on the route).
   */
  lemma CreateKeepsTitlesUnique(movieData: Value, repo: Repository)
    requires repo.load.Normal? && UniqueTitles(repo.load.value)
    requires OptionalProp(movieData, "title").Str?
    requires Create(movieData, repo).saved.Some?
    ensures UniqueTitles(Create(movieData, repo).saved.value)
  {
    var added := WithId(movieData, repo.nextId.value);
    assert Field(added.fields, "title") == OptionalProp(movieData, "title");
    UniqueAppend(repo.load.value, added);
  }

  /** Appending a record whose title matches none keeps titles unique. */
  lemma UniqueAppend(existing: seq<Value>, added: Value)
    requires UniqueTitles(existing) && HasStringField(added, "title")
    requires IsDuplicateTitle(Field(added.fields, "title"), existing) == Normal(false)
    ensures UniqueTitles(existing + [added])
  {
    var saved := existing + [added];
    forall i, j | 0 <= i < j < |saved|
      ensures TitleKey(StringField(saved[i], "title")) != TitleKey(StringField(saved[j], "title"))
    {
      assert saved[i] == existing[i];
      if j == |existing| {
        assert saved[j] == added;
      } else {
        assert saved[j] == existing[j];
      }
    }
  }

  /* ---------------- delete ---------------- */

  /** `deleteMovie` and `update` get past their two 404 answers: the list is non-empty and `getById` finds a record. */
  predicate FindsRecord(id: Value, repo: Repository) {
    repo.load.Normal? && |repo.load.value| > 0 && repo.lookup(id).Normal? && Truthy(repo.lookup(id).value)
  }

  function DeletePlan(id: Value, repo: Repository): Completion<Plan> {
    var movies :- repo.load;
    if IsMoviesArrayEmpty(Arr(movies)) then Normal(Respond(NoMoviesEnvelope))
    else
      var target :- repo.lookup(id);
      if !Truthy(target) then Normal(Respond(NotFoundEnvelope))
      else
        var kept :- MoviesModel.Removed(movies, ParseIntOf(id));
        Normal(Persist(kept, CreateSuccessResponse(200, MoviesModel.DeletedData(target))))
  }

  /** What `deleteMovie` decides before saving. */
  lemma DeletePlanShape(id: Value, repo: Repository)
    ensures DeletePlan(id, repo).Normal? && DeletePlan(id, repo).value.Persist? ==>
      var plan := DeletePlan(id, repo).value;
      && repo.load.Normal? && |repo.load.value| > 0
      && repo.lookup(id).Normal? && Truthy(repo.lookup(id).value)
      && MoviesModel.WithoutId(plan.collection, repo.load.value, ParseIntOf(id))
      && plan.onSuccess == CreateSuccessResponse(200, MoviesModel.DeletedData(repo.lookup(id).value))
    ensures DeletePlan(id, repo).Normal? && DeletePlan(id, repo).value.Respond? ==>
      !DeletePlan(id, repo).value.envelope.success
    ensures repo.load == Normal([]) ==> DeletePlan(id, repo) == Normal(Respond(NoMoviesEnvelope))
    ensures repo.load.Normal? && |repo.load.value| > 0 && repo.lookup(id).Normal? && !Truthy(repo.lookup(id).value) ==>
      DeletePlan(id, repo) == Normal(Respond(NotFoundEnvelope))
  {
  }

  /** `deleteMovie` throws when loading or looking up throws, and its own answers are 404s and a 200. */
  lemma DeletePlanCatches(id: Value, repo: Repository)
    ensures repo.load.Throw? ==> DeletePlan(id, repo) == Throw
    ensures repo.load.Normal? && |repo.load.value| > 0 && repo.lookup(id).Throw? ==> DeletePlan(id, repo) == Throw
    ensures DeletePlan(id, repo).Normal? && DeletePlan(id, repo).value.Respond? ==>
      DeletePlan(id, repo).value.envelope.statusCode == 404
    ensures DeletePlan(id, repo).Normal? && DeletePlan(id, repo).value.Persist? ==>
      DeletePlan(id, repo).value.onSuccess.statusCode == 200
  {
  }

  /** Once a record is found, `deleteMovie` saves the filtered list unless the filter throws on a nullish record. */
  lemma DeletePlanProceeds(id: Value, repo: Repository)
    ensures FindsRecord(id, repo) && MoviesModel.NoNullish(repo.load.value) ==>
      DeletePlan(id, repo).Normal? && DeletePlan(id, repo).value.Persist?
    ensures FindsRecord(id, repo) && !MoviesModel.NoNullish(repo.load.value) ==> DeletePlan(id, repo) == Throw
  {
    if FindsRecord(id, repo) {
      var kept := MoviesModel.Removed(repo.load.value, ParseIntOf(id));
      assert !IsMoviesArrayEmpty(Arr(repo.load.value));
      assert kept.Normal? <==> MoviesModel.NoNullish(repo.load.value);
    }
  }

  /** `MoviesService.deleteMovie(id)`. */
  function DeleteMovie(id: Value, repo: Repository): (r: Saved)
    ensures repo.load.Normal? && |repo.load.value| > 0 && repo.lookup(id).Normal? && !Truthy(repo.lookup(id).value) ==>
              r == Saved(NotFoundEnvelope, None)
    ensures r.saved.Some? && repo.save(r.saved.value) == Normal(false) ==> r.response == SaveFailedEnvelope
    ensures repo.load == Normal([]) ==> r == Saved(NoMoviesEnvelope, None)
    ensures r.saved.Some? ==>
      && repo.load.Normal? && |repo.load.value| > 0
      && repo.lookup(id).Normal? && Truthy(repo.lookup(id).value)
      && MoviesModel.WithoutId(r.saved.value, repo.load.value, ParseIntOf(id))
    ensures r.response.success ==>
      && r.saved.Some? && repo.save(r.saved.value) == Normal(true)
      && r.response == CreateSuccessResponse(200, MoviesModel.DeletedData(repo.lookup(id).value))
  {
    DeletePlanShape(id, repo);
    Commit(DeletePlan(id, repo), repo)
  }

  /**
   * Once the record is found, `deleteMovie` saves the filtered list and answers
   * 200 on a successful save; a nullish record makes the filter throw, which
   * the `catch` answers with 500.
   */
  lemma DeleteMovieSaves(id: Value, repo: Repository)
    ensures FindsRecord(id, repo) && MoviesModel.NoNullish(repo.load.value) ==>
      var r := DeleteMovie(id, repo);
      && r.saved.Some?
      && (repo.save(r.saved.value) == Normal(true) ==>
            r.response == CreateSuccessResponse(200, MoviesModel.DeletedData(repo.lookup(id).value)))
    ensures FindsRecord(id, repo) && !MoviesModel.NoNullish(repo.load.value) ==> DeleteMovie(id, repo) == Saved(CaughtEnvelope, None)
  {
    DeletePlanProceeds(id, repo);
  }

  /**
   * When loading or looking up throws, `deleteMovie`'s `catch` answers 500;
   * every answer is a 200, a 404 or a 500.
   */
  lemma DeleteMovieCatches(id: Value, repo: Repository)
    ensures repo.load.Throw? ==> DeleteMovie(id, repo) == Saved(CaughtEnvelope, None)
    ensures repo.load.Normal? && |repo.load.value| > 0 && repo.lookup(id).Throw? ==> DeleteMovie(id, repo) == Saved(CaughtEnvelope, None)
    ensures DeleteMovie(id, repo).response.statusCode in {200, 404, 500}
  {
    var plan := DeletePlan(id, repo);
    assert DeleteMovie(id, repo) == Commit(plan, repo);
    DeletePlanCatches(id, repo);
    CommitStatus(plan, repo, {200, 404});
  }

  /**
   * A step of `deleteMovie`'s `try` block before `saveAll` throws:
   * `getAll`, `getById` once the list is non-empty, or the filter on a
   * nullish record once the movie is found.
   */
  predicate DeleteThrows(id: Value, repo: Repository) {
    || repo.load.Throw?
    || (repo.load.Normal? && |repo.load.value| > 0 &&
         (|| repo.lookup(id).Throw?
          || (Truthy(repo.lookup(id).value) && !MoviesModel.NoNullish(repo.load.value))))
  }

  /** `deleteMovie`'s plan throws exactly when one of its steps does. */
  lemma DeletePlanThrows(id: Value, repo: Repository)
    ensures DeletePlan(id, repo) == Throw <==> DeleteThrows(id, repo)
  {
    DeletePlanProceeds(id, repo);
  }

  /**
   * `deleteMovie` answers the `catch`'s 500 exactly when a step throws or
   * `saveAll` rejects; a step that throws before the save saves nothing.
   */
  lemma DeleteMovieCaught(id: Value, repo: Repository)
    ensures DeleteThrows(id, repo) ==> DeleteMovie(id, repo) == Saved(CaughtEnvelope, None)
    ensures var r := DeleteMovie(id, repo);
      r.response == CaughtEnvelope <==> DeleteThrows(id, repo) || (r.saved.Some? && repo.save(r.saved.value).Throw?)
  {
    var plan := DeletePlan(id, repo);
    assert DeleteMovie(id, repo) == Commit(plan, repo);
    DeletePlanShape(id, repo);
    DeletePlanCatches(id, repo);
    DeletePlanThrows(id, repo);
    CommitCatches(plan, repo);
  }

  /* ---------------- update ---------------- */

  /** `saved` is `movies` with every record carrying `id` replaced by `updated`. */
  predicate ReplacedById(saved: seq<Value>, movies: seq<Value>, id: Value, updated: Value) {
    && |saved| == |movies|
    && forall i :: 0 <= i < |movies| ==>
         saved[i] == if MoviesModel.CarriesId(movies[i], ParseIntOf(id)) then updated else movies[i]
  }

  /** `m => m.id === parseInt(id) ? updatedMovie : m`. */
  function ReplaceIfId(p: Option<int>, updated: Value): Value -> Completion<Value> {
    m => var has :- MoviesModel.HasId(m, p); Normal(if has then updated else m)
  }

  /** The duplicate check of `update`: a truthy new title that is not `===` the stored one is checked against the whole list. */
  function TitleConflict(newTitle: Value, oldTitle: Value, movies: seq<Value>): (r: Completion<bool>)
    ensures !Truthy(newTitle) || StrictEquals(newTitle, oldTitle) ==> r == Normal(false)
    ensures Truthy(newTitle) && !StrictEquals(newTitle, oldTitle) ==> r == IsDuplicateTitle(newTitle, movies)
  {
    if Truthy(newTitle) && !StrictEquals(newTitle, oldTitle) then IsDuplicateTitle(newTitle, movies)
    else Normal(false)
  }

  /** The rest of `update` once the title check has run: merge, replace and plan the save. */
  function ApplyUpdate(id: Value, existing: Value, updateData: Value, movies: seq<Value>): (r: Completion<Plan>)
    ensures r.Normal? ==> r.value.Persist?
    ensures r.Normal? ==> var updated := Obj(Spread(existing) + Spread(updateData));
      && ReplacedById(r.value.collection, movies, id, updated)
      && r.value.onSuccess == CreateSuccessResponse(200, updated)
    ensures r.Normal? <==> MoviesModel.NoNullish(movies)
  {
    var updated := Obj(Spread(existing) + Spread(updateData));
    var replace := ReplaceIfId(ParseIntOf(id), updated);
    var collection :- ArrayMap(movies, replace);
    Normal(Persist(collection, CreateSuccessResponse(200, updated)))
  }

  function UpdatePlan(id: Value, updateData: Value, repo: Repository): Completion<Plan> {
    var movies :- repo.load;
    if IsMoviesArrayEmpty(Arr(movies)) then Normal(Respond(NoMoviesEnvelope))
    else
      var existing :- repo.lookup(id);
      if !Truthy(existing) then Normal(Respond(NotFoundEnvelope))
      else
        var newTitle :- Prop(updateData, "title");
        var conflict :- TitleConflict(newTitle, OptionalProp(existing, "title"), movies);
        if conflict then Normal(Respond(DuplicateEnvelope))
        else ApplyUpdate(id, existing, updateData, movies)
  }

  /** What `update` decides before saving. */
  lemma UpdatePlanShape(id: Value, updateData: Value, repo: Repository)
    ensures var plan := UpdatePlan(id, updateData, repo);
      plan.Normal? && plan.value.Persist? ==>
        && repo.load.Normal? && |repo.load.value| > 0
        && repo.lookup(id).Normal? && Truthy(repo.lookup(id).value)
        && plan == ApplyUpdate(id, repo.lookup(id).value, updateData, repo.load.value)
    ensures var plan := UpdatePlan(id, updateData, repo);
      plan.Normal? && plan.value.Persist? ==>
        var updated := Obj(Spread(repo.lookup(id).value) + Spread(updateData));
        && ReplacedById(plan.value.collection, repo.load.value, id, updated)
        && plan.value.onSuccess == CreateSuccessResponse(200, updated)
  {
    var plan := UpdatePlan(id, updateData, repo);
    if repo.load.Normal? && !IsMoviesArrayEmpty(Arr(repo.load.value)) && repo.lookup(id).Normal? && Truthy(repo.lookup(id).value) {
      var movies, existing := repo.load.value, repo.lookup(id).value;
      if !IsNullish(updateData) {
        var newTitle := OptionalProp(updateData, "title");
        assert plan == match TitleConflict(newTitle, OptionalProp(existing, "title"), movies)
          case Throw => Throw
          case Normal(c) => if c then Normal(Respond(DuplicateEnvelope)) else ApplyUpdate(id, existing, updateData, movies);
      }
    } else {
      assert plan.Normal? ==> plan.value.Respond?;
    }
  }

  /** `update` answers 404 on an empty list and on a record it cannot find, and its own answers are never 200. */
  lemma UpdatePlanEarly(id: Value, updateData: Value, repo: Repository)
    ensures var plan := UpdatePlan(id, updateData, repo);
      plan.Normal? && plan.value.Respond? ==> plan.value.envelope.statusCode != 200
    ensures repo.load == Normal([]) ==> UpdatePlan(id, updateData, repo) == Normal(Respond(NoMoviesEnvelope))
    ensures repo.load.Normal? && |repo.load.value| > 0 && repo.lookup(id).Normal? && !Truthy(repo.lookup(id).value) ==>
      UpdatePlan(id, updateData, repo) == Normal(Respond(NotFoundEnvelope))
  {
  }

  /** `update` throws when loading or looking up throws. */
  lemma UpdatePlanCatches(id: Value, updateData: Value, repo: Repository)
    ensures repo.load.Throw? ==> UpdatePlan(id, updateData, repo) == Throw
    ensures repo.load.Normal? && |repo.load.value| > 0 && repo.lookup(id).Throw? ==> UpdatePlan(id, updateData, repo) == Throw
  {
  }

  /** `update`'s own answers are 404s, a 409 and a 200. */
  lemma UpdatePlanCodes(id: Value, updateData: Value, repo: Repository)
    ensures var plan := UpdatePlan(id, updateData, repo);
      plan.Normal? && plan.value.Respond? ==> plan.value.envelope.statusCode in {404, 409}
    ensures var plan := UpdatePlan(id, updateData, repo);
      plan.Normal? && plan.value.Persist? ==> plan.value.onSuccess.statusCode == 200
  {
    UpdatePlanShape(id, updateData, repo);
    var plan := UpdatePlan(id, updateData, repo);
    if plan.Normal? && plan.value.Respond? {
      assert plan.value.envelope in {NoMoviesEnvelope, NotFoundEnvelope, DuplicateEnvelope};
    }
  }

  /** Once a record is found, `update` runs its title check on the body's title and then answers 409 or merges. */
  lemma UpdatePlanProceeds(id: Value, updateData: Value, repo: Repository)
    ensures FindsRecord(id, repo) && IsNullish(updateData) ==> UpdatePlan(id, updateData, repo).Throw?
    ensures FindsRecord(id, repo) && !IsNullish(updateData) ==>
      UpdatePlan(id, updateData, repo) ==
        match TitleConflict(OptionalProp(updateData, "title"), OptionalProp(repo.lookup(id).value, "title"), repo.load.value)
        case Throw => Throw
        case Normal(conflict) =>
          if conflict then Normal(Respond(DuplicateEnvelope))
          else ApplyUpdate(id, repo.lookup(id).value, updateData, repo.load.value)
  {
  }

  /** `MoviesService.update(id, updateData)`. */
  function Update(id: Value, updateData: Value, repo: Repository): (r: Saved)
    ensures repo.load.Normal? && |repo.load.value| > 0 && repo.lookup(id).Normal? && !Truthy(repo.lookup(id).value) ==>
              r == Saved(NotFoundEnvelope, None)
    ensures r.saved.Some? && repo.save(r.saved.value) == Normal(false) ==> r.response == SaveFailedEnvelope
    ensures repo.load == Normal([]) ==> r == Saved(NoMoviesEnvelope, None)
    ensures r.saved.Some? ==>
      && repo.load.Normal? && |repo.load.value| > 0 && repo.lookup(id).Normal? && Truthy(repo.lookup(id).value)
      && ReplacedById(r.saved.value, repo.load.value, id, Obj(Spread(repo.lookup(id).value) + Spread(updateData)))
    ensures r.response.success ==>
      && r.saved.Some? && repo.save(r.saved.value) == Normal(true)
      && r.response == CreateSuccessResponse(200, Obj(Spread(repo.lookup(id).value) + Spread(updateData)))
    ensures r.response.statusCode == 409 ==> r.saved.None?
  {
    UpdatePlanShape(id, updateData, repo);
    UpdatePlanEarly(id, updateData, repo);
    Commit(UpdatePlan(id, updateData, repo), repo)
  }

  /**
   * Once the record is found, `update` answers 409 exactly when its title
   * check finds a conflict, and otherwise saves the merged list and answers
   * 200 on a successful save.
   */
  lemma UpdateAnswers(id: Value, updateData: Value, repo: Repository)
    ensures Update(id, updateData, repo).response == DuplicateEnvelope <==>
      && FindsRecord(id, repo) && !IsNullish(updateData)
      && TitleConflict(OptionalProp(updateData, "title"), OptionalProp(repo.lookup(id).value, "title"), repo.load.value) == Normal(true)
    ensures (FindsRecord(id, repo) && !IsNullish(updateData) && MoviesModel.NoNullish(repo.load.value)
             && TitleConflict(OptionalProp(updateData, "title"), OptionalProp(repo.lookup(id).value, "title"), repo.load.value) == Normal(false)) ==>
      var r := Update(id, updateData, repo);
      && r.saved.Some?
      && (repo.save(r.saved.value) == Normal(true) ==>
            r.response == CreateSuccessResponse(200, Obj(Spread(repo.lookup(id).value) + Spread(updateData))))
    ensures repo.load.Throw? ==> Update(id, updateData, repo) == Saved(CaughtEnvelope, None)
    ensures repo.load.Normal? && |repo.load.value| > 0 && repo.lookup(id).Throw? ==>
      Update(id, updateData, repo) == Saved(CaughtEnvelope, None)
    ensures Update(id, updateData, repo).response.statusCode in {200, 404, 409, 500}
  {
    UpdatePlanShape(id, updateData, repo);
    UpdatePlanProceeds(id, updateData, repo);
    UpdatePlanCatches(id, updateData, repo);
    UpdatePlanCodes(id, updateData, repo);
    CommitDuplicate(UpdatePlan(id, updateData, repo), repo);
    CommitStatus(UpdatePlan(id, updateData, repo), repo, {200, 404, 409});
  }

  /**
   * A step of `update`'s `try` block before `saveAll` throws: `getAll`,
   * `getById` once the list is non-empty, and once the movie is found:
   * reading `updateData.title`, the title check, or `map` over a nullish
   * record.
   */
  predicate UpdateThrows(id: Value, updateData: Value, repo: Repository) {
    || repo.load.Throw?
    || (repo.load.Normal? && |repo.load.value| > 0 &&
         (|| repo.lookup(id).Throw?
          || (Truthy(repo.lookup(id).value) &&
               (|| IsNullish(updateData)
                || TitleConflict(OptionalProp(updateData, "title"), OptionalProp(repo.lookup(id).value, "title"), repo.load.value).Throw?
                || (TitleConflict(OptionalProp(updateData, "title"), OptionalProp(repo.lookup(id).value, "title"), repo.load.value) == Normal(false)
                    && !MoviesModel.NoNullish(repo.load.value))))))
  }

  /** `update`'s plan throws exactly when one of its steps does. */
  lemma UpdatePlanThrows(id: Value, updateData: Value, repo: Repository)
    ensures UpdatePlan(id, updateData, repo) == Throw <==> UpdateThrows(id, updateData, repo)
  {
    UpdatePlanCatches(id, updateData, repo);
    UpdatePlanEarly(id, updateData, repo);
    UpdatePlanProceeds(id, updateData, repo);
    if FindsRecord(id, repo) && !IsNullish(updateData) {
      var existing := repo.lookup(id).value;
      var movies := repo.load.value;
      var conflict := TitleConflict(OptionalProp(updateData, "title"), OptionalProp(existing, "title"), movies);
      if conflict == Normal(false) {
        assert ApplyUpdate(id, existing, updateData, movies).Normal? <==> MoviesModel.NoNullish(movies);
      }
    }
  }

  /**
   * `update` answers the `catch`'s 500 exactly when a step throws or
   * `saveAll` rejects; a step that throws before the save saves nothing.
   */
  lemma UpdateCaught(id: Value, updateData: Value, repo: Repository)
    ensures UpdateThrows(id, updateData, repo) ==> Update(id, updateData, repo) == Saved(CaughtEnvelope, None)
    ensures var r := Update(id, updateData, repo);
      r.response == CaughtEnvelope <==> UpdateThrows(id, updateData, repo) || (r.saved.Some? && repo.save(r.saved.value).Throw?)
  {
    var plan := UpdatePlan(id, updateData, repo);
    assert Update(id, updateData, repo) == Commit(plan, repo);
    UpdatePlanShape(id, updateData, repo);
    UpdatePlanCodes(id, updateData, repo);
    UpdatePlanThrows(id, updateData, repo);
    CommitCatches(plan, repo);
  }

  /**
   * Renaming a movie to a different capitalisation of its own title is
   * refused: the stored record is in the list the check runs against.
   */
  lemma UpdateConflictsWithItself()
    ensures var existing := Obj(map["id" := Num(1), "title" := Str("Inception")]);
      var repo := Repository(Normal([existing]), _ => Normal(existing), Normal(Num(2)), _ => Normal(true));
      Update(Str("1"), Obj(map["title" := Str("inception")]), repo).response == DuplicateEnvelope
  {
    var existing := Obj(map["id" := Num(1), "title" := Str("Inception")]);
    var repo := Repository(Normal([existing]), _ => Normal(existing), Normal(Num(2)), _ => Normal(true));
    var patch := Obj(map["title" := Str("inception")]);
    SameKeyIgnoringCase();
    assert IsDuplicateTitle(Str("inception"), [existing]) == Normal(true) by {
      assert HasStringField(existing, "title");
      assert TitleKey(StringField(existing, "title")) == TitleKey("inception");
    }
    assert "inception"[0] != "Inception"[0];
    assert TitleConflict(Str("inception"), OptionalProp(existing, "title"), [existing]) == Normal(true);
    assert FindsRecord(Str("1"), repo) && OptionalProp(patch, "title") == Str("inception");
    UpdateAnswers(Str("1"), patch, repo);
  }

  lemma SameKeyIgnoringCase()
    ensures TitleKey("Inception") == TitleKey("inception") == "inception"
  {
    assert Lower("Inception") == "inception";
    assert Lower("inception") == "inception";
    TrimUnpadded("inception");
  }

  /* ---------------- update, as intended ---------------- */

  /** The check as meant: a truthy new title conflicts only with another record's title. */
  function TitleConflictIntended(id: Value, newTitle: Value, movies: seq<Value>): (r: Completion<bool>)
    ensures !Truthy(newTitle) ==> r == Normal(false)
    ensures Truthy(newTitle) && MoviesModel.NoNullish(movies) ==> r == IsDuplicateTitle(newTitle, MoviesModel.Removed(movies, ParseIntOf(id)).value)
  {
    if Truthy(newTitle) then
      var others :- MoviesModel.Removed(movies, ParseIntOf(id));
      IsDuplicateTitle(newTitle, others)
    else Normal(false)
  }

  function UpdatePlanIntended(id: Value, updateData: Value, repo: Repository): Completion<Plan> {
    var movies :- repo.load;
    if IsMoviesArrayEmpty(Arr(movies)) then Normal(Respond(NoMoviesEnvelope))
    else
      var existing :- repo.lookup(id);
      if !Truthy(existing) then Normal(Respond(NotFoundEnvelope))
      else
        var newTitle :- Prop(updateData, "title");
        var conflict :- TitleConflictIntended(id, newTitle, movies);
        if conflict then Normal(Respond(DuplicateEnvelope))
        else ApplyUpdate(id, existing, updateData, movies)
  }

  /** What the intended `update` decides before saving. */
  lemma UpdatePlanIntendedShape(id: Value, updateData: Value, repo: Repository)
    ensures var plan := UpdatePlanIntended(id, updateData, repo);
      plan.Normal? && plan.value.Persist? ==>
        && repo.load.Normal? && |repo.load.value| > 0
        && repo.lookup(id).Normal? && Truthy(repo.lookup(id).value)
        && plan == ApplyUpdate(id, repo.lookup(id).value, updateData, repo.load.value)
    ensures UpdatePlanIntended(id, updateData, repo) == Normal(Respond(DuplicateEnvelope)) ==>
      && repo.load.Normal? && updateData.Obj? && MoviesModel.NoNullish(repo.load.value)
      && IsDuplicateTitle(Field(updateData.fields, "title"), MoviesModel.Removed(repo.load.value, ParseIntOf(id)).value) == Normal(true)
    ensures var plan := UpdatePlanIntended(id, updateData, repo);
      plan.Normal? && plan.value.Respond? ==> plan.value.envelope.statusCode != 200
  {
    var plan := UpdatePlanIntended(id, updateData, repo);
    if repo.load.Normal? && !IsMoviesArrayEmpty(Arr(repo.load.value)) && repo.lookup(id).Normal? && Truthy(repo.lookup(id).value) {
      var movies, existing := repo.load.value, repo.lookup(id).value;
      if !IsNullish(updateData) {
        var newTitle := OptionalProp(updateData, "title");
        assert plan == match TitleConflictIntended(id, newTitle, movies)
          case Throw => Throw
          case Normal(c) => if c then Normal(Respond(DuplicateEnvelope)) else ApplyUpdate(id, existing, updateData, movies);
      }
    } else {
      assert plan.Normal? ==> plan.value.Respond?;
    }
  }

  /** The intended `update` throws when loading or looking up throws. */
  lemma UpdatePlanIntendedCatches(id: Value, updateData: Value, repo: Repository)
    ensures repo.load.Throw? ==> UpdatePlanIntended(id, updateData, repo) == Throw
    ensures repo.load.Normal? && |repo.load.value| > 0 && repo.lookup(id).Throw? ==> UpdatePlanIntended(id, updateData, repo) == Throw
  {
  }

  /** The intended `update`'s own answers are 404s, a 409 and a 200. */
  lemma UpdatePlanIntendedCodes(id: Value, updateData: Value, repo: Repository)
    ensures var plan := UpdatePlanIntended(id, updateData, repo);
      plan.Normal? && plan.value.Respond? ==> plan.value.envelope.statusCode in {404, 409}
    ensures var plan := UpdatePlanIntended(id, updateData, repo);
      plan.Normal? && plan.value.Persist? ==> plan.value.onSuccess.statusCode == 200
  {
    UpdatePlanIntendedShape(id, updateData, repo);
    var plan := UpdatePlanIntended(id, updateData, repo);
    if plan.Normal? && plan.value.Respond? {
      assert plan.value.envelope in {NoMoviesEnvelope, NotFoundEnvelope, DuplicateEnvelope};
    }
  }

  /** Once a record is found, the intended `update` runs its title check and then answers 409 or merges. */
  lemma UpdatePlanIntendedProceeds(id: Value, updateData: Value, repo: Repository)
    ensures FindsRecord(id, repo) && IsNullish(updateData) ==> UpdatePlanIntended(id, updateData, repo).Throw?
    ensures FindsRecord(id, repo) && !IsNullish(updateData) ==>
      UpdatePlanIntended(id, updateData, repo) ==
        match TitleConflictIntended(id, OptionalProp(updateData, "title"), repo.load.value)
        case Throw => Throw
        case Normal(conflict) =>
          if conflict then Normal(Respond(DuplicateEnvelope))
          else ApplyUpdate(id, repo.lookup(id).value, updateData, repo.load.value)
  {
  }

  /** `update` checking the new title against the other records only. */
  function UpdateIntended(id: Value, updateData: Value, repo: Repository): (r: Saved)
    ensures repo.load.Normal? && |repo.load.value| > 0 && repo.lookup(id).Normal? && !Truthy(repo.lookup(id).value) ==>
              r == Saved(NotFoundEnvelope, None)
    ensures r.saved.Some? && repo.save(r.saved.value) == Normal(false) ==> r.response == SaveFailedEnvelope
    ensures repo.load == Normal([]) ==> r == Saved(NoMoviesEnvelope, None)
    ensures r.saved.Some? ==>
      && repo.load.Normal? && repo.lookup(id).Normal? && Truthy(repo.lookup(id).value)
      && ReplacedById(r.saved.value, repo.load.value, id, Obj(Spread(repo.lookup(id).value) + Spread(updateData)))
    ensures r.response.statusCode == 409 ==>
      && repo.load.Normal? && updateData.Obj? && MoviesModel.NoNullish(repo.load.value)
      && IsDuplicateTitle(Field(updateData.fields, "title"), MoviesModel.Removed(repo.load.value, ParseIntOf(id)).value) == Normal(true)
  {
    UpdatePlanIntendedShape(id, updateData, repo);
    Commit(UpdatePlanIntended(id, updateData, repo), repo)
  }

  /**
   * Once the record is found, the intended `update` answers 409 exactly when
   * another record has the new title, and otherwise saves and answers 200 on
   * a successful save.
   */
  lemma UpdateIntendedAnswers(id: Value, updateData: Value, repo: Repository)
    ensures UpdateIntended(id, updateData, repo).response == DuplicateEnvelope <==>
      && FindsRecord(id, repo) && !IsNullish(updateData)
      && TitleConflictIntended(id, OptionalProp(updateData, "title"), repo.load.value) == Normal(true)
    ensures (FindsRecord(id, repo) && !IsNullish(updateData) && MoviesModel.NoNullish(repo.load.value)
             && TitleConflictIntended(id, OptionalProp(updateData, "title"), repo.load.value) == Normal(false)) ==>
      var r := UpdateIntended(id, updateData, repo);
      && r.saved.Some?
      && (repo.save(r.saved.value) == Normal(true) ==>
            r.response == CreateSuccessResponse(200, Obj(Spread(repo.lookup(id).value) + Spread(updateData))))
    ensures repo.load.Throw? ==> UpdateIntended(id, updateData, repo) == Saved(CaughtEnvelope, None)
    ensures repo.load.Normal? && |repo.load.value| > 0 && repo.lookup(id).Throw? ==>
      UpdateIntended(id, updateData, repo) == Saved(CaughtEnvelope, None)
    ensures UpdateIntended(id, updateData, repo).response.statusCode in {200, 404, 409, 500}
  {
    UpdatePlanIntendedShape(id, updateData, repo);
    UpdatePlanIntendedProceeds(id, updateData, repo);
    UpdatePlanIntendedCatches(id, updateData, repo);
    UpdatePlanIntendedCodes(id, updateData, repo);
    CommitDuplicate(UpdatePlanIntended(id, updateData, repo), repo);
    CommitStatus(UpdatePlanIntended(id, updateData, repo), repo, {200, 404, 409});
  }

  /** As `UpdateThrows`, with the title checked against the other records. */
  predicate UpdateIntendedThrows(id: Value, updateData: Value, repo: Repository) {
    || repo.load.Throw?
    || (repo.load.Normal? && |repo.load.value| > 0 &&
         (|| repo.lookup(id).Throw?
          || (Truthy(repo.lookup(id).value) &&
               (|| IsNullish(updateData)
                || TitleConflictIntended(id, OptionalProp(updateData, "title"), repo.load.value).Throw?
                || (TitleConflictIntended(id, OptionalProp(updateData, "title"), repo.load.value) == Normal(false)
                    && !MoviesModel.NoNullish(repo.load.value))))))
  }

  /** The intended `update`'s plan throws exactly when one of its steps does. */
  lemma UpdatePlanIntendedThrows(id: Value, updateData: Value, repo: Repository)
    ensures UpdatePlanIntended(id, updateData, repo) == Throw <==> UpdateIntendedThrows(id, updateData, repo)
  {
    UpdatePlanIntendedCatches(id, updateData, repo);
    UpdatePlanIntendedProceeds(id, updateData, repo);
    if FindsRecord(id, repo) && !IsNullish(updateData) {
      var existing := repo.lookup(id).value;
      var movies := repo.load.value;
      var conflict := TitleConflictIntended(id, OptionalProp(updateData, "title"), movies);
      if conflict == Normal(false) {
        assert ApplyUpdate(id, existing, updateData, movies).Normal? <==> MoviesModel.NoNullish(movies);
      }
    }
  }

  /**
   * The intended `update` answers the `catch`'s 500 exactly when a step
   * throws or `saveAll` rejects; a step that throws before the save saves
   * nothing.
   */
  lemma UpdateIntendedCaught(id: Value, updateData: Value, repo: Repository)
    ensures UpdateIntendedThrows(id, updateData, repo) ==> UpdateIntended(id, updateData, repo) == Saved(CaughtEnvelope, None)
    ensures var r := UpdateIntended(id, updateData, repo);
      r.response == CaughtEnvelope <==> UpdateIntendedThrows(id, updateData, repo) || (r.saved.Some? && repo.save(r.saved.value).Throw?)
  {
    var plan := UpdatePlanIntended(id, updateData, repo);
    assert UpdateIntended(id, updateData, repo) == Commit(plan, repo);
    UpdatePlanIntendedShape(id, updateData, repo);
    UpdatePlanIntendedCodes(id, updateData, repo);
    UpdatePlanIntendedThrows(id, updateData, repo);
    CommitCatches(plan, repo);
  }

  /** Against the record itself, re-casing its own title is no conflict under the intended check. */
  lemma RecaseIsNoConflict(existing: Value)
    requires existing == Obj(map["id" := Num(1), "title" := Str("Inception")])
    ensures TitleConflictIntended(Str("1"), Str("inception"), [existing]) == Normal(false)
  {
    ParseOne();
    assert MoviesModel.CarriesId(existing, Some(1));
    MoviesModel.RemovedSole(existing, Some(1));
    assert MoviesModel.Removed([existing], ParseIntOf(Str("1"))) == Normal([]);
    assert IsDuplicateTitle(Str("inception"), []) == Normal(false);
  }

  lemma ParseOne()
    ensures ParseIntOf(Str("1")) == Some(1)
  {
    assert IsDigitString("1") && "1"[..0] == "";
    ParseIntOfDigits("1");
  }

  /**
   * On the example above the intended update goes through: for any
   * repository holding just that record, finding it and saving successfully.
   */
  lemma UpdateIntendedAllowsRecase(existing: Value, patch: Value, repo: Repository)
    requires existing == Obj(map["id" := Num(1), "title" := Str("Inception")])
    requires patch == Obj(map["title" := Str("inception")])
    requires repo.load == Normal([existing]) && repo.lookup(Str("1")) == Normal(existing)
    requires forall movies :: repo.save(movies) == Normal(true)
    ensures UpdateIntended(Str("1"), patch, repo).response.statusCode == 200
  {
    RecaseIsNoConflict(existing);
    assert FindsRecord(Str("1"), repo);
    assert OptionalProp(patch, "title") == Str("inception");
    assert MoviesModel.NoNullish([existing]);
    UpdateIntendedAnswers(Str("1"), patch, repo);
    assert CreateSuccessResponse(200, Obj(Spread(existing) + Spread(patch))).statusCode == 200;
  }
}

=== FILE: path_ids.dfy ===
/**
 * The id segment both servers cut out of a request URL:
 * `url.startsWith(prefix) && url.split('/').length === 3 ? url.split('/')[2] : undefined`
 * with the prefix `/films/` or `/movies/`, and the template path
 * `` `${prefix}${idURL}` `` the dispatcher compares against.
 */
module PathIds {
  import opened Completions
  import opened JsText

  predicate StartsWith(s: string, prefix: string) {
    |prefix| <= |s| && s[..|prefix|] == prefix
  }

  /** `/name/`. */
  function Prefix(name: string): string {
    "/" + name + "/"
  }

  /** `idURL` for the collection `name`; `None` is `undefined`. */
  function IdSegment(name: string, url: string): (r: Option<string>)
    requires '/' !in name
    ensures r.Some? ==> url == Prefix(name) + r.value && '/' !in r.value
  {
    var parts := Split(url, '/');
    if StartsWith(url, Prefix(name)) && |parts| == 3 then
      SegmentsOfIdPath(name, url);
      Some(parts[2])
    else None
  }

  /** A URL with the prefix and three `/`-pieces is the prefix followed by the third piece. */
  lemma SegmentsOfIdPath(name: string, url: string)
    requires '/' !in name
    requires StartsWith(url, Prefix(name)) && |Split(url, '/')| == 3
    ensures var parts := Split(url, '/'); url == Prefix(name) + parts[2]
  {
    var parts := Split(url, '/');
    var rest := url[|Prefix(name)|..];
    assert Join(parts[1..][1..], '/') == parts[2];
    assert Join(parts[1..], '/') == parts[1] + ['/'] + parts[2];
    assert url == parts[0] + ['/'] + (parts[1] + ['/'] + parts[2]);
    assert url == "" + ['/'] + (name + ['/'] + rest) by {
      assert url == url[..|Prefix(name)|] + rest;
    }
    SameHeadSegment(parts[0], "", parts[1] + ['/'] + parts[2], name + ['/'] + rest, '/');
    SameHeadSegment(parts[1], name, parts[2], rest, '/');
  }

  /** Text up to the first separator is determined: the heads of two equal splits agree. */
  lemma {:induction false} SameHeadSegment(a: string, b: string, u: string, v: string, sep: char)
    requires sep !in a && sep !in b
    requires a + [sep] + u == b + [sep] + v
    ensures a == b && u == v
    decreases |a|
  {
    assert |a| > 0 ==> (a + [sep] + u)[0] == a[0];
    assert |b| > 0 ==> (b + [sep] + v)[0] == b[0];
    assert |a| == 0 ==> (a + [sep] + u)[0] == sep;
    assert |b| == 0 ==> (b + [sep] + v)[0] == sep;
    if |a| > 0 && |b| > 0 {
      assert (a + [sep] + u)[1..] == a[1..] + [sep] + u;
      assert (b + [sep] + v)[1..] == b[1..] + [sep] + v;
      SameHeadSegment(a[1..], b[1..], u, v, sep);
      assert a == [a[0]] + a[1..] && b == [b[0]] + b[1..];
    } else {
      assert a == [] && b == [];
      assert a + [sep] + u == [sep] + u && b + [sep] + v == [sep] + v;
      assert u == ([sep] + u)[1..] && v == ([sep] + v)[1..];
    }
  }

  /** The prefix followed by a slash-free segment yields that segment. */
  lemma IdSegmentOf(name: string, x: string)
    requires '/' !in name && '/' !in x
    ensures IdSegment(name, Prefix(name) + x) == Some(x)
  {
    var url := Prefix(name) + x;
    var parts := ["", name, x];
    assert Join(parts[1..][1..], '/') == x;
    assert Join(parts[1..], '/') == name + ['/'] + x;
    assert Join(parts, '/') == url;
    SplitJoin(["", name, x], '/');
    assert url[..|Prefix(name)|] == Prefix(name);
  }

  /** The path `` `/${name}/${idURL}` ``, where an absent id renders as `undefined`. */
  function TemplatePath(name: string, idURL: Option<string>): string {
    Prefix(name) + (if idURL.Some? then idURL.value else "undefined")
  }

  /**
   * The `case` on the template path matches the URL it was computed from
   * exactly when the URL has an id segment: `/films/undefined` itself is
   * such a URL, so the absent id never matches.
   */
  lemma TemplateMatchesIdUrls(name: string, url: string)
    requires '/' !in name
    ensures url == TemplatePath(name, IdSegment(name, url)) <==> IdSegment(name, url).Some?
  {
    if IdSegment(name, url).None? && url == Prefix(name) + "undefined" {
      IdSegmentOf(name, "undefined");
    }
  }
}

=== FILE: responses.dfy ===
/**
 * What the movie API hands back: the `{success, statusCode, data | error}`
 * envelope built by the service and model layers, and the reply a handler
 * writes to the socket. Error and page texts are opaque tags.
 */
module Responses {
  import opened Completions
  import opened JsValue

  /**
   * A result envelope. `payload` is the `data` of a success and the `error`
   * of a failure.
   */
  datatype Envelope = Envelope(success: bool, statusCode: int, payload: Value) {

    /** The key under which the payload sits in the JavaScript object. */
    function PayloadKey(): string {
      if success then "data" else "error"
    }

    /** The JavaScript object the source builds for this envelope. */
    function ToObject(): Value {
      Obj(map["success" := Bool(success), "statusCode" := Num(statusCode), PayloadKey() := payload])
    }
  }

  /** `{ message }`, the error object of the service layer and of most model failures. */
  function MessageObject(message: Value): Value {
    Obj(map["message" := message])
  }

  datatype ContentType = Json | Html

  /**
   * What one request handler writes: nothing, or one status line with a
   * payload (`sendJsonResponse(res, status, payload)` or an HTML page).
   */
  datatype Reply = NoReply | Reply(status: int, contentType: ContentType, payload: Value)

  function JsonReply(status: int, payload: Value): Reply {
    Reply(status, Json, payload)
  }

  /** A reply and the value the handler handed to the store's write, if it wrote. */
  datatype Handled = Handled(reply: Reply, written: Option<Value>)

  /* Opaque message and page tags. */
  const WelcomePage := Str("welcome page")
  const NotFoundPage := Str("page not found")
  const NoMoviesAvailable := Str("no movies available")
  const NoMatchingMovies := Str("no movies match the filters")
  const MovieNotFound := Str("no movie with this id")
  const EmptyId := Str("the movie id cannot be empty")
  const InvalidId := Str("the id must be a valid number")
  const InvalidBody := Str("the request body is not valid JSON")
  const DuplicateTitle := Str("a movie with this title already exists")
  const MovieDeleted := Str("the movie was deleted")
  const FilmNotFound := Str("the requested film was not found")
  const ServerFault := Str("internal server error")
  const SaveFault := Str("the movies could not be saved")
}

/**
 * The JSON file store (`helpers/readJSON.mjs`, `helpers/writeJSON.mjs`) and
 * `JSON.parse`, taken as given: the result of the read, the parser of the
 * stored text, and the outcome of a write as a function of what is written.
 */
module Storage {
  import opened Completions
  import opened JsValue

  /** `readJSON()`: `{success: true, data}` or `{success: false, error}`. */
  datatype ReadResult = ReadOk(data: string) | ReadFailed(error: Value)

  /** `writeJSON(v)`: `{success, message}`. */
  datatype WriteResult = WriteResult(success: bool, message: Value)

  /**
   * One request's view of the store: what `readJSON` returns, `JSON.parse`
   * on stored text (a throw is a syntax error; the stored document is an
   * array of records), and what `writeJSON` returns for a given value.
   */
  datatype Store = Store(
    read: ReadResult,
    parse: string -> Completion<seq<Value>>,
    write: Value -> WriteResult)
}

=== FILE: run_middlewares.dfy ===
/**
 * `middlewares/runMiddlewares.mjs`, the Express-style chain runner, and the
 * three stages written for it (`parseJsonBody`, `validateBody`,
 * `validatePartialBody`). A stage is summarised by what it does with the
 * `next` callback; the runner's shared `index` becomes the position the
 * recursion has reached.
 */
module Middleware {
  import opened Completions
  import opened JsValue
  import opened Responses
  import opened BodyValidation

  /** What one stage does when it runs: call `next(error)`, throw `error`, or stop after replying. */
  datatype StageOutcome = CallsNext(error: Value) | Throws(error: Value) | Halts

  /** The stages that ran, in order, and the argument `finalHandler` got (`None`: it was never called). */
  datatype ChainRun = ChainRun(ran: seq<nat>, final: Option<Value>)

  /** The stage hands control on to the following one. */
  predicate Continues(o: StageOutcome) {
    !o.Halts? && !Truthy(o.error)
  }

  /** What `finalHandler` receives when the chain stops at this stage. */
  function FinalOf(o: StageOutcome): Option<Value> {
    if o.Halts? then None else Some(o.error)
  }

  /** `next(error)` with the shared index at `index`. */
  function Next(stages: seq<StageOutcome>, index: nat, error: Value): (r: ChainRun)
    requires index <= |stages|
    ensures forall i :: 0 <= i < |r.ran| ==> r.ran[i] == index + i
    ensures index + |r.ran| <= |stages|
    ensures Truthy(error) ==> r == ChainRun([], Some(error))
    ensures !Truthy(error) ==> forall k :: index <= k < index + |r.ran| - 1 ==> Continues(stages[k])
    ensures !Truthy(error) && |r.ran| > 0 && !Continues(stages[index + |r.ran| - 1]) ==>
      r.final == FinalOf(stages[index + |r.ran| - 1])
    ensures !Truthy(error) && (|r.ran| == 0 || Continues(stages[index + |r.ran| - 1])) ==>
      index + |r.ran| == |stages| && r.final == Some(Undefined)
    decreases |stages| - index
  {
    if Truthy(error) then ChainRun([], Some(error))
    else if index == |stages| then ChainRun([], Some(Undefined))
    else
      match stages[index]
      case Halts => ChainRun([index], None)
      case CallsNext(e) =>
        var rest := Next(stages, index + 1, e);
        ChainRun([index] + rest.ran, rest.final)
      case Throws(e) =>
        var rest := Next(stages, index + 1, e);
        ChainRun([index] + rest.ran, rest.final)
  }

  /** `runMiddlewares(req, res, middlewares, finalHandler)`. */
  function RunMiddlewares(stages: seq<StageOutcome>): (r: ChainRun)
    ensures forall i :: 0 <= i < |r.ran| ==> r.ran[i] == i
    ensures |r.ran| <= |stages|
    ensures |stages| == 0 ==> r == ChainRun([], Some(Undefined))
    ensures forall k :: 0 <= k < |r.ran| - 1 ==> Continues(stages[k])
    ensures |r.ran| > 0 && !Continues(stages[|r.ran| - 1]) ==> r.final == FinalOf(stages[|r.ran| - 1])
    ensures (|r.ran| == 0 || Continues(stages[|r.ran| - 1])) ==> |r.ran| == |stages| && r.final == Some(Undefined)
  {
    Next(stages, 0, Undefined)
  }

  /** The chain stops at the first stage that does not continue, and only there. */
  lemma StopsAtFirst(stages: seq<StageOutcome>, k: nat)
    requires k < |stages| && !Continues(stages[k])
    requires forall j :: 0 <= j < k ==> Continues(stages[j])
    ensures |RunMiddlewares(stages).ran| == k + 1
    ensures RunMiddlewares(stages).final == FinalOf(stages[k])
  {
  }

  /** When every stage continues, all run and `finalHandler()` gets no error. */
  lemma AllContinue(stages: seq<StageOutcome>)
    requires forall j :: 0 <= j < |stages| ==> Continues(stages[j])
    ensures |RunMiddlewares(stages).ran| == |stages|
    ensures RunMiddlewares(stages).final == Some(Undefined)
  {
  }

  /** The effect of a stage on the chain, which is all the runner observes. */
  function Effect(o: StageOutcome): Option<Option<Value>> {
    if Continues(o) then None else Some(FinalOf(o))
  }

  /** Two chains whose stages have the same effects run the same way. */
  lemma {:induction false} SameEffectsSameRun(a: seq<StageOutcome>, b: seq<StageOutcome>, index: nat)
    requires |a| == |b| && index <= |a|
    requires forall j :: index <= j < |a| ==> Effect(a[j]) == Effect(b[j])
    ensures Next(a, index, Undefined) == Next(b, index, Undefined)
    decreases |a| - index
  {
    if index < |a| {
      assert Effect(a[index]) == Effect(b[index]);
      SameEffectsSameRun(a, b, index + 1);
      if !a[index].Halts? && !Truthy(a[index].error) {
        NextFalsy(a, index + 1, a[index].error);
        NextFalsy(b, index + 1, b[index].error);
      }
    }
  }

  /** `next(e)` with a falsy `e` is `next()`. */
  lemma NextFalsy(stages: seq<StageOutcome>, index: nat, e: Value)
    requires index <= |stages| && !Truthy(e)
    ensures Next(stages, index, e) == Next(stages, index, Undefined)
  {
  }

  /** A stage that throws `e` behaves as one that calls `next(e)`. */
  lemma ThrowIsNext(stages: seq<StageOutcome>, i: nat, e: Value)
    requires i < |stages|
    ensures RunMiddlewares(stages[i := Throws(e)]) == RunMiddlewares(stages[i := CallsNext(e)])
  {
    SameEffectsSameRun(stages[i := Throws(e)], stages[i := CallsNext(e)], 0);
  }

  /** `next(e)` with a falsy `e` (`null`, `0`, `''`) does not abort the chain. */
  lemma FalsyErrorContinues(stages: seq<StageOutcome>, i: nat, e: Value)
    requires i < |stages| && !Truthy(e)
    ensures RunMiddlewares(stages[i := CallsNext(e)]) == RunMiddlewares(stages[i := CallsNext(Undefined)])
  {
    SameEffectsSameRun(stages[i := CallsNext(e)], stages[i := CallsNext(Undefined)], 0);
  }

  /* ---------------- the stages ---------------- */

  /** A stage's outcome, the request body it leaves, and the reply it sent. */
  datatype StageResult = StageResult(outcome: StageOutcome, body: Value, reply: Reply)

  const MethodsWithBody: set<string> := {"POST", "PUT", "PATCH"}

  const InvalidBodyError := Obj(map["error" := InvalidBody])

  /** The error object a TypeError inside a stage carries; any object is truthy. */
  const TypeErrorValue := Obj(map["name" := Str("TypeError")])

  /**
   * `parseJsonBody` once the request stream has ended with the text
   * `payload`; `body` is `req.body` before the stage.
   */
  function ParseJsonBody(httpMethod: string, payload: string, parseBody: string -> Completion<Value>, body: Value): (r: StageResult)
    ensures httpMethod !in MethodsWithBody ==> r == StageResult(CallsNext(Undefined), body, NoReply)
    ensures httpMethod in MethodsWithBody && payload == "" ==> r == StageResult(CallsNext(Undefined), Obj(map[]), NoReply)
    ensures httpMethod in MethodsWithBody && payload != "" ==>
      match parseBody(payload)
      case Normal(v) => r == StageResult(CallsNext(Undefined), v, NoReply)
      case Throw => r.outcome.Halts? && r.reply == JsonReply(400, InvalidBodyError)
    ensures r.outcome.Halts? || Continues(r.outcome)
  {
    if httpMethod !in MethodsWithBody then StageResult(CallsNext(Undefined), body, NoReply)
    else if payload == "" then StageResult(CallsNext(Undefined), Obj(map[]), NoReply)
    else
      match parseBody(payload)
      case Normal(v) => StageResult(CallsNext(Undefined), v, NoReply)
      case Throw => StageResult(Halts, body, JsonReply(400, InvalidBodyError))
  }

  /** The stage both validators share around `verifyBodyStructure(req.body)`. */
  function CheckBody(body: Value): (r: StageResult)
    ensures Continues(r.outcome) <==> IsMovieShape(body)
    ensures r.outcome.Halts? <==> VerifyBodyStructure(body) == Normal(false)
    ensures r.outcome.Halts? ==> r.reply == JsonReply(400, InvalidBodyError)
    ensures r.body == body
  {
    match VerifyBodyStructure(body)
    case Throw => StageResult(Throws(TypeErrorValue), body, NoReply)
    case Normal(ok) =>
      if ok then StageResult(CallsNext(Undefined), body, NoReply)
      else StageResult(Halts, body, JsonReply(400, InvalidBodyError))
  }

  /** `validateBody`. */
  function ValidateBody(body: Value): (r: StageResult)
    ensures Continues(r.outcome) <==> IsMovieShape(body)
    ensures !Continues(r.outcome) ==> r.reply == JsonReply(400, InvalidBodyError) || r.outcome == Throws(TypeErrorValue)
  {
    CheckBody(body)
  }

  /**
   * `validatePartialBody`: it passes a second argument the validator does
   * not declare, so a partial update must still carry all three fields.
   */
  function ValidatePartialBody(body: Value): (r: StageResult)
    ensures r == ValidateBody(body)
    ensures Continues(r.outcome) <==> IsMovieShape(body)
  {
    CheckBody(body)
  }

  /**
   * The chain of the documentation example, `[parseJsonBody, validateBody]`:
   * the final handler is reached with no error exactly when the method
   * carries a body and the payload parses to a movie.
   */
  lemma BodyChainReachesHandler(httpMethod: string, payload: string, parseBody: string -> Completion<Value>, body: Value)
    requires httpMethod in MethodsWithBody
    ensures var parsed := ParseJsonBody(httpMethod, payload, parseBody, body);
      RunMiddlewares([parsed.outcome, ValidateBody(parsed.body).outcome]).final == Some(Undefined) <==>
        payload != "" && parseBody(payload).Normal? && IsMovieShape(parseBody(payload).value)
  {
    var parsed := ParseJsonBody(httpMethod, payload, parseBody, body);
    var stages := [parsed.outcome, ValidateBody(parsed.body).outcome];
    var r := RunMiddlewares(stages);
    if payload == "" {
      assert !IsMovieShape(Obj(map[]));
    }
    if !Continues(stages[0]) {
      StopsAtFirst(stages, 0);
    } else if !Continues(stages[1]) {
      StopsAtFirst(stages, 1);
    } else {
      AllContinue(stages);
    }
  }
}

=== FILE: server.dfy ===
/**
 * `server.mjs`, the first-generation server on `/films`: a `switch` on the
 * method and the raw URL, with the POST handler reading, extending and
 * rewriting the whole JSON file.
 */
module LegacyServer {
  import opened Completions
  import opened JsValue
  import opened Responses
  import opened Storage
  import opened PathIds
  import opened BodyValidation
  import opened AddFilmHelper
  import opened FilmsRequest

  /** HTTP method, raw URL and the accumulated request body text. */
  datatype Request = Request(httpMethod: string, url: string, payload: string)

  const InvalidBodyError := Obj(map["error" := InvalidBody])

  /** The `req.on('end', …)` handler of `POST /films`; `parseBody` is `JSON.parse` on the request text. */
  function PostFilm(payload: string, parseBody: string -> Completion<Value>, store: Store): (r: Handled)
    ensures parseBody(payload).Throw? ==> r == Handled(JsonReply(400, InvalidBodyError), None)
    ensures parseBody(payload).Normal? ==> var body := parseBody(payload).value;
      && (VerifyBodyStructure(body) == Normal(false) ==> r == Handled(JsonReply(400, InvalidBodyError), None))
      && (VerifyBodyStructure(body).Throw? ==> r == Handled(NoReply, None))
      && (IsMovieShape(body) && store.read.ReadFailed? ==> r == Handled(JsonReply(500, store.read.error), None))
    ensures r.written.Some? <==>
      && parseBody(payload).Normal? && IsMovieShape(parseBody(payload).value)
      && store.read.ReadOk? && store.parse(store.read.data).Normal?
    ensures r.written.Some? ==>
      var films := AddFilm(store.parse(store.read.data).value, parseBody(payload).value);
      var outcome := store.write(Arr(films));
      && r.written == Some(Arr(films))
      && r.reply == JsonReply(if outcome.success then 201 else 500, outcome.message)
  {
    match parseBody(payload)
    case Throw => Handled(JsonReply(400, InvalidBodyError), None)
    case Normal(body) =>
      match VerifyBodyStructure(body)
      case Throw => Handled(NoReply, None)
      case Normal(ok) =>
        if !ok then Handled(JsonReply(400, InvalidBodyError), None)
        else
          match store.read
          case ReadFailed(error) => Handled(JsonReply(500, error), None)
          case ReadOk(data) =>
            match store.parse(data)
            case Throw => Handled(NoReply, None)
            case Normal(actualFilms) =>
              var newFilms := AddFilm(actualFilms, body);
              var outcome := store.write(Arr(newFilms));
              if !outcome.success then Handled(JsonReply(500, outcome.message), Some(Arr(newFilms)))
              else Handled(JsonReply(201, outcome.message), Some(Arr(newFilms)))
  }

  /** The request listener of `createServer`. */
  function Serve(req: Request, parseBody: string -> Completion<Value>, store: Store): (r: Handled)
    ensures req.httpMethod == "GET" ==> r.written.None?
    ensures req.httpMethod == "GET" && req.url == "/" ==> r.reply == Reply(200, Html, WelcomePage)
    ensures req.httpMethod == "GET" && req.url == "/films" ==> r.reply == HandleFilmsRequest(store, None)
    ensures req.httpMethod == "GET" && IdSegment("films", req.url).Some? ==>
      r.reply == HandleFilmsRequest(store, IdSegment("films", req.url))
    ensures req.httpMethod == "GET" && req.url != "/" && req.url != "/films" && IdSegment("films", req.url).None? ==>
      r.reply == Reply(404, Html, NotFoundPage)
    ensures req.httpMethod == "POST" && req.url == "/films" ==> r == PostFilm(req.payload, parseBody, store)
    ensures req.httpMethod != "GET" && !(req.httpMethod == "POST" && req.url == "/films") ==> r == Handled(NoReply, None)
  {
    var idURL := IdSegment("films", req.url);
    TemplateMatchesIdUrls("films", req.url);
    if req.httpMethod == "GET" then
      if req.url == "/" then Handled(Reply(200, Html, WelcomePage), None)
      else if req.url == "/films" then Handled(HandleFilmsRequest(store, None), None)
      else if req.url == TemplatePath("films", idURL) then Handled(HandleFilmsRequest(store, idURL), None)
      else Handled(Reply(404, Html, NotFoundPage), None)
    else if req.httpMethod == "POST" && req.url == "/films" then PostFilm(req.payload, parseBody, store)
    else Handled(NoReply, None)
  }

  /** `GET /films/<x>` looks up `x` for every slash-free `x`. */
  lemma GetByIdRoute(x: string, parseBody: string -> Completion<Value>, store: Store)
    requires '/' !in x
    ensures Serve(Request("GET", "/films/" + x, ""), parseBody, store).reply == HandleFilmsRequest(store, Some(x))
  {
    assert Prefix("films") == "/films/";
    IdSegmentOf("films", x);
  }

  /** `GET /films/` has the empty id, which is falsy: the whole file is sent. */
  lemma TrailingSlashLists(parseBody: string -> Completion<Value>, store: Store)
    requires store.read.ReadOk?
    ensures Serve(Request("GET", "/films/", ""), parseBody, store).reply == JsonReply(200, Str(store.read.data))
  {
    GetByIdRoute("", parseBody, store);
  }

  /** The raw URL is matched: a query string on `/films` falls through to the HTML 404. */
  lemma QueryStringIsNotFound(parseBody: string -> Completion<Value>, store: Store)
    ensures Serve(Request("GET", "/films?genre=drama", ""), parseBody, store).reply == Reply(404, Html, NotFoundPage)
  {
    var url := "/films?genre=drama";
    assert url[..|Prefix("films")|] != Prefix("films") by {
      assert url[6] == '?' && Prefix("films")[6] == '/';
    }
  }

  /** Only GET and `POST /films` are served; a PUT is left without a reply. */
  lemma OtherMethodsUnanswered(url: string, payload: string, parseBody: string -> Completion<Value>, store: Store)
    ensures Serve(Request("PUT", url, payload), parseBody, store) == Handled(NoReply, None)
  {
  }
}

=== FILE: verify_body_structure.dfy ===
/**
 * `helpers/verifyBodyStructure.mjs`: a request body is a movie when it is
 * an object with exactly the three own properties `title` (a string),
 * `year` (a number) and `genre` (a string), checked in that order through
 * `body.hasOwnProperty`.
 */
module BodyValidation {
  import opened Completions
  import opened JsValue

  /** `typeof v`. */
  function TypeOf(v: Value): (r: string)
    ensures r == "object" <==> v.Null? || v.Arr? || v.Obj?
    ensures r == "string" <==> v.Str?
    ensures r == "number" <==> v.Num?
  {
    match v
    case Undefined => "undefined"
    case Null => "object"
    case Bool(_) => "boolean"
    case Num(_) => "number"
    case Str(_) => "string"
    case Arr(_) => "object"
    case Obj(_) => "object"
  }

  /** The schema `{ title: 'string', year: 'number', genre: 'string' }`, in key order. */
  const Schema: seq<(string, string)> := [("title", "string"), ("year", "number"), ("genre", "string")]

  const SchemaKeys: set<string> := {"title", "year", "genre"}

  /** The shape the validator is meant to accept. */
  predicate IsMovieShape(body: Value) {
    && body.Obj?
    && body.fields.Keys == SchemaKeys
    && body.fields["title"].Str?
    && body.fields["year"].Num?
    && body.fields["genre"].Str?
  }

  /** The property `prop` is own and has the schema's type. */
  predicate PropMatches(fields: map<string, Value>, i: nat)
    requires i < |Schema|
  {
    Schema[i].0 in fields && TypeOf(fields[Schema[i].0]) == Schema[i].1
  }

  /**
   * The `for … of requiredProps` loop from position `i`. A body whose own
   * `hasOwnProperty` key shadows the inherited method makes the call
   * `body.hasOwnProperty(prop)` throw, since no JSON value is a function.
   */
  function CheckFrom(fields: map<string, Value>, i: nat): (r: Completion<bool>)
    requires i <= |Schema|
    ensures r.Throw? <==> i < |Schema| && "hasOwnProperty" in fields
    ensures r == Normal(true) <==>
      (i == |Schema| || "hasOwnProperty" !in fields) && forall j :: i <= j < |Schema| ==> PropMatches(fields, j)
    decreases |Schema| - i
  {
    if i == |Schema| then Normal(true)
    else if "hasOwnProperty" in fields then Throw
    else if !PropMatches(fields, i) then Normal(false)
    else CheckFrom(fields, i + 1)
  }

  /** `verifyBodyStructure(body)`. */
  function VerifyBodyStructure(body: Value): (r: Completion<bool>)
    ensures r == Normal(true) <==> IsMovieShape(body)
    ensures r.Throw? <==> body.Obj? && |body.fields.Keys| == 3 && "hasOwnProperty" in body.fields
    ensures !body.Obj? ==> r == Normal(false)
  {
    match body
    case Obj(fields) =>
      if |fields.Keys| != |Schema| then
        assert !IsMovieShape(body) by { SchemaKeysSize(); }
        Normal(false)
      else
        ShapeByKeyCount(fields);
        CheckFrom(fields, 0)
    case _ => Normal(false)
  }

  lemma SchemaKeysSize()
    ensures |SchemaKeys| == 3
  {
  }

  /** Among maps with three keys, the loop's conditions say exactly that the keys are the schema's. */
  lemma ShapeByKeyCount(fields: map<string, Value>)
    requires |fields.Keys| == 3
    ensures (forall j :: 0 <= j < |Schema| ==> PropMatches(fields, j)) <==> IsMovieShape(Obj(fields))
  {
    SchemaKeysSize();
    if forall j :: 0 <= j < |Schema| ==> PropMatches(fields, j) {
      assert PropMatches(fields, 0) && PropMatches(fields, 1) && PropMatches(fields, 2);
      SubsetOfSameSize(SchemaKeys, fields.Keys);
    }
  }

  /** A subset as large as the whole set is the whole set. */
  lemma SubsetOfSameSize<T>(a: set<T>, b: set<T>)
    requires a <= b && |a| == |b|
    ensures a == b
  {
    assert |b - a| == |b| - |a|;
  }

  /** A patch carrying only a year is rejected: the validator demands the full shape. */
  lemma PartialPatchRejected()
    ensures VerifyBodyStructure(Obj(map["year" := Num(1999)])) == Normal(false)
  {
  }

  /** Only types are checked: an empty title and a negative year pass. */
  lemma NoRangeChecks()
    ensures VerifyBodyStructure(Obj(map["title" := Str(""), "year" := Num(-5), "genre" := Str("")])) == Normal(true)
  {
    var b := Obj(map["title" := Str(""), "year" := Num(-5), "genre" := Str("")]);
    assert b.fields.Keys == SchemaKeys;
  }

  /** A client-supplied `id` as a fourth key makes the body invalid. */
  lemma ExtraKeyRejected(body: Value)
    requires IsMovieShape(body)
    ensures VerifyBodyStructure(Obj(body.fields["id" := Num(7)])) == Normal(false)
  {
    assert "id" !in SchemaKeys;
  }
}
